=== FILE: README.md ===
# Booking system — a Dafny model

This project models the core of a slot-booking web application. Administrators
publish time slots. Users book them, and an administrator confirms one booking
per slot, which cancels the others. The model covers these parts:

- the Booking record and its unique indexes (`BookingModel`);
- creating, editing and deleting bookings, and the administrator's status
  change with its confirmation cascade (`BookingController`), plus the store
  invariants those operations keep (`BookingInvariants`);
- the booking listings: a user's own bookings, and the two administrator
  listings (`BookingQueries`);
- slot management and the three slot views, each with its own status rules
  and sort order (`SlotController`);
- the aggregation-pipeline builders (`MongoHelpers`);
- account rules for profile edits and for administrator create, update,
  delete and list (`UserController`);
- the token guards of the backend (`Auth`) and the redirect middleware of the
  frontend (`RouteGuard`);
- the frontend's UTC+7 time helpers (`CambodiaTime`), built on the
  ECMAScript calendar (`Calendar`).

Shared pieces:

- `Errors`: the error codes and `Option`/`Result`;
- `Text`: decimal strings, `split`, padding, case-insensitive search and
  string order;
- `Listing`: stable sort by key, JavaScript `slice`, and MongoDB
  `$skip`/`$limit`.

The store is `Db(slots, bookings, users)`, three sequences kept in natural
order. Ids are natural numbers. Every operation is a pure function: it returns
`Err(code)` for each error the source raises and `Ok` with the new store
otherwise.

Several things the source does are passed in as parameters:

- the current time;
- a slot's instant on the backend: the dashboard reads the date and time as
  Asia/Phnom_Penh wall-clock time (`zonedInstant`), the two user views read
  them in the server's own zone (`localInstant`);
- token verification (`verify`);
- password comparison (`matches`) and the new hash;
- fresh document ids and the generated order number.

Sent e-mails are returned as a list of notifications.

The model keeps some behaviours of the code as they are:

- `createBooking` rejects a slot that already has a booking with status
  `"approved"`. The status enum never admits that value, so the check never
  fires (`BookingController.ApprovedGuardIsDead`). A slot that is already
  confirmed still accepts new bookings.
- The administrator can set a confirmed booking back to pending or to
  cancelled. No cascade runs and the prior status is not checked.
- A cancelled booking can still be edited or deleted by its owner.
- `updateUser` counts confirmed bookings under the field `"user._id"`. No
  stored booking has that field, so the count is always 0, while the user
  listing counts by `userId` (`UserController.UpdateUserCountIgnoresBookings`).
- After 23:30 the earliest time the picker offers for today is `"24:00"`. That
  sorts after the latest time, `"23:59"`.
- The dashboard and the user views parse a slot's date and time in different
  zones. On a server behind UTC+7 a slot can already show as expired to the
  administrator while users are still offered it
  (`SlotController.ViewsDisagreeBetweenParses`).

## Model

| member | source | states |
|---|---|---|
| `BookingModel.ParseStatus` | backend/models/Booking.js:20-24 | Only "pending", "confirmed" and "cancelled" are admitted, each naming its status; any other value names no status. |
| `BookingModel.NewBooking` | backend/models/Booking.js:20-25 | A new booking has status pending, and notes that are empty unless supplied. |
| `BookingModel.FindById` | backend/controllers/bookingController.js:20-22 | A lookup by id yields a record carrying that id with none before it, and yields nothing exactly when no record carries the id (the 404 case). |
| `BookingModel.FindByIdIsTheOne` | backend/controllers/bookingController.js:20-22 | When ids are unique, looking up the id of the record at position i finds position i. |
| `BookingModel.OneConfirmedMeansCountAtMostOne` | backend/controllers/bookingController.js:218-240 | If no two bookings on a slot are both confirmed, the slot has at most one confirmed booking. |
| `BookingController.ApprovedGuardIsDead` | backend/controllers/bookingController.js:28-35 | No stored booking has status "approved", so the create-time guard can never match. |
| `BookingController.CreateBooking` | backend/controllers/bookingController.js:20-43 | A missing slot gives SLOT_NOT_FOUND; then any existing booking of the caller on the slot gives DUPLICATE_BOOKING; a repeated order id fails the insert. Otherwise one pending booking for the caller and slot is appended, with the supplied notes or empty ones and the creation time now. |
| `BookingController.CreateNeverSlotAlreadyApproved` | backend/controllers/bookingController.js:28-35 | Creating never fails with SLOT_ALREADY_APPROVED, even on a confirmed slot. |
| `BookingController.OwnedEditable` | backend/controllers/bookingController.js:67-79 | Checks in order: not found gives BOOKING_NOT_FOUND, then another owner gives FORBIDDEN, then a confirmed booking gives BOOKING_CONFIRMED. Pending and cancelled bookings pass. |
| `BookingController.UpdateBooking` | backend/controllers/bookingController.js:81-96 | A move to a different slot needs that slot to exist and the caller to have no booking on it; when the ownership checks pass and the target is unchanged, or exists and is free for the caller, the edit succeeds. Notes change only when supplied. Id, owner, order id, status and creation time are kept. |
| `BookingController.DeleteBooking` | backend/controllers/bookingController.js:171-185 | Succeeds exactly when the edit checks pass. The bookings are then the old ones with exactly that position removed; slots and users are untouched. |
| `BookingController.Cascade` | backend/controllers/bookingController.js:230-240 | The cascade changes only statuses and keeps every booking in place. |
| `BookingController.LoserMails` | backend/controllers/bookingController.js:238-258 | Each message is the "Cancelled" notice of exactly one booking the cascade cancels. Every cancelled booking whose owner has an address gets its notice, and with unique order ids no booking gets two. |
| `BookingController.UpdateBookingStatus` | backend/controllers/bookingController.js:201-313 | Non-admins get UNAUTHORIZED, then a missing booking gives BOOKING_NOT_FOUND, then a missing slot gives SLOT_NOT_FOUND, whatever the target. Once the slot is found: confirming gives SLOT_ALREADY_CONFIRMED when another booking there is confirmed and succeeds otherwise; any other enum value succeeds; a value outside the enum gives UPDATE_BOOKING_STATUS_FAILED. A confirmation writes the cascade and mails the cancelled owners, then the winner; any other status is written onto that booking alone, with a "Cancelled" notice only for cancelled. |
| `BookingInvariants.CreatePreservesValid` | backend/controllers/bookingController.js:37-43 | Creating keeps ids and order ids unique, one booking per slot and user, and at most one confirmed booking per slot. |
| `BookingInvariants.UpdatePreservesValid` | backend/controllers/bookingController.js:81-96 | Editing keeps the same invariants. |
| `BookingInvariants.DeletePreservesValid` | backend/controllers/bookingController.js:185 | Deleting keeps the same invariants. |
| `BookingInvariants.StatusUpdatePreservesValid` | backend/controllers/bookingController.js:218-279 | Every status change, including confirmation with its cascade, keeps the same invariants. |
| `BookingInvariants.ConfirmRefusedIffOtherConfirmed` | backend/controllers/bookingController.js:218-228 | Confirming fails, with SLOT_ALREADY_CONFIRMED, exactly when a different booking on the slot is confirmed. |
| `BookingInvariants.ReconfirmSucceeds` | backend/controllers/bookingController.js:219-228 | Confirming the slot's already-confirmed booking succeeds. |
| `BookingInvariants.ConfirmCascades` | backend/controllers/bookingController.js:230-240 | After a confirmation the target is confirmed and every other booking on its slot is cancelled. Bookings on other slots are unchanged, and the slot has exactly one confirmed booking. |
| `BookingInvariants.ExactlyOneConfirmed` | backend/controllers/bookingController.js:225-240 | One confirmed booking on a slot, with every other booking there unconfirmed, counts as exactly one. |
| `BookingInvariants.NonConfirmWritesDirectly` | backend/controllers/bookingController.js:277-279 | A non-confirm enum value is written onto the booking whatever its prior status, and nothing else changes. Setting pending sends no mail. |
| `BookingInvariants.InvalidStatusRejected` | backend/controllers/bookingController.js:275-313 | A value outside the enum never succeeds; when the booking and its slot exist, the failed validation gives UPDATE_BOOKING_STATUS_FAILED. |
| `BookingInvariants.StatusWritesIndependentOfMail` | backend/controllers/bookingController.js:244-255 | The result of a status change does not depend on the user directory that mail is addressed from. |
| `BookingInvariants.ConfirmMailsMatchCascade` | backend/controllers/bookingController.js:232-273 | Every cancellation notice of a confirmation belongs to a booking the cascade cancelled; every such booking whose owner has an address is notified, and so is the winner, with "Confirmed". |
| `BookingQueries.StatusPriority` | backend/controllers/bookingController.js:143 | The status order: pending 1, confirmed 2, cancelled 3. |
| `BookingQueries.UserItems` | backend/controllers/bookingController.js:117-139 | Every item is one of the caller's bookings shown with its slot, which passes the date and time-search filters; every such booking yields its item. hasBook holds iff the status is confirmed, and cancelled iff it is cancelled. |
| `BookingQueries.FilterStatus` | backend/controllers/bookingController.js:141 | A given status keeps exactly the items of that status name; without one, nothing is dropped. |
| `BookingQueries.GetUserBookings` | backend/controllers/bookingController.js:112-155 | The total is the count after all filters; page and limit default to 1 and 20. The items are the in-memory page of the filtered items sorted by status: at most limit of them, the caller's, with hasBook iff confirmed. |
| `BookingQueries.UserBookingIsListed` | backend/controllers/bookingController.js:112-155 | Every booking of the caller that passes the slot and status filters is on some page, for any positive limit. |
| `BookingQueries.StatusSortGroups` | backend/controllers/bookingController.js:143-144 | The stable sort yields all pending items, then all confirmed ones, then all cancelled ones, each group in its original order. |
| `BookingQueries.JoinRow` | backend/controllers/bookingController.js:333-352 | A booking yields a row exactly when both its slot and its user exist. |
| `BookingQueries.AdminRows` | backend/controllers/bookingController.js:331-369 | A row is listed exactly when its booking joins and passes the status, date and search filters. |
| `BookingQueries.GetAdminBookings` | backend/controllers/bookingController.js:323-424 | Admins only. The total counts every matching row. The items are the database page of the matching rows sorted by status priority, date, time and creation time; they pass the filters and number at most limit. Bad paging gives GET_ADMIN_BOOKINGS_FAILED. |
| `BookingQueries.GetAdminConfirmedBookings` | backend/controllers/bookingController.js:443-501 | Admins only. The items are the database page of the matching confirmed rows sorted by date and time, at most limit of them; the total counts all matching rows. Bad paging, and only bad paging, gives GET_CONFIRMED_BOOKINGS_FAILED. |
| `BookingQueries.AdminBookingIsListed` | backend/controllers/bookingController.js:323-424 | Every booking whose slot and user exist and whose row passes the filters is on some page of the administrator listing. |
| `BookingQueries.ConfirmedBookingIsListed` | backend/controllers/bookingController.js:443-501 | Every confirmed booking whose slot and user exist and whose row passes the date and search filters is on some page of the confirmed listing. |
| `Listing.SortBy` | backend/controllers/bookingController.js:144 | Sorting yields a permutation of its input, ordered by the key. |
| `Listing.JsSlice` | backend/controllers/bookingController.js:146-147 | `slice(start, start + limit)` with a non-negative start is the contiguous run starting there, at most limit long. |
| `Listing.SkipLimit` | backend/controllers/slotController.js:192-193 | `$skip` then `$limit` fail for a negative skip or a non-positive limit. Otherwise they give the run starting at skip, at most limit long. |
| `Listing.SliceAgreesWithSkipLimit` | backend/utils/mongoHelpers.js:66-69 | For a page and limit of at least 1, the in-memory slice and the database stages cut out the same page. |
| `Listing.SkipLimitHoldsItsPage` | backend/utils/mongoHelpers.js:66-69 | Position i of a list is row i mod limit of page i div limit + 1 of the skip-then-limit stages. |
| `Listing.JsSliceHoldsItsPage` | backend/controllers/bookingController.js:146-147 | Position i of a list is item i mod limit of the slice for page i div limit + 1. |
| `Listing.DbPage` | backend/controllers/slotController.js:186-193 | The sort, skip and limit stages fail exactly for a negative offset or a non-positive limit; otherwise they give rows (page-1)*limit onwards of the sorted rows, at most limit of them, in key order. |
| `Listing.DbPageOf` | backend/controllers/slotController.js:186-193 | Every row lies on some page of the database listing, for any positive limit. |
| `Listing.MemPage` | backend/controllers/bookingController.js:144-147 | For page and limit of at least one, the in-memory page holds exactly the items from (page-1)*limit on, as many as remain up to limit, in key order. |
| `Listing.MemPageOf` | backend/controllers/bookingController.js:144-147 | Every item lies on some page of the in-memory listing, for any positive limit. |
| `Listing.FilterMap` | backend/controllers/slotController.js:282-308 | Every kept value is the image of an element, and every element the map accepts has its image kept. |
| `Listing.FilterMapAppend` | backend/controllers/slotController.js:282-308 | Filtering and mapping a concatenation is the concatenation of the two results, so the kept rows follow the store order. |
| `Listing.FilterMapCount` | backend/controllers/slotController.js:282-308 | When the map drops every element nothing is kept; when it accepts every element, all are kept. |
| `Text.NatToStringRoundTrip` | frontend/app/utils/time.js:6-9 | Writing a number in decimal and reading it back with `Number` gives the number. |
| `Text.Pad2` | frontend/app/utils/time.js:33 | A number below 100 is padded to two digits that read back as the number. |
| `Text.SplitFirst` | frontend/app/utils/time.js:56-57 | Splitting text whose first part has no separator gives that part, then the split of the rest. |
| `SlotController.BookedFlagMeansConfirmed` | backend/controllers/slotController.js:109-132 | The booked flag, computed over the looked-up bookings, holds iff some booking on the slot is confirmed. |
| `SlotController.LookedUpOwnBooking` | backend/controllers/slotController.js:283-290 | The viewer's booking is among the looked-up bookings of a slot exactly when the store holds one. |
| `SlotController.LookedUpOthersConfirmed` | backend/controllers/slotController.js:292-295 | Another user's confirmed booking is among the looked-up bookings exactly when the store holds one. |
| `SlotController.CreateSlot` | backend/controllers/slotController.js:30-43 | Callers other than admins get UNAUTHORIZED; otherwise the slot is appended and nothing else changes. |
| `SlotController.UpdateSlot` | backend/controllers/slotController.js:50-63 | Admins only. A missing id changes nothing and returns null. Otherwise the answered slot keeps the id, takes each given field, and is written over the found slot; nothing else changes. |
| `SlotController.DeleteSlot` | backend/controllers/slotController.js:70-81 | Admins only. The found slot is removed from its position, the other slots keep their order, and bookings are left in place. |
| `SlotController.CreatedSlotIsFound` | backend/controllers/slotController.js:30-43 | A slot created under a fresh id is found by that id at the end of the store, and earlier lookups still find the same slot. |
| `SlotController.UpdatedSlotReadsBack` | backend/controllers/slotController.js:50-63 | After an update of an existing slot, looking up its id finds the answered slot at the same position, carrying every supplied field. |
| `SlotController.DeletedSlotIsGone` | backend/controllers/slotController.js:70-81 | With distinct slot ids, the deleted id can no longer be found. |
| `SlotController.DeleteSlotKeepsBookingsValid` | backend/controllers/slotController.js:76 | Deleting a slot leaves its bookings behind, and the booking invariants still hold. |
| `SlotController.AdminSlotStatus` | backend/controllers/slotController.js:122-157 | A slot is expired iff its instant, read at Asia/Phnom_Penh, is strictly before now. Otherwise it is booked iff some booking on it is confirmed; otherwise it is available. |
| `SlotController.SlotPriority` | backend/controllers/slotController.js:171-184 | The dashboard priorities: available 1, booked 2, expired 3. |
| `SlotController.AdminSlotRowOf` | backend/controllers/slotController.js:98-159 | A slot is listed iff it passes the date, time-search and status filters. Its row carries its bookings and its derived status. |
| `SlotController.GetSlotsForAdmin` | backend/controllers/slotController.js:88-203 | Admins only. The total counts all matching slots before paging. The items are the database page of the matching rows sorted by priority, date and time, at most limit of them. Bad paging gives GET_ADMIN_SLOTS_FAILED. |
| `SlotController.AdminSlotIsListed` | backend/controllers/slotController.js:88-203 | Every slot whose row passes the filters is on some page of the dashboard, for any positive limit. |
| `SlotController.AdminPageOrder` | backend/controllers/slotController.js:186 | On a page, available rows precede booked ones, which precede expired ones; rows of equal status are in date order. |
| `SlotController.AvailableRowOf` | backend/controllers/slotController.js:229-250 | A slot is offered iff it is on the date and has no booking by the viewer, no confirmed booking, and no expiry. It is then shown as available with canBook true. |
| `SlotController.GetAvailableSlotsForUser` | backend/controllers/slotController.js:214-256 | The rows are, in store order, one per slot on the date that is free for the viewer, shown as available; the total is their number. |
| `SlotController.ViewerRowOf` | backend/controllers/slotController.js:283-306 | Slots the viewer booked, and expired slots, are dropped. Status is booked iff another user holds a confirmed booking, and canBook iff it is available. |
| `SlotController.UserViewRowOf` | backend/controllers/slotController.js:310-312 | A requested status keeps only rows with that status name. |
| `SlotController.UserViewRows` | backend/controllers/slotController.js:282-312 | The rows are, in store order, one per slot that passes the viewer, expiry and status filters. |
| `SlotController.GetAvailableAndBookedSlotsForUser` | backend/controllers/slotController.js:267-324 | The rows are a permutation of the filtered rows, sorted available first, then by date, then time; none is expired, and the total is their number. |
| `SlotController.ExpiryIsStrict` | backend/controllers/slotController.js:133-141 | A slot whose instant equals now, under either parse, is not expired in any of the three views. |
| `SlotController.ViewerAgreesWithDashboard` | backend/controllers/slotController.js:293-300 | For a slot the viewer has not booked, and when the two parses of its date and time agree, the user view's status is the dashboard's. |
| `SlotController.ViewsDisagreeBetweenParses` | backend/controllers/slotController.js:136-141 | When the Phnom Penh instant has passed but the server-local one has not, the dashboard shows the slot expired while the viewer is still offered it. |
| `SlotController.AvailableViewInsideFullView` | backend/controllers/slotController.js:229-250 | Every slot of the available-only view also appears in the full user view. |
| `MongoHelpers.BuildBookingPipeline` | backend/utils/mongoHelpers.js:12-57 | The pipeline has 3 to 7 stages and always ends with the newest-first sort. It starts with a user match iff a user id is given. |
| `MongoHelpers.BuildBookingPipelineRoundTrip` | backend/utils/mongoHelpers.js:16-51 | Reading the match stages back yields exactly the given user, date, search and status. Empty values and the status "all" read as absent. |
| `MongoHelpers.DateMatchFollowsUnwind` | backend/utils/mongoHelpers.js:21-36 | A date match always comes right after the slot lookup and unwind. |
| `MongoHelpers.PipelineAlwaysJoinsSlot` | backend/utils/mongoHelpers.js:21-31 | The slot lookup and unwind are always present, in that order. |
| `MongoHelpers.OptionalStagesPresence` | backend/utils/mongoHelpers.js:34-51 | A status stage is present iff a status other than "all" is given; a date stage is present iff a date is given. |
| `MongoHelpers.PaginatePipeline` | backend/utils/mongoHelpers.js:66-69 | The input is kept as a prefix, followed by exactly a skip of (page-1)*limit and a limit. |
| `MongoHelpers.PaginateDefaults` | backend/utils/mongoHelpers.js:66 | With the default arguments the stages are a skip of 0 and a limit of 20. |
| `MongoHelpers.PaginateMeansSkipLimit` | backend/utils/mongoHelpers.js:67-68 | Running the two appended stages cuts out the page that skip-then-limit describes. |
| `UserController.WriteUser` | backend/controllers/userController.js:101-103 | The update fails iff another account holds the new name or e-mail; otherwise only that account changes, and names and e-mails stay unique. |
| `UserController.UpdateProfile` | backend/controllers/userController.js:25-115 | USER_NOT_FOUND, then EMAIL_OR_PASSWORD_ONLY. For an e-mail or password change: PASSWORD_REQUIRED without the current password, INVALID_PASSWORD when it is wrong, then EMAIL_EXISTS for a taken address or SAME_PASSWORD for an unchanged password. With unique accounts, the update succeeds exactly when these checks pass and no other account holds the new name. |
| `UserController.ProfileFailsOnlyOnTakenName` | backend/controllers/userController.js:101-113 | A name-only change fails, with UPDATE_PROFILE_FAILED, exactly when another account holds the name. |
| `UserController.CreateUser` | backend/controllers/userController.js:178-214 | REQUIRED_FIELDS, then NAME_EXISTS, then EMAIL_EXISTS. Otherwise the account is appended, with role "user" unless a role is given. |
| `UserController.CreateKeepsUsersValid` | backend/controllers/userController.js:192-202 | Creating an account keeps names and e-mails unique. |
| `UserController.CountByUserPath` | backend/controllers/userController.js:254-257 | Counting by "user._id" finds no booking. |
| `UserController.UpdateUser` | backend/controllers/userController.js:222-266 | NAME_EXISTS exactly when a changed name is taken, then EMAIL_EXISTS exactly when a changed e-mail is taken; no other error but USER_NOT_FOUND or the write failure, and with unique accounts passing checks means success. Fields not supplied stay unchanged and the reported count is 0. |
| `UserController.UpdateUserChecksSuffice` | backend/controllers/userController.js:233-252 | With unique names and e-mails stored, the update never fails at the write, and uniqueness is kept. |
| `UserController.UpdateUserCountIgnoresBookings` | backend/controllers/userController.js:254-257 | A user with a confirmed booking is still reported with a count of 0. |
| `UserController.ConfirmedCountIsSize` | backend/controllers/userController.js:139-154 | The listing's count is the number of that user's confirmed bookings. |
| `UserController.DropUserKeepsValid` | backend/controllers/userController.js:285-286 | Removing every booking of one user keeps the booking invariants. |
| `UserController.DeleteUser` | backend/controllers/userController.js:274-291 | USER_NOT_FOUND, or the account is removed from its position and exactly that user's bookings go, keeping both stores' invariants. |
| `UserController.ListedUsers` | backend/controllers/userController.js:124-132 | Listed are exactly the accounts with role "user" whose name or e-mail contains the search. |
| `UserController.RowsOf` | backend/controllers/userController.js:139-155 | Row i shows account i of the page. |
| `UserController.RowOf` | backend/controllers/userController.js:139-155 | A row is its account without the password, with the number of its confirmed bookings. |
| `UserController.GetUsers` | backend/controllers/userController.js:122-171 | Bad paging gives GET_USERS_FAILED. The total counts all listed accounts; the rows are those of the database page of the listed accounts sorted by name, in name order. |
| `UserController.ListedUserIsOnAPage` | backend/controllers/userController.js:122-171 | Every listed account's row is on some page, for any positive limit. |
| `Calendar.DayFromYearClosedForm` | frontend/app/utils/time.js:6 | The year-start count equals ECMAScript's closed form with leap days every 4 years, less centuries, plus every 400 years. |
| `Calendar.CivilFromDays` | frontend/app/utils/time.js:6-8 | The year, month and date read from a day number form a valid date that maps back to that day. |
| `Calendar.CivilRoundTrip` | frontend/app/utils/time.js:58 | Every valid date is read back from its day number. |
| `Calendar.DaysFromCivilOrder` | frontend/app/utils/time.js:58-59 | Day numbers order dates by year, then month, then day. |
| `Calendar.WallClockMinute` | frontend/app/utils/time.js:18-21 | The minute a time value falls in is the one its day, hour and minute fields name. |
| `CambodiaTime.TodayCambodia` | frontend/app/utils/time.js:2-10 | Today is the UTC+7 date written as year-MM-DD, or "NaN-NaN-NaN" for an invalid date. |
| `CambodiaTime.NowCambodia` | frontend/app/utils/time.js:15-23 | The pair is the hour and minute at UTC+7 of the current instant, below 24 and 60. |
| `CambodiaTime.NowCambodiaIsMinuteOfDay` | frontend/app/utils/time.js:15-23 | The hour and minute name the minute of the UTC+7 day that the clock is in. |
| `CambodiaTime.RoundUp` | frontend/app/utils/time.js:30-32 | The minute becomes 0 or 30 and the result is a multiple of 30 minutes. It is less than 30 minutes after now and not before it, with no wrap past hour 23. |
| `CambodiaTime.RoundUpIsNextHalfHour` | frontend/app/utils/time.js:30-32 | The rounded time is the first half-hour mark at or after the current minute. |
| `CambodiaTime.RoundedNow` | frontend/app/utils/time.js:28-34 | The strings are the two-digit padding of the rounded hour and minute; the minute is "00" or "30"; an invalid date gives ("NaN", "00"). |
| `CambodiaTime.MinTime` | frontend/app/utils/time.js:39-43 | For today the earliest time is the current UTC+7 minute rounded up to the half hour, formatted HH:MM; an invalid clock gives "NaN:00"; any other date gives "00:00". |
| `CambodiaTime.MaxTime` | frontend/app/utils/time.js:48-50 | The latest time is five characters with a colon at position 2. |
| `CambodiaTime.SlotInstant` | frontend/app/utils/time.js:56-58 | A valid instant needs three date parts and two time parts that all read as numbers, and is the UTC reading of those numbers with the month one less and the hour seven less. |
| `CambodiaTime.IsSlotPast` | frontend/app/utils/time.js:55-60 | A slot is past exactly when its instant is valid and not after now; an invalid date is never past. |
| `CambodiaTime.SplitFormatDate` | frontend/app/utils/time.js:56 | A year-MM-DD date splits back into its year, month and day. |
| `CambodiaTime.SlotInstantOfFormatted` | frontend/app/utils/time.js:55-58 | A formatted date and time name the instant of that wall-clock minute at UTC+7. |
| `CambodiaTime.SlotInstantOfParts` | frontend/app/utils/time.js:56-58 | Once all five parts read as numbers, the instant is the clipped UTC reading with the hour moved back by seven. |
| `CambodiaTime.SlotPastIffNotAfterNow` | frontend/app/utils/time.js:55-60 | A slot is past iff its date is before today or it is today and not after the current minute. The test is inclusive. |
| `CambodiaTime.MidnightTodayIsPast` | frontend/app/utils/time.js:2-10 | Midnight of today's date has always passed. |
| `CambodiaTime.MinTimeTodayPastIffOnHalfHour` | frontend/app/utils/time.js:39-43 | Today's earliest offered time is already past exactly when the clock stands on a full or half hour. |
| `CambodiaTime.MinTimeLateEvening` | frontend/app/utils/time.js:31-33 | After 23:30 the earliest time is "24:00", which sorts after the latest. |
| `CambodiaTime.MinTimeWithinDay` | frontend/app/utils/time.js:39-50 | Until 23:30, or on any other date, the earliest time does not sort after the latest. |
| `Auth.BearerToken` | backend/middleware/auth.js:6 | The header token is the second space-separated word, when it exists and is non-empty. |
| `Auth.RequestToken` | backend/middleware/auth.js:6 | The header's token wins. Otherwise a non-empty cookie is used; otherwise there is no token. |
| `Auth.Authenticate` | backend/middleware/auth.js:4-21 | NO_TOKEN iff there is no token, and INVALID_TOKEN iff verification fails, both 401. Otherwise the verified claims are the result. |
| `Auth.BearerHeaderYieldsToken` | backend/middleware/auth.js:6 | A `Bearer <token>` header yields the token, whatever the cookie. |
| `Auth.HeaderWithoutSpaceFallsBack` | backend/middleware/auth.js:6 | A header without a space yields no token, so the cookie is used. |
| `Auth.OnlyUser` | backend/middleware/auth.js:22-27 | Passes iff the role is "user"; otherwise 403 with no code. |
| `Auth.AdminOnly` | backend/middleware/auth.js:29-36 | Passes iff the role is "admin"; otherwise 403 NOT_ADMIN. |
| `Auth.AdminRouteAdmits` | backend/middleware/auth.js:4-36 | An admin route admits a request iff its token verifies to claims with role "admin". |
| `Auth.UserTokenRefusedOnAdminRoute` | backend/middleware/auth.js:4-36 | A verified user token authenticates, and the admin guard then refuses it with 403 NOT_ADMIN. |
| `Auth.AdminTokenRefusedOnUserRoute` | backend/middleware/auth.js:4-27 | A verified admin token authenticates, and the user-only guard then refuses it with a bare 403. |
| `RouteGuard.CookieRole` | frontend/middleware.js:8-19 | The role is known iff a non-empty cookie verifies; a missing or invalid token gives no role. |
| `RouteGuard.Route` | frontend/middleware.js:20-34 | A path starting with /admin without the admin role, or with /user without the user role, goes to /auth/login. "/" with a role goes to /admin/slots for admin and /user/slots otherwise. Everything else passes. |
| `RouteGuard.Middleware` | frontend/middleware.js:6-35 | Login redirect exactly for /admin without a verified admin token or /user without a verified user token; "/" goes to /admin/slots for a verified admin and /user/slots for another verified role; everything else passes. |
| `RouteGuard.ProtectedPagesNeedRole` | frontend/middleware.js:6-26 | A page under /admin is reached only with a verified admin token; one under /user only with a verified user token. |
| `RouteGuard.HomeRedirectIsAdmitted` | frontend/middleware.js:28-32 | Following the redirect from "/" leads to a page that the same role is admitted to. |
| `RouteGuard.SignedOutSeesLogin` | frontend/middleware.js:20-26 | Without a role every protected page goes to the login page, and the login page is let through. |

## Left out

- Express routing, Swagger documentation and server wiring: plumbing.
  `getAllSlots` and `getProfile` are plain reads and are not modelled.
- JWT signing and verification: the parameter `verify`. Claims always carry
  a role string; a payload without a role is read as an empty one.
- bcrypt: `compare` is the parameter `matches` and a hash is a parameter.
  `User.js` and `Slot.js` are not part of this model. Names and e-mails are
  assumed to be unique indexes on the User schema (User.js is not modelled).
  A password hook in the
  user schema, if any, is not modelled, so `createUser` stores the password
  as given.
- Mail delivery: notifications are returned as a list. The mailer swallows
  its own errors, so the list cannot affect the store.
- MongoDB semantics:
  - a `$regex` search is read as a literal case-insensitive substring;
  - strings sort by code point, also for `localeCompare`;
  - rows with equal sort keys keep their store order;
  - `$lookup`/`$unwind` are joins over the store sequences.
- Storage failures other than the ones the model can name are left out:
  GET_BOOKINGS_FAILED, UPDATE_BOOKING_FAILED, DELETE_BOOKING_FAILED,
  CREATE_SLOT_FAILED, UPDATE_SLOT_FAILED, DELETE_SLOT_FAILED and
  DELETE_USER_FAILED need a failing database, or a malformed id that the model
  cannot express.
- Concurrency: the cascade's `Promise.all` runs in sequence. The race between
  the "already confirmed" check and the write is not modelled.
- Time on the backend: the dashboard's `$dateFromString` at Asia/Phnom_Penh
  is the parameter `zonedInstant`; the user views' server-local `dayjs` parse
  is the parameter `localInstant`. "Now" is a parameter. The order-number
  clock `Date.now()` is the parameter `orderId`.
- Time on the frontend:
  - The clock is one parameter `nowMs`; `getMinTime` reads the clock twice in
    the source.
  - The host's time-zone offset is taken as constant, so daylight-saving
    changes between the two readings are not modelled. The invalid-date
    boundary is placed at the UTC+7 instant itself.
  - `Number` is modelled for plain digit strings (the empty string reads 0).
    Signs, decimals, exponents, hexadecimal and surrounding blanks read as
    NaN here.
- Query-string paging values are taken as integers or absent. A page or
  limit that `Number` cannot read is not modelled.
- `createdAt` is stored; `updatedAt` is not.
- Next.js route-matcher configuration (`frontend/middleware.js:37-39`) is
  framework wiring. `Route` is stated for every path.
- The React pages and components: user interface only.
- `CambodiaTime.MaxTime`: states the shape of `"23:59"` rather than the
  literal value, which `MinTimeWithinDay` and `MinTimeLateEvening` use.
- `SlotController.ViewerAgreesWithDashboard`: holds only when the two parses
  of the slot's date and time agree, that is on a server running at UTC+7;
  elsewhere the views disagree, as `ViewsDisagreeBetweenParses` shows.
- `BookingModel.FindSlot`: ids are not assumed unique, so a lookup takes the
  first match; `FindByIdIsTheOne` covers a store with unique ids.
- `BookingController.UpdateBookingStatus`: the target is always a string;
  request bodies without a `status` field are not modelled. There the source
  would store an unset status, which the schema does not forbid, and answer
  success.

=== FILE: auth.dfy ===
/** The backend's authentication middleware: find the token in the
    `Authorization` header or the `token` cookie, verify it, and let the
    route guards admit only admins or only users. Signature checking is the
    parameter `verify`, which yields the token's claims or `None` when
    verification throws. */
module Auth {
  import opened Errors
  import opened Text

  /** The `{ id, role }` payload the login endpoint signs. */
  datatype Claims = Claims(id: nat, role: string)

  /** `authorization?.split(" ")[1]` when it is a non-empty string. */
  function BearerToken(header: Option<string>): (t: Option<string>)
    ensures t.Some? <==> header.Some? && |Split(header.value, ' ')| >= 2 && Split(header.value, ' ')[1] != ""
    ensures t.Some? ==> t.value == Split(header.value, ' ')[1]
  {
    if header.None? then None
    else
      var parts := Split(header.value, ' ');
      if |parts| >= 2 && parts[1] != "" then Some(parts[1]) else None
  }

  /** The token the request carries: the header's second word, and when
      that is missing or empty, a non-empty `token` cookie. */
  function RequestToken(header: Option<string>, cookie: Option<string>): (t: Option<string>)
    ensures t.Some? ==> t.value != ""
    ensures t.None? <==> BearerToken(header).None? && !Given(cookie)
    ensures BearerToken(header).Some? ==> t == BearerToken(header)
    ensures BearerToken(header).None? && Given(cookie) ==> t == cookie
  {
    var b := BearerToken(header);
    if b.Some? then b else if Given(cookie) then cookie else None
  }

  /** `authenticate`: 401 `NO_TOKEN` without a token, 401 `INVALID_TOKEN`
      when verification fails, and otherwise the claims become
      `req.user`. */
  function Authenticate(header: Option<string>, cookie: Option<string>, verify: string -> Option<Claims>): (r: Result<Claims>)
    ensures r == Err(NoToken) <==> RequestToken(header, cookie).None?
    ensures r == Err(InvalidToken) <==> RequestToken(header, cookie).Some? && verify(RequestToken(header, cookie).value).None?
    ensures r.Ok? ==> RequestToken(header, cookie).Some? && verify(RequestToken(header, cookie).value) == Some(r.value)
    ensures r.Err? ==> HttpStatus(r.error) == 401
  {
    match RequestToken(header, cookie)
    case None => Err(NoToken)
    case Some(token) =>
      match verify(token)
      case None => Err(InvalidToken)
      case Some(claims) => Ok(claims)
  }

  /** A `Bearer <token>` header yields the token, whatever the cookie. */
  lemma BearerHeaderYieldsToken(scheme: string, token: string, cookie: Option<string>)
    requires ' ' !in scheme && ' ' !in token && token != ""
    ensures RequestToken(Some(scheme + " " + token), cookie) == Some(token)
  {
    SplitFirst(scheme, ' ', token);
    SplitNoSeparator(token, ' ');
    assert scheme + " " + token == scheme + [' '] + token;
  }

  /** A header without a space, such as a bare token, is not read; the
      cookie is used instead. */
  lemma HeaderWithoutSpaceFallsBack(header: string, cookie: Option<string>)
    requires ' ' !in header
    ensures RequestToken(Some(header), cookie) == (if Given(cookie) then cookie else None)
  {
    SplitNoSeparator(header, ' ');
  }

  /** `onlyUser`: 403 without a code unless the caller's role is `user`. */
  function OnlyUser(claims: Claims): (r: Result<Claims>)
    ensures r.Ok? <==> claims.role == "user"
    ensures r.Ok? ==> r.value == claims
    ensures r.Err? ==> HttpStatus(r.error) == 403 && Code(r.error).None?
  {
    if claims.role != "user" then Err(OnlyUsers) else Ok(claims)
  }

  /** `adminMiddleware`: 403 `NOT_ADMIN` unless the caller's role is
      `admin`. */
  function AdminOnly(claims: Claims): (r: Result<Claims>)
    ensures r.Ok? <==> claims.role == "admin"
    ensures r.Ok? ==> r.value == claims
    ensures r.Err? ==> HttpStatus(r.error) == 403 && Code(r.error) == Some("NOT_ADMIN")
  {
    if claims.role != "admin" then Err(NotAdmin) else Ok(claims)
  }

  /** A verified token of a plain user authenticates, but an admin route
      then refuses it with 403 `NOT_ADMIN`. */
  lemma UserTokenRefusedOnAdminRoute(header: Option<string>, cookie: Option<string>, verify: string -> Option<Claims>, t: string)
    requires RequestToken(header, cookie) == Some(t) && verify(t).Some? && verify(t).value.role == "user"
    ensures Authenticate(header, cookie, verify) == Ok(verify(t).value)
    ensures AdminOnly(Authenticate(header, cookie, verify).value) == Err(NotAdmin)
  {
  }

  /** A verified administrator token authenticates, but a user-only route
      then refuses it with a bare 403. */
  lemma AdminTokenRefusedOnUserRoute(header: Option<string>, cookie: Option<string>, verify: string -> Option<Claims>, t: string)
    requires RequestToken(header, cookie) == Some(t) && verify(t).Some? && verify(t).value.role == "admin"
    ensures Authenticate(header, cookie, verify) == Ok(verify(t).value)
    ensures OnlyUser(Authenticate(header, cookie, verify).value) == Err(OnlyUsers)
  {
  }

  /** An admin route admits a request exactly when it carries a token that
      verifies to claims with role `admin`. */
  lemma AdminRouteAdmits(header: Option<string>, cookie: Option<string>, verify: string -> Option<Claims>)
    ensures (Authenticate(header, cookie, verify).Ok? && AdminOnly(Authenticate(header, cookie, verify).value).Ok?)
        <==> (exists t :: RequestToken(header, cookie) == Some(t) && verify(t).Some? && verify(t).value.role == "admin")
  {
    var tok := RequestToken(header, cookie);
    if tok.Some? {
      assert RequestToken(header, cookie) == Some(tok.value);
    }
  }
}

=== FILE: booking_controller.dfy ===
/** The booking mutations: a user creates, edits and deletes their own
    bookings, and an administrator sets a booking's status, where confirming
    one booking cancels every other live booking on the same slot.
    Notification e-mails are returned as a list of messages the mailer is
    asked to send; the mailer swallows its own failures, so nothing the
    list holds can affect the store. */
module BookingController {
  import opened Errors
  import opened BookingModel

  datatype Notification = Notification(
    to: string, name: string, date: string, time: string, orderId: string, statusLabel: string)

  // ---------------------------------------------------------------------
  // createBooking

  /** The guard that looks for a booking on the slot with status "approved",
      a value the status enum never admits. */
  predicate ApprovedBookingOn(bs: seq<Booking>, slotId: SlotId)
  {
    exists i :: 0 <= i < |bs| && bs[i].slotId == slotId && StatusName(bs[i].status) == "approved"
  }

  lemma ApprovedGuardIsDead(bs: seq<Booking>, slotId: SlotId)
    ensures !ApprovedBookingOn(bs, slotId)
  {
    forall i | 0 <= i < |bs| ensures StatusName(bs[i].status) != "approved" {
      match bs[i].status
      case Pending => assert "pending"[0] != "approved"[0];
      case Confirmed => assert "confirmed"[0] != "approved"[0];
      case Cancelled => assert "cancelled"[0] != "approved"[0];
    }
  }

  /** A user books a slot. `freshId` is the new document id; `orderId` is the
      generated order number, whose unique index makes the insert fail when
      it repeats; `now` is the creation time. */
  function CreateBooking(db: Db, caller: UserId, slotId: SlotId, notes: Option<string>,
                         freshId: BookingId, orderId: string, now: int): (r: Result<(Db, Booking)>)
    requires !BookingIdTaken(db.bookings, freshId)
    ensures !SlotExists(db, slotId) ==> r == Err(SlotNotFound)
    ensures SlotExists(db, slotId) && HasBookingFor(db.bookings, caller, slotId) ==> r == Err(DuplicateBooking)
    ensures SlotExists(db, slotId) && !HasBookingFor(db.bookings, caller, slotId) && OrderIdTaken(db.bookings, orderId)
            ==> r == Err(CreateBookingFailed)
    ensures r.Ok? <==> SlotExists(db, slotId) && !HasBookingFor(db.bookings, caller, slotId) && !OrderIdTaken(db.bookings, orderId)
    ensures r.Ok? ==>
      var b := r.value.1;
      && b.status == Pending && b.userId == caller && b.slotId == slotId && b.id == freshId && b.orderId == orderId
      && b.notes == (if notes.Some? then notes.value else "") && b.createdAt == now
      && r.value.0 == db.(bookings := db.bookings + [b])
  {
    if FindSlot(db.slots, slotId).None? then Err(SlotNotFound)
    else if HasBookingFor(db.bookings, caller, slotId) then Err(DuplicateBooking)
    else if ApprovedBookingOn(db.bookings, slotId) then (ApprovedGuardIsDead(db.bookings, slotId); Err(SlotAlreadyApproved))
    else if OrderIdTaken(db.bookings, orderId) then Err(CreateBookingFailed)
    else
      var b := NewBooking(freshId, slotId, caller, orderId, notes, now);
      Ok((db.(bookings := db.bookings + [b]), b))
  }

  /** The "slot already approved" rejection never happens: in particular a
      slot that already has a confirmed booking still accepts new ones. */
  lemma CreateNeverSlotAlreadyApproved(db: Db, caller: UserId, slotId: SlotId, notes: Option<string>,
                                       freshId: BookingId, orderId: string, now: int)
    requires !BookingIdTaken(db.bookings, freshId)
    ensures CreateBooking(db, caller, slotId, notes, freshId, orderId, now) != Err(SlotAlreadyApproved)
  {
  }

  // ---------------------------------------------------------------------
  // updateBooking and deleteBooking

  /** The checks shared by edit and delete: found, owned by the caller, not
      confirmed (pending and cancelled bookings both pass). */
  function OwnedEditable(bs: seq<Booking>, caller: UserId, bookingId: BookingId): (r: Result<nat>)
    ensures FindBooking(bs, bookingId).None? ==> r == Err(BookingNotFound)
    ensures r.Ok? ==> r.value < |bs| && bs[r.value].id == bookingId
                      && bs[r.value].userId == caller && bs[r.value].status != Confirmed
    ensures FindBooking(bs, bookingId).Some? ==>
      var b := bs[FindBooking(bs, bookingId).value];
      && (b.userId != caller ==> r == Err(Forbidden))
      && (b.userId == caller && b.status == Confirmed ==> r == Err(BookingConfirmed))
      && (b.userId == caller && b.status != Confirmed ==> r == Ok(FindBooking(bs, bookingId).value))
  {
    match FindBooking(bs, bookingId)
    case None => Err(BookingNotFound)
    case Some(i) =>
      if bs[i].userId != caller then Err(Forbidden)
      else if bs[i].status == Confirmed then Err(BookingConfirmed)
      else Ok(i)
  }

  /** A user edits their booking: a different slot is checked for existence
      and for the caller's own booking on it before the move; notes are
      replaced only when supplied; the status is left alone. */
  function UpdateBooking(db: Db, caller: UserId, bookingId: BookingId,
                         newSlot: Option<SlotId>, notes: Option<string>): (r: Result<(Db, Booking)>)
    ensures OwnedEditable(db.bookings, caller, bookingId).Err? ==> r == Err(OwnedEditable(db.bookings, caller, bookingId).error)
    ensures OwnedEditable(db.bookings, caller, bookingId).Ok? ==>
      var i := OwnedEditable(db.bookings, caller, bookingId).value;
      var prior := db.bookings[i];
      && (newSlot.Some? && newSlot.value != prior.slotId && !SlotExists(db, newSlot.value) ==> r == Err(SlotNotFound))
      && ((newSlot.Some? && newSlot.value != prior.slotId && SlotExists(db, newSlot.value)
           && HasBookingFor(db.bookings, caller, newSlot.value)) ==> r == Err(DuplicateBooking))
      && ((newSlot.None? || newSlot.value == prior.slotId
           || (SlotExists(db, newSlot.value) && !HasBookingFor(db.bookings, caller, newSlot.value))) ==> r.Ok?)
      && (r.Ok? ==>
            && r.value.0 == db.(bookings := db.bookings[i := r.value.1])
            && r.value.1.id == prior.id && r.value.1.userId == prior.userId && r.value.1.orderId == prior.orderId
            && r.value.1.status == prior.status && r.value.1.createdAt == prior.createdAt
            && r.value.1.slotId == (if newSlot.Some? then newSlot.value else prior.slotId)
            && r.value.1.notes == (if notes.Some? then notes.value else prior.notes))
    ensures r.Err? ==> r.error in {BookingNotFound, Forbidden, BookingConfirmed, SlotNotFound, DuplicateBooking}
  {
    match OwnedEditable(db.bookings, caller, bookingId)
    case Err(e) => Err(e)
    case Ok(i) =>
      var b := db.bookings[i];
      if newSlot.Some? && newSlot.value != b.slotId && FindSlot(db.slots, newSlot.value).None? then
        Err(SlotNotFound)
      else if newSlot.Some? && newSlot.value != b.slotId && HasBookingFor(db.bookings, caller, newSlot.value) then
        Err(DuplicateBooking)
      else
        var moved := if newSlot.Some? then b.(slotId := newSlot.value) else b;
        var b' := moved.(notes := if notes.Some? then notes.value else b.notes);
        Ok((db.(bookings := db.bookings[i := b']), b'))
  }

  /** A user deletes their booking under the same checks as an edit. */
  function DeleteBooking(db: Db, caller: UserId, bookingId: BookingId): (r: Result<Db>)
    ensures OwnedEditable(db.bookings, caller, bookingId).Err? ==> r == Err(OwnedEditable(db.bookings, caller, bookingId).error)
    ensures r.Ok? <==> OwnedEditable(db.bookings, caller, bookingId).Ok?
    ensures r.Ok? ==> r.value.slots == db.slots && r.value.users == db.users
    ensures r.Ok? ==> r.value.bookings == RemoveAt(db.bookings, OwnedEditable(db.bookings, caller, bookingId).value)
    ensures r.Ok? ==> |r.value.bookings| == |db.bookings| - 1
    ensures r.Ok? && UniqueIds(db.bookings) ==> !BookingIdTaken(r.value.bookings, bookingId)
    ensures r.Ok? ==> forall b :: b in r.value.bookings ==> b in db.bookings
  {
    match OwnedEditable(db.bookings, caller, bookingId)
    case Err(e) => Err(e)
    case Ok(i) => Ok(db.(bookings := RemoveAt(db.bookings, i)))
  }

  // ---------------------------------------------------------------------
  // updateBookingStatus

  /** Some booking other than `target` on the same slot is confirmed. */
  predicate OtherConfirmedOn(bs: seq<Booking>, target: Booking)
  {
    exists j :: 0 <= j < |bs| && bs[j].slotId == target.slotId && bs[j].id != target.id && bs[j].status == Confirmed
  }

  /** A booking the confirmation of `winner` cancels. */
  predicate Loses(b: Booking, winner: Booking)
  {
    b.slotId == winner.slotId && b.id != winner.id && b.status != Cancelled
  }

  /** The store after confirming `winner`: it becomes confirmed and every
      other non-cancelled booking on its slot becomes cancelled. */
  function Cascade(bs: seq<Booking>, winner: Booking): (r: seq<Booking>)
    ensures |r| == |bs|
    ensures forall i :: 0 <= i < |bs| ==> r[i] == bs[i].(status := r[i].status)
  {
    seq(|bs|, i requires 0 <= i < |bs| =>
      if bs[i].id == winner.id then bs[i].(status := Confirmed)
      else if Loses(bs[i], winner) then bs[i].(status := Cancelled)
      else bs[i])
  }

  /** The message for one booking owner, when the owner is found and has an
      e-mail address. */
  function Mail(users: seq<User>, userId: UserId, slot: Slot, orderId: string, statusLabel: string): (r: seq<Notification>)
    ensures |r| <= 1
    ensures forall m :: m in r ==> m.orderId == orderId && m.statusLabel == statusLabel && m.to != ""
    ensures r != [] <==> FindUser(users, userId).Some? && users[FindUser(users, userId).value].email != ""
    ensures r != [] ==> var u := users[FindUser(users, userId).value];
      r[0] == Notification(u.email, u.name, slot.date, slot.time, orderId, statusLabel)
  {
    match FindUser(users, userId)
    case None => []
    case Some(k) =>
      if users[k].email == "" then []
      else [Notification(users[k].email, users[k].name, slot.date, slot.time, orderId, statusLabel)]
  }

  /** The cancellation notice for one booking of the slot when the
      confirmation of `winner` cancels it. */
  function LoserMail(b: Booking, winner: Booking, users: seq<User>, slot: Slot): seq<Notification>
  {
    if Loses(b, winner) then Mail(users, b.userId, slot, b.orderId, "Cancelled") else []
  }

  /** The cancellation messages of the cascade: one attempt for each
      cancelled booking whose owner has an address, and nothing else. */
  function LoserMails(bs: seq<Booking>, winner: Booking, users: seq<User>, slot: Slot): (r: seq<Notification>)
    ensures forall m :: m in r ==>
              (m.statusLabel == "Cancelled" &&
               exists j :: 0 <= j < |bs| && Loses(bs[j], winner) && LoserMail(bs[j], winner, users, slot) == [m])
    ensures forall j :: 0 <= j < |bs| && LoserMail(bs[j], winner, users, slot) != [] ==>
              LoserMail(bs[j], winner, users, slot)[0] in r
    ensures UniqueOrderIds(bs) ==> forall a, c :: 0 <= a < c < |r| ==> r[a].orderId != r[c].orderId
    decreases |bs|
  {
    if |bs| == 0 then []
    else
      var rest := LoserMails(bs[1..], winner, users, slot);
      var head := LoserMail(bs[0], winner, users, slot);
      LoserMailsStep(bs, winner, users, slot, rest);
      head + rest
  }

  /** The notice of the first booking, in front of those of the rest, has
      the three properties `LoserMails` states. */
  lemma LoserMailsStep(bs: seq<Booking>, winner: Booking, users: seq<User>, slot: Slot, rest: seq<Notification>)
    requires |bs| > 0
    requires forall m :: m in rest ==>
              (m.statusLabel == "Cancelled" &&
               exists j :: 0 <= j < |bs[1..]| && Loses(bs[1..][j], winner) && LoserMail(bs[1..][j], winner, users, slot) == [m])
    requires forall j :: 0 <= j < |bs[1..]| && LoserMail(bs[1..][j], winner, users, slot) != [] ==>
              LoserMail(bs[1..][j], winner, users, slot)[0] in rest
    requires UniqueOrderIds(bs[1..]) ==> forall a, c :: 0 <= a < c < |rest| ==> rest[a].orderId != rest[c].orderId
    ensures var r := LoserMail(bs[0], winner, users, slot) + rest;
      && (forall m :: m in r ==>
            (m.statusLabel == "Cancelled" &&
             exists j :: 0 <= j < |bs| && Loses(bs[j], winner) && LoserMail(bs[j], winner, users, slot) == [m]))
      && (forall j :: 0 <= j < |bs| && LoserMail(bs[j], winner, users, slot) != [] ==>
            LoserMail(bs[j], winner, users, slot)[0] in r)
      && (UniqueOrderIds(bs) ==> forall a, c :: 0 <= a < c < |r| ==> r[a].orderId != r[c].orderId)
  {
    LoserMailsSound(bs, winner, users, slot, rest);
    LoserMailsComplete(bs, winner, users, slot, rest);
    if UniqueOrderIds(bs) {
      LoserMailsDistinct(bs, winner, users, slot, rest);
    }
  }

  lemma LoserMailsSound(bs: seq<Booking>, winner: Booking, users: seq<User>, slot: Slot, rest: seq<Notification>)
    requires |bs| > 0
    requires forall m :: m in rest ==>
              (m.statusLabel == "Cancelled" &&
               exists j :: 0 <= j < |bs[1..]| && Loses(bs[1..][j], winner) && LoserMail(bs[1..][j], winner, users, slot) == [m])
    ensures forall m :: m in LoserMail(bs[0], winner, users, slot) + rest ==>
            (m.statusLabel == "Cancelled" &&
             exists j :: 0 <= j < |bs| && Loses(bs[j], winner) && LoserMail(bs[j], winner, users, slot) == [m])
  {
    var head := LoserMail(bs[0], winner, users, slot);
    forall m | m in head + rest
      ensures m.statusLabel == "Cancelled"
      ensures exists j :: 0 <= j < |bs| && Loses(bs[j], winner) && LoserMail(bs[j], winner, users, slot) == [m]
    {
      if m in head {
        assert head == [m];
      } else {
        var j :| 0 <= j < |bs[1..]| && Loses(bs[1..][j], winner) && LoserMail(bs[1..][j], winner, users, slot) == [m];
        assert bs[j + 1] == bs[1..][j];
      }
    }
  }

  lemma LoserMailsComplete(bs: seq<Booking>, winner: Booking, users: seq<User>, slot: Slot, rest: seq<Notification>)
    requires |bs| > 0
    requires forall j :: 0 <= j < |bs[1..]| && LoserMail(bs[1..][j], winner, users, slot) != [] ==>
              LoserMail(bs[1..][j], winner, users, slot)[0] in rest
    ensures forall j :: 0 <= j < |bs| && LoserMail(bs[j], winner, users, slot) != [] ==>
            LoserMail(bs[j], winner, users, slot)[0] in LoserMail(bs[0], winner, users, slot) + rest
  {
    forall j | 0 <= j < |bs| && LoserMail(bs[j], winner, users, slot) != []
      ensures LoserMail(bs[j], winner, users, slot)[0] in LoserMail(bs[0], winner, users, slot) + rest
    {
      if j > 0 {
        assert bs[j] == bs[1..][j - 1];
      }
    }
  }

  lemma LoserMailsDistinct(bs: seq<Booking>, winner: Booking, users: seq<User>, slot: Slot, rest: seq<Notification>)
    requires |bs| > 0 && UniqueOrderIds(bs)
    requires forall m :: m in rest ==>
              exists j :: 0 <= j < |bs[1..]| && Loses(bs[1..][j], winner) && LoserMail(bs[1..][j], winner, users, slot) == [m]
    requires UniqueOrderIds(bs[1..]) ==> forall a, c :: 0 <= a < c < |rest| ==> rest[a].orderId != rest[c].orderId
    ensures var r := LoserMail(bs[0], winner, users, slot) + rest;
      forall a, c :: 0 <= a < c < |r| ==> r[a].orderId != r[c].orderId
  {
    var head := LoserMail(bs[0], winner, users, slot);
    var r := head + rest;
    assert UniqueOrderIds(bs[1..]) by {
      forall a, c | 0 <= a < c < |bs[1..]| ensures bs[1..][a].orderId != bs[1..][c].orderId {
        assert bs[1..][a] == bs[a + 1] && bs[1..][c] == bs[c + 1];
      }
    }
    forall a, c | 0 <= a < c < |r| ensures r[a].orderId != r[c].orderId {
      if a < |head| {
        assert r[a] == head[0] && head[0].orderId == bs[0].orderId;
        assert r[c] == rest[c - |head|] && r[c] in rest;
        var j :| 0 <= j < |bs[1..]| && Loses(bs[1..][j], winner) && LoserMail(bs[1..][j], winner, users, slot) == [r[c]];
        assert bs[1..][j] == bs[j + 1];
      } else {
        assert r[a] == rest[a - |head|] && r[c] == rest[c - |head|];
      }
    }
  }

  /** An administrator sets a booking's status. Confirming is refused when a
      different booking on the slot is already confirmed, and otherwise
      cascades; any other enum value is written as is, whatever the booking's
      current status; a value outside the enum fails validation. */
  function UpdateBookingStatus(db: Db, role: string, bookingId: BookingId, target: string): (r: Result<(Db, seq<Notification>)>)
    ensures role != "admin" ==> r == Err(Unauthorized)
    ensures role == "admin" && FindBooking(db.bookings, bookingId).None? ==> r == Err(BookingNotFound)
    ensures role == "admin" && FindBooking(db.bookings, bookingId).Some? ==>
      var b := db.bookings[FindBooking(db.bookings, bookingId).value];
      && (FindSlot(db.slots, b.slotId).None? ==> r == Err(SlotNotFound))
      && (FindSlot(db.slots, b.slotId).Some? && target == "confirmed" && OtherConfirmedOn(db.bookings, b) ==> r == Err(SlotAlreadyConfirmed))
      && (FindSlot(db.slots, b.slotId).Some? && target == "confirmed" && !OtherConfirmedOn(db.bookings, b) ==> r.Ok?)
      && (FindSlot(db.slots, b.slotId).Some? && target != "confirmed" && ParseStatus(target).None? ==> r == Err(UpdateBookingStatusFailed))
      && (FindSlot(db.slots, b.slotId).Some? && target != "confirmed" && ParseStatus(target).Some? ==> r.Ok?)
    ensures r.Ok? ==> FindBooking(db.bookings, bookingId).Some?
                      && FindSlot(db.slots, db.bookings[FindBooking(db.bookings, bookingId).value].slotId).Some?
    ensures r.Ok? ==> r.value.0.slots == db.slots && r.value.0.users == db.users
    ensures r.Ok? ==> |r.value.0.bookings| == |db.bookings|
    ensures r.Ok? && target == "confirmed" ==>
      var b := db.bookings[FindBooking(db.bookings, bookingId).value];
      var slot := db.slots[FindSlot(db.slots, b.slotId).value];
      && r.value.0.bookings == Cascade(db.bookings, b)
      && r.value.1 == LoserMails(db.bookings, b, db.users, slot) + Mail(db.users, b.userId, slot, b.orderId, "Confirmed")
    ensures r.Ok? && target != "confirmed" ==>
      var i := FindBooking(db.bookings, bookingId).value;
      var b := db.bookings[i];
      var slot := db.slots[FindSlot(db.slots, b.slotId).value];
      && ParseStatus(target).Some?
      && r.value.0.bookings == db.bookings[i := b.(status := ParseStatus(target).value)]
      && r.value.1 == (if target == "cancelled" then Mail(db.users, b.userId, slot, b.orderId, "Cancelled") else [])
    ensures r.Err? ==> r.error in {Unauthorized, BookingNotFound, SlotNotFound, SlotAlreadyConfirmed, UpdateBookingStatusFailed}
  {
    if role != "admin" then Err(Unauthorized)
    else match FindBooking(db.bookings, bookingId)
      case None => Err(BookingNotFound)
      case Some(i) =>
        var b := db.bookings[i];
        match FindSlot(db.slots, b.slotId)
        case None => Err(SlotNotFound)
        case Some(k) =>
          var slot := db.slots[k];
          if target == "confirmed" then
            if OtherConfirmedOn(db.bookings, b) then Err(SlotAlreadyConfirmed)
            else
              var mails := LoserMails(db.bookings, b, db.users, slot)
                         + Mail(db.users, b.userId, slot, b.orderId, "Confirmed");
              Ok((db.(bookings := Cascade(db.bookings, b)), mails))
          else match ParseStatus(target)
            case None => Err(UpdateBookingStatusFailed)
            case Some(st) =>
              var mails := if st == Cancelled then Mail(db.users, b.userId, slot, b.orderId, "Cancelled") else [];
              Ok((db.(bookings := db.bookings[i := b.(status := st)]), mails))
  }
}

=== FILE: booking_invariants.dfy ===
/** What the booking mutations guarantee together: each one keeps the store
    invariants (distinct ids and order ids, one booking per slot and user,
    at most one confirmed booking per slot), and confirming a booking
    cancels every other live booking on its slot and leaves the other
    slots alone. */
module BookingInvariants {
  import opened Errors
  import opened BookingModel
  import opened BookingController

  // ---------------------------------------------------------------------
  // Invariant preservation

  lemma CreatePreservesValid(db: Db, caller: UserId, slotId: SlotId, notes: Option<string>,
                             freshId: BookingId, orderId: string, now: int)
    requires ValidBookings(db.bookings)
    requires !BookingIdTaken(db.bookings, freshId)
    ensures var r := CreateBooking(db, caller, slotId, notes, freshId, orderId, now);
            r.Ok? ==> ValidBookings(r.value.0.bookings)
  {
    var r := CreateBooking(db, caller, slotId, notes, freshId, orderId, now);
    if r.Ok? {
      var bs := db.bookings;
      var bs' := r.value.0.bookings;
      var b := r.value.1;
      assert bs' == bs + [b];
      forall i, j | 0 <= i < j < |bs'|
        ensures bs'[i].id != bs'[j].id && bs'[i].orderId != bs'[j].orderId
        ensures !(bs'[i].slotId == bs'[j].slotId && bs'[i].userId == bs'[j].userId)
        ensures bs'[i].slotId == bs'[j].slotId ==> !(bs'[i].status == Confirmed && bs'[j].status == Confirmed)
      {
        if j == |bs| {
          assert bs'[i] == bs[i] && bs'[j] == b;
        }
      }
    }
  }

  lemma UpdatePreservesValid(db: Db, caller: UserId, bookingId: BookingId,
                             newSlot: Option<SlotId>, notes: Option<string>)
    requires ValidBookings(db.bookings)
    ensures var r := UpdateBooking(db, caller, bookingId, newSlot, notes);
            r.Ok? ==> ValidBookings(r.value.0.bookings)
  {
    var r := UpdateBooking(db, caller, bookingId, newSlot, notes);
    if r.Ok? {
      var bs := db.bookings;
      var k := OwnedEditable(bs, caller, bookingId).value;
      var b' := r.value.1;
      var bs' := r.value.0.bookings;
      assert bs' == bs[k := b'];
      forall i, j | 0 <= i < j < |bs'|
        ensures bs'[i].id != bs'[j].id && bs'[i].orderId != bs'[j].orderId
        ensures !(bs'[i].slotId == bs'[j].slotId && bs'[i].userId == bs'[j].userId)
        ensures bs'[i].slotId == bs'[j].slotId ==> !(bs'[i].status == Confirmed && bs'[j].status == Confirmed)
      {
        if i == k || j == k {
          var other := if i == k then j else i;
          assert bs'[other] == bs[other];
          if b'.slotId != bs[k].slotId {
            // the move was checked against the caller's own bookings
            assert !HasBookingFor(bs, caller, b'.slotId);
          }
        }
      }
    }
  }

  lemma DeletePreservesValid(db: Db, caller: UserId, bookingId: BookingId)
    requires ValidBookings(db.bookings)
    ensures var r := DeleteBooking(db, caller, bookingId);
            r.Ok? ==> ValidBookings(r.value.bookings)
  {
    var r := DeleteBooking(db, caller, bookingId);
    if r.Ok? {
      var bs := db.bookings;
      var k := OwnedEditable(bs, caller, bookingId).value;
      var bs' := r.value.bookings;
      assert bs' == RemoveAt(bs, k);
      forall i, j | 0 <= i < j < |bs'|
        ensures bs'[i].id != bs'[j].id && bs'[i].orderId != bs'[j].orderId
        ensures !(bs'[i].slotId == bs'[j].slotId && bs'[i].userId == bs'[j].userId)
        ensures bs'[i].slotId == bs'[j].slotId ==> !(bs'[i].status == Confirmed && bs'[j].status == Confirmed)
      {
        var i0 := if i < k then i else i + 1;
        var j0 := if j < k then j else j + 1;
        assert bs'[i] == bs[i0] && bs'[j] == bs[j0] && i0 < j0;
      }
    }
  }

  /** After a cascade, the only confirmed booking on the winner's slot is the
      winner; every other slot keeps what it had. */
  lemma CascadeShape(bs: seq<Booking>, winner: Booking)
    requires UniqueIds(bs)
    requires !OtherConfirmedOn(bs, winner)
    ensures var r := Cascade(bs, winner);
      forall j :: 0 <= j < |bs| ==>
        && (bs[j].id == winner.id ==> r[j].status == Confirmed)
        && (bs[j].id != winner.id && bs[j].slotId == winner.slotId ==> r[j].status == Cancelled)
        && (bs[j].id != winner.id && bs[j].slotId != winner.slotId ==> r[j] == bs[j])
  {
  }

  lemma StatusUpdatePreservesValid(db: Db, role: string, bookingId: BookingId, target: string)
    requires ValidBookings(db.bookings)
    ensures var r := UpdateBookingStatus(db, role, bookingId, target);
            r.Ok? ==> ValidBookings(r.value.0.bookings)
  {
    var r := UpdateBookingStatus(db, role, bookingId, target);
    if r.Ok? {
      var bs := db.bookings;
      var k := FindBooking(bs, bookingId).value;
      var b := bs[k];
      var bs' := r.value.0.bookings;
      if target == "confirmed" {
        assert !OtherConfirmedOn(bs, b);
        assert bs' == Cascade(bs, b);
        CascadeKeepsOneConfirmed(bs, k);
      } else {
        var st := ParseStatus(target).value;
        assert bs' == bs[k := b.(status := st)];
        DirectWriteKeepsOneConfirmed(bs, k, st);
      }
      StatusChangeKeepsKeys(bs, bs');
    }
  }

  /** Changing statuses only keeps the three key invariants. */
  lemma StatusChangeKeepsKeys(bs: seq<Booking>, bs': seq<Booking>)
    requires |bs'| == |bs| && forall i :: 0 <= i < |bs| ==> bs'[i] == bs[i].(status := bs'[i].status)
    requires UniqueIds(bs) && UniqueOrderIds(bs) && OnePerSlotAndUser(bs)
    ensures UniqueIds(bs') && UniqueOrderIds(bs') && OnePerSlotAndUser(bs')
  {
    forall i, j | 0 <= i < j < |bs'|
      ensures bs'[i].id != bs'[j].id && bs'[i].orderId != bs'[j].orderId
      ensures !(bs'[i].slotId == bs'[j].slotId && bs'[i].userId == bs'[j].userId)
    {
      assert bs'[i] == bs[i].(status := bs'[i].status) && bs'[j] == bs[j].(status := bs'[j].status);
    }
  }

  lemma CascadeKeepsOneConfirmed(bs: seq<Booking>, k: nat)
    requires k < |bs| && UniqueIds(bs) && OneConfirmedPerSlot(bs) && !OtherConfirmedOn(bs, bs[k])
    ensures OneConfirmedPerSlot(Cascade(bs, bs[k]))
  {
    var b := bs[k];
    var bs' := Cascade(bs, b);
    CascadeShape(bs, b);
    forall i, j | 0 <= i < j < |bs'| && bs'[i].slotId == bs'[j].slotId
      ensures !(bs'[i].status == Confirmed && bs'[j].status == Confirmed)
    {
      assert bs'[i].slotId == bs[i].slotId && bs'[j].slotId == bs[j].slotId;
      if bs[i].id == b.id { assert i == k; }
      if bs[j].id == b.id { assert j == k; }
    }
  }

  lemma DirectWriteKeepsOneConfirmed(bs: seq<Booking>, k: nat, st: Status)
    requires k < |bs| && st != Confirmed && OneConfirmedPerSlot(bs)
    ensures OneConfirmedPerSlot(bs[k := bs[k].(status := st)])
  {
    var bs' := bs[k := bs[k].(status := st)];
    forall i, j | 0 <= i < j < |bs'| && bs'[i].slotId == bs'[j].slotId
      ensures !(bs'[i].status == Confirmed && bs'[j].status == Confirmed)
    {
      if i != k && j != k {
        assert bs'[i] == bs[i] && bs'[j] == bs[j];
      }
    }
  }

  // ---------------------------------------------------------------------
  // The confirmation state machine

  /** For an administrator acting on a booking whose slot exists, confirming
      fails exactly when a different booking on that slot is already
      confirmed, and then with the "slot already confirmed" error. */
  lemma ConfirmRefusedIffOtherConfirmed(db: Db, bookingId: BookingId)
    requires FindBooking(db.bookings, bookingId).Some?
    requires SlotExists(db, db.bookings[FindBooking(db.bookings, bookingId).value].slotId)
    ensures var b := db.bookings[FindBooking(db.bookings, bookingId).value];
            var r := UpdateBookingStatus(db, "admin", bookingId, "confirmed");
            && (r.Err? <==> OtherConfirmedOn(db.bookings, b))
            && (r.Err? ==> r.error == SlotAlreadyConfirmed)
  {
  }

  /** Confirming a booking that is already the slot's confirmed booking
      succeeds again. */
  lemma ReconfirmSucceeds(db: Db, bookingId: BookingId)
    requires ValidBookings(db.bookings)
    requires FindBooking(db.bookings, bookingId).Some?
    requires db.bookings[FindBooking(db.bookings, bookingId).value].status == Confirmed
    requires SlotExists(db, db.bookings[FindBooking(db.bookings, bookingId).value].slotId)
    ensures UpdateBookingStatus(db, "admin", bookingId, "confirmed").Ok?
  {
    var bs := db.bookings;
    var k := FindBooking(bs, bookingId).value;
    forall j | 0 <= j < |bs| && bs[j].slotId == bs[k].slotId && bs[j].id != bs[k].id
      ensures bs[j].status != Confirmed
    {
      assert j != k;
    }
  }

  /** A successful confirmation: the target is confirmed, every other booking
      on its slot ends up cancelled (already-cancelled ones untouched, live
      ones forced), bookings on other slots are unchanged, so the slot has
      exactly one confirmed booking. */
  lemma ConfirmCascades(db: Db, bookingId: BookingId)
    requires UniqueIds(db.bookings)
    ensures var r := UpdateBookingStatus(db, "admin", bookingId, "confirmed");
      r.Ok? ==>
        var k := FindBooking(db.bookings, bookingId).value;
        var b := db.bookings[k];
        var bs' := r.value.0.bookings;
        && bs'[k] == b.(status := Confirmed)
        && (forall j :: 0 <= j < |bs'| && j != k && db.bookings[j].slotId == b.slotId ==>
              bs'[j] == db.bookings[j].(status := Cancelled))
        && (forall j :: 0 <= j < |bs'| && db.bookings[j].slotId != b.slotId ==> bs'[j] == db.bookings[j])
        && ConfirmedOn(bs', b.slotId) == 1
  {
    var r := UpdateBookingStatus(db, "admin", bookingId, "confirmed");
    if r.Ok? {
      var bs := db.bookings;
      var k := FindBooking(bs, bookingId).value;
      var b := bs[k];
      var bs' := r.value.0.bookings;
      assert bs' == Cascade(bs, b);
      CascadeShape(bs, b);
      forall j | 0 <= j < |bs'| && j != k
        ensures bs'[j].slotId == b.slotId ==> bs'[j].status != Confirmed
      {
        assert bs[j].id != b.id;
      }
      ExactlyOneConfirmed(bs', b.slotId, k);
    }
  }

  lemma {:induction false} ExactlyOneConfirmed(bs: seq<Booking>, slotId: SlotId, k: nat)
    requires k < |bs| && bs[k].slotId == slotId && bs[k].status == Confirmed
    requires forall j :: 0 <= j < |bs| && j != k && bs[j].slotId == slotId ==> bs[j].status != Confirmed
    ensures ConfirmedOn(bs, slotId) == 1
    decreases |bs|
  {
    if k == 0 {
      NoConfirmedCountsZero(bs[1..], slotId);
    } else {
      ExactlyOneConfirmed(bs[1..], slotId, k - 1);
    }
  }

  /** Any status other than "confirmed" that the enum admits is written
      straight onto the booking, even over a confirmed one, and nothing else
      in the store changes; only a cancellation notifies the owner. */
  lemma NonConfirmWritesDirectly(db: Db, bookingId: BookingId, target: string)
    requires FindBooking(db.bookings, bookingId).Some?
    requires SlotExists(db, db.bookings[FindBooking(db.bookings, bookingId).value].slotId)
    requires target != "confirmed" && ParseStatus(target).Some?
    ensures var k := FindBooking(db.bookings, bookingId).value;
            var r := UpdateBookingStatus(db, "admin", bookingId, target);
            && r.Ok?
            && r.value.0.bookings == db.bookings[k := db.bookings[k].(status := ParseStatus(target).value)]
            && (target == "pending" ==> r.value.1 == [])
  {
  }

  /** A status value outside the enum never succeeds; once the booking and
      its slot are found, it is the save's validation that fails. */
  lemma InvalidStatusRejected(db: Db, bookingId: BookingId, target: string)
    requires ParseStatus(target).None?
    ensures UpdateBookingStatus(db, "admin", bookingId, target).Err?
    ensures FindBooking(db.bookings, bookingId).Some?
            && FindSlot(db.slots, db.bookings[FindBooking(db.bookings, bookingId).value].slotId).Some?
            ==> UpdateBookingStatus(db, "admin", bookingId, target) == Err(UpdateBookingStatusFailed)
  {
  }

  /** The store after a status change does not depend on the user directory
      the e-mails are addressed from: a missing user, a missing address or a
      failed delivery never changes which bookings were written. */
  lemma StatusWritesIndependentOfMail(db: Db, users': seq<User>, role: string, bookingId: BookingId, target: string)
    ensures var r1 := UpdateBookingStatus(db, role, bookingId, target);
            var r2 := UpdateBookingStatus(db.(users := users'), role, bookingId, target);
            && r1.Ok? == r2.Ok?
            && (r1.Ok? ==> r1.value.0.bookings == r2.value.0.bookings)
            && (r1.Err? ==> r1.error == r2.error)
  {
  }

  /** The messages of a confirmation: every "Cancelled" notice goes to a
      booking the cascade cancelled, every cancelled booking whose owner has
      an address gets one, and the winner's owner gets the "Confirmed"
      notice when they have an address. */
  lemma ConfirmMailsMatchCascade(db: Db, bookingId: BookingId)
    ensures var r := UpdateBookingStatus(db, "admin", bookingId, "confirmed");
      r.Ok? ==>
        var b := db.bookings[FindBooking(db.bookings, bookingId).value];
        var slot := db.slots[FindSlot(db.slots, b.slotId).value];
        && (forall m :: m in r.value.1 && m.statusLabel == "Cancelled" ==>
              exists j :: 0 <= j < |db.bookings| && Loses(db.bookings[j], b) && db.bookings[j].orderId == m.orderId)
        && (forall j :: 0 <= j < |db.bookings| && Loses(db.bookings[j], b) && Mail(db.users, db.bookings[j].userId, slot, db.bookings[j].orderId, "Cancelled") != [] ==>
              Mail(db.users, db.bookings[j].userId, slot, db.bookings[j].orderId, "Cancelled")[0] in r.value.1)
        && (Mail(db.users, b.userId, slot, b.orderId, "Confirmed") != [] ==>
              Mail(db.users, b.userId, slot, b.orderId, "Confirmed")[0] in r.value.1)
  {
    var r := UpdateBookingStatus(db, "admin", bookingId, "confirmed");
    if r.Ok? {
      var b := db.bookings[FindBooking(db.bookings, bookingId).value];
      var slot := db.slots[FindSlot(db.slots, b.slotId).value];
      var losers := LoserMails(db.bookings, b, db.users, slot);
      var winner := Mail(db.users, b.userId, slot, b.orderId, "Confirmed");
      assert r.value.1 == losers + winner;
      forall m | m in r.value.1 && m.statusLabel == "Cancelled"
        ensures exists j :: 0 <= j < |db.bookings| && Loses(db.bookings[j], b) && db.bookings[j].orderId == m.orderId
      {
        assert m in losers;
        var j :| 0 <= j < |db.bookings| && Loses(db.bookings[j], b) && LoserMail(db.bookings[j], b, db.users, slot) == [m];
      }
      forall j | 0 <= j < |db.bookings| && Loses(db.bookings[j], b) && Mail(db.users, db.bookings[j].userId, slot, db.bookings[j].orderId, "Cancelled") != []
        ensures Mail(db.users, db.bookings[j].userId, slot, db.bookings[j].orderId, "Cancelled")[0] in r.value.1
      {
        assert LoserMail(db.bookings[j], b, db.users, slot) != [];
      }
    }
  }
}

=== FILE: booking_model.dfy ===
/** The stored records: the Booking schema (status enum, defaults, the two
    unique indexes), the slots bookings point at, the user accounts, and the
    store that holds all three collections in their natural order. */
module BookingModel {
  import opened Errors

  type SlotId = nat
  type UserId = nat
  type BookingId = nat

  datatype Status = Pending | Confirmed | Cancelled

  /** The value the schema stores for each status. */
  function StatusName(s: Status): string
  {
    match s
    case Pending => "pending"
    case Confirmed => "confirmed"
    case Cancelled => "cancelled"
  }

  /** The schema's enum validator: only the three names are admitted. */
  function ParseStatus(name: string): (r: Option<Status>)
    ensures r.Some? ==> StatusName(r.value) == name
    ensures r.None? ==> forall s: Status :: StatusName(s) != name
  {
    if name == "pending" then Some(Pending)
    else if name == "confirmed" then Some(Confirmed)
    else if name == "cancelled" then Some(Cancelled)
    else None
  }

  lemma StatusNameRoundTrip(s: Status)
    ensures ParseStatus(StatusName(s)) == Some(s)
  {
  }

  /** Every stored booking has a slot, a user, an order id, a status from
      the enum and a notes string; `createdAt` is the creation timestamp. */
  datatype Booking = Booking(
    id: BookingId,
    slotId: SlotId,
    userId: UserId,
    orderId: string,
    status: Status,
    notes: string,
    createdAt: int)

  datatype Slot = Slot(id: SlotId, date: string, time: string)

  datatype User = User(id: UserId, name: string, email: string, password: string, role: string)

  datatype Db = Db(slots: seq<Slot>, bookings: seq<Booking>, users: seq<User>)

  /** `Booking.create` with the schema defaults: status pending, and notes
      empty when none are supplied. */
  function NewBooking(id: BookingId, slotId: SlotId, userId: UserId, orderId: string,
                      notes: Option<string>, createdAt: int): (b: Booking)
    ensures b.status == Pending
    ensures b.notes == if notes.Some? then notes.value else ""
    ensures b.id == id && b.slotId == slotId && b.userId == userId && b.orderId == orderId
  {
    Booking(id, slotId, userId, orderId, Pending, if notes.Some? then notes.value else "", createdAt)
  }

  /** Index of the first record whose id is `id` (`findById`). */
  function FindById<T>(s: seq<T>, idOf: T -> nat, id: nat): (r: Option<nat>)
    ensures r.Some? ==> r.value < |s| && idOf(s[r.value]) == id
    ensures r.Some? ==> forall i :: 0 <= i < r.value ==> idOf(s[i]) != id
    ensures r.None? <==> forall i :: 0 <= i < |s| ==> idOf(s[i]) != id
  {
    if |s| == 0 then None
    else if idOf(s[0]) == id then Some(0)
    else match FindById(s[1..], idOf, id)
      case None => None
      case Some(i) => Some(i + 1)
  }

  /** With distinct ids (MongoDB's `_id` index) the first record carrying
      the id is the only one. */
  lemma FindByIdIsTheOne<T>(s: seq<T>, idOf: T -> nat, i: nat)
    requires i < |s|
    requires forall a, b :: 0 <= a < b < |s| ==> idOf(s[a]) != idOf(s[b])
    ensures FindById(s, idOf, idOf(s[i])) == Some(i)
  {
  }

  function FindSlot(slots: seq<Slot>, id: SlotId): Option<nat>
  {
    FindById(slots, (s: Slot) => s.id, id)
  }

  function FindBooking(bs: seq<Booking>, id: BookingId): Option<nat>
  {
    FindById(bs, (b: Booking) => b.id, id)
  }

  function FindUser(users: seq<User>, id: UserId): Option<nat>
  {
    FindById(users, (u: User) => u.id, id)
  }

  /** The collection without its element at index `i`, the others keeping
      their order (`deleteOne`, `findByIdAndDelete`). */
  function RemoveAt<T>(s: seq<T>, i: nat): (r: seq<T>)
    requires i < |s|
    ensures |r| == |s| - 1
    ensures forall j :: 0 <= j < i ==> r[j] == s[j]
    ensures forall j :: i <= j < |r| ==> r[j] == s[j + 1]
  {
    s[..i] + s[i + 1..]
  }

  predicate SlotExists(db: Db, id: SlotId)
  {
    exists i :: 0 <= i < |db.slots| && db.slots[i].id == id
  }

  /** `Booking.findOne({ userId, slotId })` finds something. */
  predicate HasBookingFor(bs: seq<Booking>, userId: UserId, slotId: SlotId)
  {
    exists i :: 0 <= i < |bs| && bs[i].userId == userId && bs[i].slotId == slotId
  }

  predicate OrderIdTaken(bs: seq<Booking>, orderId: string)
  {
    exists i :: 0 <= i < |bs| && bs[i].orderId == orderId
  }

  predicate BookingIdTaken(bs: seq<Booking>, id: BookingId)
  {
    exists i :: 0 <= i < |bs| && bs[i].id == id
  }

  // ---------------------------------------------------------------------
  // Store invariants

  /** Document ids are distinct. */
  predicate UniqueIds(bs: seq<Booking>)
  {
    forall i, j :: 0 <= i < j < |bs| ==> bs[i].id != bs[j].id
  }

  /** The unique index on `orderId`. */
  predicate UniqueOrderIds(bs: seq<Booking>)
  {
    forall i, j :: 0 <= i < j < |bs| ==> bs[i].orderId != bs[j].orderId
  }

  /** The unique compound index on `(slotId, userId)`. */
  predicate OnePerSlotAndUser(bs: seq<Booking>)
  {
    forall i, j :: 0 <= i < j < |bs| ==> !(bs[i].slotId == bs[j].slotId && bs[i].userId == bs[j].userId)
  }

  /** At most one confirmed booking per slot. */
  predicate OneConfirmedPerSlot(bs: seq<Booking>)
  {
    forall i, j :: 0 <= i < j < |bs| && bs[i].slotId == bs[j].slotId ==>
      !(bs[i].status == Confirmed && bs[j].status == Confirmed)
  }

  predicate ValidBookings(bs: seq<Booking>)
  {
    UniqueIds(bs) && UniqueOrderIds(bs) && OnePerSlotAndUser(bs) && OneConfirmedPerSlot(bs)
  }

  /** The number of confirmed bookings on a slot. */
  function ConfirmedOn(bs: seq<Booking>, slotId: SlotId): nat
  {
    if |bs| == 0 then 0
    else (if bs[0].slotId == slotId && bs[0].status == Confirmed then 1 else 0) + ConfirmedOn(bs[1..], slotId)
  }

  /** The pairwise invariant bounds the per-slot count: no slot ever has
      two confirmed bookings. */
  lemma {:induction false} OneConfirmedMeansCountAtMostOne(bs: seq<Booking>, slotId: SlotId)
    requires OneConfirmedPerSlot(bs)
    ensures ConfirmedOn(bs, slotId) <= 1
    decreases |bs|
  {
    if |bs| > 0 {
      var t := bs[1..];
      assert OneConfirmedPerSlot(t) by {
        forall i, j | 0 <= i < j < |t| && t[i].slotId == t[j].slotId
          ensures !(t[i].status == Confirmed && t[j].status == Confirmed)
        {
          assert t[i] == bs[i + 1] && t[j] == bs[j + 1];
        }
      }
      OneConfirmedMeansCountAtMostOne(t, slotId);
      if bs[0].slotId == slotId && bs[0].status == Confirmed {
        NoConfirmedCountsZero(t, slotId);
      }
    }
  }

  lemma {:induction false} NoConfirmedCountsZero(bs: seq<Booking>, slotId: SlotId)
    requires forall i :: 0 <= i < |bs| && bs[i].slotId == slotId ==> bs[i].status != Confirmed
    ensures ConfirmedOn(bs, slotId) == 0
    decreases |bs|
  {
    if |bs| > 0 {
      NoConfirmedCountsZero(bs[1..], slotId);
    }
  }
}

=== FILE: booking_queries.dfy ===
/** The booking listings: a user's own bookings (filtered and sorted in
    memory, then sliced) and the two administrator listings (joined with
    slot and user, filtered, sorted, counted, then paged in the database). */
module BookingQueries {
  import opened Errors
  import opened Text
  import opened Listing
  import opened BookingModel

  /** The fixed status order of both booking listings. */
  function StatusPriority(s: Status): (p: int)
    ensures 1 <= p <= 3
    ensures s == Pending <==> p == 1
    ensures s == Cancelled <==> p == 3
  {
    match s
    case Pending => 1
    case Confirmed => 2
    case Cancelled => 3
  }

  // ---------------------------------------------------------------------
  // getUserBookings

  datatype UserBookingItem = UserBookingItem(
    id: BookingId, orderId: string, date: string, time: string,
    status: Status, hasBook: bool, cancelled: bool, notes: string)

  /** The slot a booking is shown with: it must exist and pass the optional
      date filter and the optional case-insensitive search on its time;
      otherwise the population leaves the reference empty. */
  function PopulatedSlot(slots: seq<Slot>, slotId: SlotId, date: Option<string>, search: Option<string>): (r: Option<Slot>)
    ensures r.Some? ==> r.value in slots && r.value.id == slotId
    ensures r.Some? ==> (Given(date) ==> r.value.date == date.value)
    ensures r.Some? ==> (Given(search) ==> ContainsIgnoringCase(r.value.time, search.value))
  {
    match FindSlot(slots, slotId)
    case None => None
    case Some(k) =>
      if Given(date) && slots[k].date != date.value then None
      else if Given(search) && !ContainsIgnoringCase(slots[k].time, search.value) then None
      else Some(slots[k])
  }

  function ItemOf(b: Booking, s: Slot): (it: UserBookingItem)
    ensures it.id == b.id && it.orderId == b.orderId && it.status == b.status && it.notes == b.notes
    ensures it.date == s.date && it.time == s.time
    ensures it.hasBook <==> b.status == Confirmed
    ensures it.cancelled <==> b.status == Cancelled
  {
    UserBookingItem(b.id, b.orderId, s.date, s.time, b.status, b.status == Confirmed, b.status == Cancelled, b.notes)
  }

  /** `it` shows one of the caller's stored bookings, with its status. */
  predicate CallerItem(bs: seq<Booking>, caller: UserId, it: UserBookingItem)
  {
    exists i :: 0 <= i < |bs| && bs[i].id == it.id && bs[i].userId == caller && bs[i].status == it.status
  }

  /** The caller's bookings whose slot survives the population, in store
      order. */
  function UserItems(bs: seq<Booking>, slots: seq<Slot>, caller: UserId,
                     date: Option<string>, search: Option<string>): (r: seq<UserBookingItem>)
    ensures |r| <= |bs|
    ensures forall it :: it in r ==> CallerItem(bs, caller, it)
    ensures forall it :: it in r ==> (it.hasBook <==> it.status == Confirmed) && (it.cancelled <==> it.status == Cancelled)
    ensures forall it :: it in r ==> Given(date) ==> it.date == date.value
    ensures forall it :: it in r ==> Given(search) ==> ContainsIgnoringCase(it.time, search.value)
    ensures forall i :: 0 <= i < |bs| && bs[i].userId == caller && PopulatedSlot(slots, bs[i].slotId, date, search).Some?
              ==> ItemOf(bs[i], PopulatedSlot(slots, bs[i].slotId, date, search).value) in r
    decreases |bs|
  {
    if |bs| == 0 then []
    else
      var rest := UserItems(bs[1..], slots, caller, date, search);
      assert forall it :: it in rest ==> CallerItem(bs, caller, it) by {
        forall it | it in rest ensures CallerItem(bs, caller, it) {
          var i :| 0 <= i < |bs[1..]| && bs[1..][i].id == it.id && bs[1..][i].userId == caller && bs[1..][i].status == it.status;
          assert bs[i + 1] == bs[1..][i];
        }
      }
      assert forall i :: 1 <= i < |bs| ==> bs[i] == bs[1..][i - 1];
      var b := bs[0];
      if b.userId != caller then rest
      else match PopulatedSlot(slots, b.slotId, date, search)
        case None => rest
        case Some(s) => [ItemOf(b, s)] + rest
  }

  /** The optional status filter, comparing the stored status name. */
  function FilterStatus(items: seq<UserBookingItem>, status: Option<string>): (r: seq<UserBookingItem>)
    ensures Given(status) ==> forall it :: it in r ==> StatusName(it.status) == status.value
    ensures forall it :: it in r ==> it in items
    ensures !Given(status) ==> r == items
    ensures forall it :: it in items && (Given(status) ==> StatusName(it.status) == status.value) ==> it in r
  {
    if !Given(status) then items
    else match ParseStatus(status.value)
      case None =>
        assert forall st: Status :: StatusName(st) != status.value;
        []
      case Some(st) =>
        assert forall it :: it in items && StatusName(it.status) == status.value ==> it.status == st by {
          forall it | it in items && StatusName(it.status) == status.value ensures it.status == st {
            StatusNameRoundTrip(it.status);
          }
        }
        WithStatus(items, st)
  }

  /** The items with one status, in their original order. */
  function WithStatus(items: seq<UserBookingItem>, st: Status): (r: seq<UserBookingItem>)
    ensures forall it :: it in r ==> it.status == st && it in items
    ensures forall i :: 0 <= i < |r| ==> r[i].status == st
    ensures forall it :: it in items && it.status == st ==> it in r
    ensures |r| <= |items|
  {
    if |items| == 0 then []
    else if items[0].status == st then [items[0]] + WithStatus(items[1..], st)
    else WithStatus(items[1..], st)
  }

  function ItemKey(it: UserBookingItem): Key
  {
    Key(StatusPriority(it.status), "", "", 0)
  }

  /** `getUserBookings`: the caller's bookings, filtered, sorted by status
      priority only, and sliced from `(page - 1) * limit`. */
  function GetUserBookings(db: Db, caller: UserId, page: Option<int>, limit: Option<int>,
                           date: Option<string>, search: Option<string>, status: Option<string>): (r: Page<UserBookingItem>)
    ensures var filtered := FilterStatus(UserItems(db.bookings, db.slots, caller, date, search), status);
            r.total == |filtered|
    ensures r.page == OrDefault(page, DefaultPage) && r.limit == OrDefault(limit, DefaultLimit)
    ensures SortedBy(r.items, ItemKey)
    ensures forall it :: it in r.items ==> (it.hasBook <==> it.status == Confirmed)
    ensures forall it :: it in r.items ==> Given(status) ==> StatusName(it.status) == status.value
    ensures forall it :: it in r.items ==> CallerItem(db.bookings, caller, it)
    ensures r.page >= 1 && r.limit >= 0 ==> |r.items| <= r.limit
    ensures r.items == MemPage(FilterStatus(UserItems(db.bookings, db.slots, caller, date, search), status), ItemKey, r.page, r.limit)
  {
    var p := OrDefault(page, DefaultPage);
    var l := OrDefault(limit, DefaultLimit);
    var filtered := FilterStatus(UserItems(db.bookings, db.slots, caller, date, search), status);
    Page(|filtered|, p, l, MemPage(filtered, ItemKey, p, l))
  }

  /** Every booking of the caller whose slot passes the filters, and whose
      status passes the status filter, is on some page of any positive
      size. */
  lemma UserBookingIsListed(db: Db, caller: UserId, limit: int, date: Option<string>, search: Option<string>,
                            status: Option<string>, k: nat)
    requires limit >= 1 && k < |db.bookings| && db.bookings[k].userId == caller
    requires PopulatedSlot(db.slots, db.bookings[k].slotId, date, search).Some?
    requires Given(status) ==> StatusName(db.bookings[k].status) == status.value
    ensures exists p :: (p >= 1 &&
      ItemOf(db.bookings[k], PopulatedSlot(db.slots, db.bookings[k].slotId, date, search).value)
        in GetUserBookings(db, caller, Some(p), Some(limit), date, search, status).items)
  {
    var it := ItemOf(db.bookings[k], PopulatedSlot(db.slots, db.bookings[k].slotId, date, search).value);
    CallerBookingIsFiltered(db, caller, date, search, status, k);
    var p := MemPageOf(FilterStatus(UserItems(db.bookings, db.slots, caller, date, search), status), ItemKey, it, limit);
    var r := GetUserBookings(db, caller, Some(p), Some(limit), date, search, status);
    assert r.page == p && r.limit == limit;
  }

  lemma CallerBookingIsFiltered(db: Db, caller: UserId, date: Option<string>, search: Option<string>,
                                status: Option<string>, k: nat)
    requires k < |db.bookings| && db.bookings[k].userId == caller
    requires PopulatedSlot(db.slots, db.bookings[k].slotId, date, search).Some?
    requires Given(status) ==> StatusName(db.bookings[k].status) == status.value
    ensures ItemOf(db.bookings[k], PopulatedSlot(db.slots, db.bookings[k].slotId, date, search).value)
              in FilterStatus(UserItems(db.bookings, db.slots, caller, date, search), status)
  {
  }

  /** The status sort is stable and groups the items: all pending ones in
      their original order, then the confirmed ones, then the cancelled
      ones. */
  lemma {:induction false} StatusSortGroups(items: seq<UserBookingItem>)
    ensures SortBy(items, ItemKey) == WithStatus(items, Pending) + WithStatus(items, Confirmed) + WithStatus(items, Cancelled)
    decreases |items|
  {
    if |items| > 0 {
      var x := items[0];
      var t := items[1..];
      StatusSortGroups(t);
      var p, c, k := WithStatus(t, Pending), WithStatus(t, Confirmed), WithStatus(t, Cancelled);
      assert SortBy(items, ItemKey) == Insert(x, p + c + k, ItemKey);
      InsertByStatus(x, p, c, k);
      match x.status
      case Pending =>
        assert WithStatus(items, Pending) == [x] + p;
        assert WithStatus(items, Confirmed) == c && WithStatus(items, Cancelled) == k;
      case Confirmed =>
        assert WithStatus(items, Confirmed) == [x] + c;
        assert WithStatus(items, Pending) == p && WithStatus(items, Cancelled) == k;
      case Cancelled =>
        assert WithStatus(items, Cancelled) == [x] + k;
        assert WithStatus(items, Pending) == p && WithStatus(items, Confirmed) == c;
    }
  }

  /** The groups an item list is sorted into: pending, then confirmed, then
      cancelled. */
  predicate Grouped(p: seq<UserBookingItem>, c: seq<UserBookingItem>, k: seq<UserBookingItem>)
  {
    && (forall i :: 0 <= i < |p| ==> p[i].status == Pending)
    && (forall i :: 0 <= i < |c| ==> c[i].status == Confirmed)
    && (forall i :: 0 <= i < |k| ==> k[i].status == Cancelled)
  }

  /** Inserting one item into grouped items puts it at the end of its own
      group. */
  lemma InsertByStatus(x: UserBookingItem, p: seq<UserBookingItem>, c: seq<UserBookingItem>, k: seq<UserBookingItem>)
    requires Grouped(p, c, k)
    requires SortedBy(p + c + k, ItemKey)
    ensures x.status == Pending ==> Insert(x, p + c + k, ItemKey) == ([x] + p) + c + k
    ensures x.status == Confirmed ==> Insert(x, p + c + k, ItemKey) == p + ([x] + c) + k
    ensures x.status == Cancelled ==> Insert(x, p + c + k, ItemKey) == p + c + ([x] + k)
  {
    match x.status
    case Pending => InsertPending(x, p, c, k);
    case Confirmed => InsertConfirmed(x, p, c, k);
    case Cancelled => InsertCancelled(x, p, c, k);
  }

  lemma InsertPending(x: UserBookingItem, p: seq<UserBookingItem>, c: seq<UserBookingItem>, k: seq<UserBookingItem>)
    requires x.status == Pending
    requires SortedBy(p + c + k, ItemKey)
    ensures Insert(x, p + c + k, ItemKey) == ([x] + p) + c + k
  {
    InsertPendingFront(x, p + c + k);
    assert [x] + (p + c + k) == ([x] + p) + c + k;
  }

  lemma InsertPendingFront(x: UserBookingItem, s: seq<UserBookingItem>)
    requires x.status == Pending
    requires SortedBy(s, ItemKey)
    ensures Insert(x, s, ItemKey) == [x] + s
  {
    if |s| > 0 {
      assert KeyLe(ItemKey(x), ItemKey(s[0]));
    }
    InsertFront(x, s, ItemKey);
  }

  lemma InsertConfirmed(x: UserBookingItem, p: seq<UserBookingItem>, c: seq<UserBookingItem>, k: seq<UserBookingItem>)
    requires x.status == Confirmed
    requires Grouped(p, c, k)
    requires SortedBy(p + c + k, ItemKey)
    ensures Insert(x, p + c + k, ItemKey) == p + ([x] + c) + k
  {
    var b := c + k;
    assert p + c + k == p + b;
    forall i | 0 <= i < |p| ensures !KeyLe(ItemKey(x), ItemKey(p[i])) {
      assert p[i].status == Pending;
    }
    if |b| > 0 {
      assert b[0].status != Pending by {
        if |c| > 0 { assert b[0] == c[0]; } else { assert b[0] == k[0]; }
      }
      assert KeyLe(ItemKey(x), ItemKey(b[0]));
    }
    InsertBetween(x, p, b, ItemKey);
    Regroup(p, [x], c, k);
  }

  lemma InsertCancelled(x: UserBookingItem, p: seq<UserBookingItem>, c: seq<UserBookingItem>, k: seq<UserBookingItem>)
    requires x.status == Cancelled
    requires Grouped(p, c, k)
    requires SortedBy(p + c + k, ItemKey)
    ensures Insert(x, p + c + k, ItemKey) == p + c + ([x] + k)
  {
    var a := p + c;
    forall i | 0 <= i < |a| ensures !KeyLe(ItemKey(x), ItemKey(a[i])) {
      if i < |p| { assert a[i] == p[i]; } else { assert a[i] == c[i - |p|]; }
    }
    if |k| > 0 {
      assert KeyLe(ItemKey(x), ItemKey(k[0]));
    }
    InsertBetween(x, a, k, ItemKey);
    Regroup(p, c, [x], k);
  }

  /** Concatenation regrouped around an inserted block. */
  lemma Regroup<T>(a: seq<T>, b: seq<T>, c: seq<T>, d: seq<T>)
    ensures a + b + (c + d) == a + (b + c) + d
    ensures a + c + b + d == a + c + (b + d)
  {
  }

  // ---------------------------------------------------------------------
  // getAdminBookings and getAdminConfirmedBookings

  datatype AdminBookingRow = AdminBookingRow(
    id: BookingId, orderId: string, status: Status, notes: string, createdAt: int,
    date: string, time: string, userId: UserId, userName: string, userEmail: string)

  /** The free-text search of the administrator listings: the pattern may hit
      the user's name or e-mail, the order id, or the slot's date or time. */
  predicate SearchHits(row: AdminBookingRow, search: string)
  {
    || ContainsIgnoringCase(row.userName, search)
    || ContainsIgnoringCase(row.userEmail, search)
    || ContainsIgnoringCase(row.orderId, search)
    || ContainsIgnoringCase(row.date, search)
    || ContainsIgnoringCase(row.time, search)
  }

  /** The filters a row must pass. */
  predicate RowPasses(row: AdminBookingRow, status: Option<string>, date: Option<string>, search: Option<string>)
  {
    && (Given(status) ==> StatusName(row.status) == status.value)
    && (Given(date) ==> row.date == date.value)
    && (Given(search) ==> SearchHits(row, search.value))
  }

  /** The joined row of one booking; bookings whose slot or user is gone are
      dropped by the unwind stages. */
  function JoinRow(db: Db, b: Booking): (r: Option<AdminBookingRow>)
    ensures r.Some? <==> FindSlot(db.slots, b.slotId).Some? && FindUser(db.users, b.userId).Some?
    ensures r.Some? ==> r.value.id == b.id && r.value.status == b.status && r.value.orderId == b.orderId
  {
    match FindSlot(db.slots, b.slotId)
    case None => None
    case Some(k) =>
      match FindUser(db.users, b.userId)
      case None => None
      case Some(u) =>
        var s := db.slots[k];
        var user := db.users[u];
        Some(AdminBookingRow(b.id, b.orderId, b.status, b.notes, b.createdAt, s.date, s.time, user.id, user.name, user.email))
  }

  /** The matched, joined rows in store order. */
  function AdminRows(db: Db, bs: seq<Booking>, status: Option<string>, date: Option<string>, search: Option<string>): (r: seq<AdminBookingRow>)
    ensures forall row :: row in r ==> RowPasses(row, status, date, search)
    ensures forall i :: 0 <= i < |bs| && JoinRow(db, bs[i]).Some? && RowPasses(JoinRow(db, bs[i]).value, status, date, search)
              ==> JoinRow(db, bs[i]).value in r
    ensures forall row :: row in r ==> exists i :: 0 <= i < |bs| && JoinRow(db, bs[i]) == Some(row)
    decreases |bs|
  {
    if |bs| == 0 then []
    else
      var rest := AdminRows(db, bs[1..], status, date, search);
      assert forall i :: 1 <= i < |bs| ==> bs[i] == bs[1..][i - 1];
      assert forall row :: row in rest ==> exists i :: 0 <= i < |bs| && JoinRow(db, bs[i]) == Some(row) by {
        forall row | row in rest ensures exists i :: 0 <= i < |bs| && JoinRow(db, bs[i]) == Some(row) {
          var i :| 0 <= i < |bs[1..]| && JoinRow(db, bs[1..][i]) == Some(row);
          assert bs[i + 1] == bs[1..][i];
        }
      }
      match JoinRow(db, bs[0])
      case None => rest
      case Some(row) => if RowPasses(row, status, date, search) then [row] + rest else rest
  }

  function AdminRowKey(row: AdminBookingRow): Key
  {
    Key(StatusPriority(row.status), row.date, row.time, row.createdAt)
  }

  function ConfirmedRowKey(row: AdminBookingRow): Key
  {
    Key(0, row.date, row.time, 0)
  }

  /** `getAdminBookings`: status priority, then slot date, then slot time,
      then creation time; the total counts every matching row before the
      page is cut. */
  function GetAdminBookings(db: Db, role: string, page: Option<int>, limit: Option<int>,
                            date: Option<string>, search: Option<string>, status: Option<string>): (r: Result<Page<AdminBookingRow>>)
    ensures role != "admin" ==> r == Err(Unauthorized)
    ensures r.Ok? ==> r.value.total == |AdminRows(db, db.bookings, status, date, search)|
    ensures r.Ok? ==> SortedBy(r.value.items, AdminRowKey)
    ensures r.Ok? ==> |r.value.items| <= r.value.limit
    ensures r.Ok? ==> forall row :: row in r.value.items ==> RowPasses(row, status, date, search)
    ensures r.Ok? ==> r.value.page == OrDefault(page, DefaultPage) && r.value.limit == OrDefault(limit, DefaultLimit)
    ensures r.Ok? ==> Some(r.value.items) == DbPage(AdminRows(db, db.bookings, status, date, search), AdminRowKey, r.value.page, r.value.limit)
    ensures role == "admin" ==>
      (r.Err? <==> PageStart(OrDefault(page, DefaultPage), OrDefault(limit, DefaultLimit)) < 0 || OrDefault(limit, DefaultLimit) <= 0)
    ensures r.Err? && role == "admin" ==> r.error == GetAdminBookingsFailed
  {
    if role != "admin" then Err(Unauthorized)
    else
      var p := OrDefault(page, DefaultPage);
      var l := OrDefault(limit, DefaultLimit);
      var rows := AdminRows(db, db.bookings, status, date, search);
      match DbPage(rows, AdminRowKey, p, l)
      case None => Err(GetAdminBookingsFailed)
      case Some(items) => Ok(Page(|rows|, p, l, items))
  }

  /** `getAdminConfirmedBookings`: only confirmed bookings, by slot date then
      time. */
  function GetAdminConfirmedBookings(db: Db, role: string, page: Option<int>, limit: Option<int>,
                                     date: Option<string>, search: Option<string>): (r: Result<Page<AdminBookingRow>>)
    ensures role != "admin" ==> r == Err(Unauthorized)
    ensures r.Ok? ==> forall row :: row in r.value.items ==> row.status == Confirmed
    ensures r.Ok? ==> SortedBy(r.value.items, ConfirmedRowKey)
    ensures r.Ok? ==> r.value.total == |AdminRows(db, db.bookings, Some("confirmed"), date, search)|
    ensures r.Ok? ==> r.value.page == OrDefault(page, DefaultPage) && r.value.limit == OrDefault(limit, DefaultLimit)
    ensures r.Ok? ==>
      Some(r.value.items) == DbPage(AdminRows(db, db.bookings, Some("confirmed"), date, search), ConfirmedRowKey, r.value.page, r.value.limit)
    ensures r.Ok? ==> |r.value.items| <= r.value.limit
    ensures role == "admin" ==>
      (r.Err? <==> PageStart(OrDefault(page, DefaultPage), OrDefault(limit, DefaultLimit)) < 0 || OrDefault(limit, DefaultLimit) <= 0)
    ensures r.Err? && role == "admin" ==> r.error == GetConfirmedBookingsFailed
  {
    if role != "admin" then Err(Unauthorized)
    else
      var p := OrDefault(page, DefaultPage);
      var l := OrDefault(limit, DefaultLimit);
      var rows := AdminRows(db, db.bookings, Some("confirmed"), date, search);
      match DbPage(rows, ConfirmedRowKey, p, l)
      case None => Err(GetConfirmedBookingsFailed)
      case Some(items) =>
        ConfirmedRowsOnly(db, date, search);
        Ok(Page(|rows|, p, l, items))
  }

  /** The rows the confirmed listing filters are all confirmed ones. */
  lemma ConfirmedRowsOnly(db: Db, date: Option<string>, search: Option<string>)
    ensures forall row :: row in AdminRows(db, db.bookings, Some("confirmed"), date, search) ==> row.status == Confirmed
  {
    var rows := AdminRows(db, db.bookings, Some("confirmed"), date, search);
    assert forall row :: row in rows ==> StatusName(row.status) == "confirmed";
  }

  /** Every booking whose slot and user still exist and whose joined row
      passes the filters is on some page of the administrator listing, for
      any positive page size. */
  lemma AdminBookingIsListed(db: Db, limit: int, date: Option<string>, search: Option<string>,
                             status: Option<string>, k: nat)
    requires limit >= 1 && k < |db.bookings|
    requires JoinRow(db, db.bookings[k]).Some? && RowPasses(JoinRow(db, db.bookings[k]).value, status, date, search)
    ensures exists p :: (p >= 1 && GetAdminBookings(db, "admin", Some(p), Some(limit), date, search, status).Ok?
      && JoinRow(db, db.bookings[k]).value in GetAdminBookings(db, "admin", Some(p), Some(limit), date, search, status).value.items)
  {
    var rows := AdminRows(db, db.bookings, status, date, search);
    var p := DbPageOf(rows, AdminRowKey, JoinRow(db, db.bookings[k]).value, limit);
    var r := GetAdminBookings(db, "admin", Some(p), Some(limit), date, search, status);
    assert r.Ok? && r.value.page == p && r.value.limit == limit;
  }

  /** Every confirmed booking whose slot and user still exist and whose
      joined row passes the date and search filters is on some page of the
      confirmed listing. */
  lemma ConfirmedBookingIsListed(db: Db, limit: int, date: Option<string>, search: Option<string>, k: nat)
    requires limit >= 1 && k < |db.bookings| && db.bookings[k].status == Confirmed
    requires JoinRow(db, db.bookings[k]).Some? && RowPasses(JoinRow(db, db.bookings[k]).value, None, date, search)
    ensures exists p :: (p >= 1 && GetAdminConfirmedBookings(db, "admin", Some(p), Some(limit), date, search).Ok?
      && JoinRow(db, db.bookings[k]).value in GetAdminConfirmedBookings(db, "admin", Some(p), Some(limit), date, search).value.items)
  {
    var rows := AdminRows(db, db.bookings, Some("confirmed"), date, search);
    assert RowPasses(JoinRow(db, db.bookings[k]).value, Some("confirmed"), date, search);
    var p := DbPageOf(rows, ConfirmedRowKey, JoinRow(db, db.bookings[k]).value, limit);
    var r := GetAdminConfirmedBookings(db, "admin", Some(p), Some(limit), date, search);
    assert r.Ok? && r.value.page == p && r.value.limit == limit;
  }
}

=== FILE: calendar.dfy ===
/** The proleptic Gregorian calendar as ECMAScript's `Date` counts it: days
    since 1 January 1970, years from `DayFromYear`, months from a table of
    month starts, and the UTC wall-clock fields of a millisecond time value
    (`Day`, `HourFromTime`, `MinFromTime`). */
module Calendar {

  const MinuteMs := 60000
  const HourMs := 3600000
  const DayMs := 86400000

  predicate IsLeap(y: int)
  {
    y % 4 == 0 && (y % 100 != 0 || y % 400 == 0)
  }

  function DaysInYear(y: int): (n: nat)
    ensures n == 365 || n == 366
  {
    if IsLeap(y) then 366 else 365
  }

  /** The day number of 1 January of year `y`: the days of the years between
      1970 and `y`, counted forward or backward. */
  function DayFromYear(y: int): int
    decreases if y >= 1970 then y - 1970 else 1970 - y
  {
    if y == 1970 then 0
    else if y > 1970 then DayFromYear(y - 1) + DaysInYear(y - 1)
    else DayFromYear(y + 1) - DaysInYear(y)
  }

  lemma DayFromYearStep(y: int)
    ensures DayFromYear(y + 1) == DayFromYear(y) + DaysInYear(y)
  {
  }

  /** The count agrees with the closed form ECMAScript defines `DayFromYear`
      by: 365 days a year plus one for every fourth year, less the centuries,
      plus every fourth century. */
  lemma {:induction false} DayFromYearClosedForm(y: int)
    ensures DayFromYear(y) == 365 * (y - 1970) + (y - 1969) / 4 - (y - 1901) / 100 + (y - 1601) / 400
    decreases if y >= 1970 then y - 1970 else 1970 - y
  {
    if y > 1970 {
      DayFromYearClosedForm(y - 1);
      LeapDays(y - 1);
    } else if y < 1970 {
      DayFromYearClosedForm(y + 1);
      LeapDays(y);
    }
  }

  /** Moving from year `y` to `y + 1` adds one to the closed form's leap-day
      count exactly when `y` is a leap year. */
  lemma LeapDays(y: int)
    ensures ((y + 1 - 1969) / 4 - (y + 1 - 1901) / 100 + (y + 1 - 1601) / 400)
         - ((y - 1969) / 4 - (y - 1901) / 100 + (y - 1601) / 400)
         == DaysInYear(y) - 365
  {
    assert (y - 1968) / 4 - (y - 1969) / 4 == if y % 4 == 0 then 1 else 0;
    assert (y - 1900) / 100 - (y - 1901) / 100 == if y % 100 == 0 then 1 else 0;
    assert (y - 1600) / 400 - (y - 1601) / 400 == if y % 400 == 0 then 1 else 0;
  }

  /** Later years start on later days. */
  lemma {:induction false} DayFromYearMonotone(a: int, b: int)
    requires a < b
    ensures DayFromYear(a) + DaysInYear(a) <= DayFromYear(b)
    decreases b - a
  {
    DayFromYearStep(a);
    if a + 1 < b {
      DayFromYearMonotone(a + 1, b);
    }
  }

  /** Before 1970 every year has at least 365 days, so year `y` starts no
      later than day `365 * (y - 1970)`. */
  lemma {:induction false} DayFromYearBelow(y: int)
    requires y <= 1970
    ensures DayFromYear(y) <= 365 * (y - 1970)
    decreases 1970 - y
  {
    if y < 1970 {
      DayFromYearBelow(y + 1);
    }
  }

  /** Days of the year before month `m` (0 = January), `m = 12` giving the
      length of the year. */
  function MonthStart(m: nat, leap: bool): (n: nat)
    requires m <= 12
    ensures m == 12 ==> n == if leap then 366 else 365
  {
    [0, 31, 59, 90, 120, 151, 181, 212, 243, 273, 304, 334, 365][m] + (if leap && m >= 2 then 1 else 0)
  }

  function DaysInMonth(m: nat, leap: bool): (n: nat)
    requires m < 12
    ensures 28 <= n <= 31
  {
    MonthStart(m + 1, leap) - MonthStart(m, leap)
  }

  lemma MonthStartMonotone(a: nat, b: nat, leap: bool)
    requires a < b <= 12
    ensures MonthStart(a, leap) + DaysInMonth(a, leap) <= MonthStart(b, leap)
  {
  }

  /** A calendar date with the month counted from 0 as `getMonth` does. */
  datatype Civil = Civil(year: int, month: nat, day: nat)

  predicate ValidCivil(c: Civil)
  {
    c.month < 12 && 1 <= c.day <= DaysInMonth(c.month, IsLeap(c.year))
  }

  /** The day number of a date. */
  function DaysFromCivil(c: Civil): int
    requires c.month < 12
  {
    DayFromYear(c.year) + MonthStart(c.month, IsLeap(c.year)) + c.day - 1
  }

  /** The year in which day `day` falls, searched upward from year `y`. */
  function YearFrom(day: int, y: int): (r: int)
    requires DayFromYear(y) <= day
    ensures DayFromYear(r) <= day < DayFromYear(r) + DaysInYear(r)
    decreases day - DayFromYear(y)
  {
    DayFromYearStep(y);
    if day < DayFromYear(y + 1) then y else YearFrom(day, y + 1)
  }

  /** `YearFromTime`: the year in which day `day` falls. */
  function YearOf(day: int): (r: int)
    ensures DayFromYear(r) <= day < DayFromYear(r) + DaysInYear(r)
  {
    if day >= 0 then YearFrom(day, 1970)
    else
      var y := 1970 + day / 365;
      DayFromYearBelow(y);
      YearFrom(day, y)
  }

  /** The month in which day `d` of a year falls, searched upward from
      month `m`. */
  function MonthFrom(d: nat, leap: bool, m: nat): (r: nat)
    requires m < 12 && MonthStart(m, leap) <= d < MonthStart(12, leap)
    ensures m <= r < 12 && MonthStart(r, leap) <= d < MonthStart(r + 1, leap)
    decreases 12 - m
  {
    if d < MonthStart(m + 1, leap) then m else MonthFrom(d, leap, m + 1)
  }

  /** `YearFromTime`, `MonthFromTime` and `DateFromTime` of a day number. */
  function CivilFromDays(day: int): (c: Civil)
    ensures ValidCivil(c)
    ensures DaysFromCivil(c) == day
  {
    var y := YearOf(day);
    var leap := IsLeap(y);
    var d: nat := day - DayFromYear(y);
    var m := MonthFrom(d, leap, 0);
    Civil(y, m, d - MonthStart(m, leap) + 1)
  }

  /** Distinct valid dates have distinct day numbers. */
  lemma DaysFromCivilInjective(a: Civil, b: Civil)
    requires ValidCivil(a) && ValidCivil(b)
    requires DaysFromCivil(a) == DaysFromCivil(b)
    ensures a == b
  {
    if a.year < b.year {
      DayFromYearMonotone(a.year, b.year);
    } else if b.year < a.year {
      DayFromYearMonotone(b.year, a.year);
    } else if a.month < b.month {
      MonthStartMonotone(a.month, b.month, IsLeap(a.year));
    } else if b.month < a.month {
      MonthStartMonotone(b.month, a.month, IsLeap(a.year));
    }
  }

  /** Every valid date is read back from its day number. */
  lemma CivilRoundTrip(c: Civil)
    requires ValidCivil(c)
    ensures CivilFromDays(DaysFromCivil(c)) == c
  {
    DaysFromCivilInjective(CivilFromDays(DaysFromCivil(c)), c);
  }

  /** Day numbers order dates as year, then month, then day do. */
  lemma DaysFromCivilOrder(a: Civil, b: Civil)
    requires ValidCivil(a) && ValidCivil(b)
    ensures DaysFromCivil(a) < DaysFromCivil(b)
        <==> (|| a.year < b.year
              || (a.year == b.year && a.month < b.month)
              || (a.year == b.year && a.month == b.month && a.day < b.day))
  {
    if a.year < b.year {
      DayFromYearMonotone(a.year, b.year);
    } else if b.year < a.year {
      DayFromYearMonotone(b.year, a.year);
    } else if a.month < b.month {
      MonthStartMonotone(a.month, b.month, IsLeap(a.year));
    } else if b.month < a.month {
      MonthStartMonotone(b.month, a.month, IsLeap(a.year));
    }
  }

  /** The UTC fields of a time value that `getFullYear`, `getMonth`,
      `getDate`, `getHours` and `getMinutes` read. */
  datatype WallClock = WallClock(date: Civil, hour: nat, minute: nat)

  function WallClockAt(t: int): (w: WallClock)
    ensures ValidCivil(w.date) && w.hour < 24 && w.minute < 60
    ensures DaysFromCivil(w.date) == t / DayMs
  {
    WallClock(CivilFromDays(t / DayMs), (t / HourMs) % 24, (t / MinuteMs) % 60)
  }

  /** The minute a time value falls in is the minute its fields name. */
  lemma WallClockMinute(t: int)
    ensures t / MinuteMs
         == DaysFromCivil(WallClockAt(t).date) * 1440 + WallClockAt(t).hour * 60 + WallClockAt(t).minute
  {
    var q := t / MinuteMs;
    var r := t % MinuteMs;
    var qh := q / 60;
    var qd := qh / 24;
    assert t == HourMs * qh + MinuteMs * (q % 60) + r;
    assert t / HourMs == qh;
    assert t == DayMs * qd + HourMs * (qh % 24) + MinuteMs * (q % 60) + r;
    assert t / DayMs == qd;
  }
}

=== FILE: cambodia_time.dfy ===
/** The frontend's Cambodia-time helpers: today's date and the current hour
    and minute at UTC+7, the current time rounded up to a half hour, the
    bounds of the time picker, and whether a slot's date and time lie in
    the past. The clock is the parameter `nowMs`, the milliseconds since the
    epoch `new Date()` would read. */
module CambodiaTime {
  import opened Errors
  import opened Text
  import opened Calendar

  /** Cambodia keeps UTC+7 all year. */
  const OffsetMs := 7 * HourMs

  /** The largest distance from the epoch a `Date` may hold; beyond it the
      date is invalid and every field reads `NaN`. */
  const MaxTimeValue := 8640000000000000

  predicate IsTimeValue(t: int)
  {
    -MaxTimeValue <= t <= MaxTimeValue
  }

  /** `TimeClip`: `None` is `NaN`. */
  function TimeClip(t: int): (r: Option<int>)
    ensures r.Some? <==> IsTimeValue(t)
    ensures r.Some? ==> r.value == t
  {
    if IsTimeValue(t) then Some(t) else None
  }

  /** The fields of the `Date` the helpers build at `nowMs` shifted by seven
      hours (the host's own offset is added and taken away again). */
  function CambodiaClock(nowMs: int): (w: Option<WallClock>)
    ensures w.Some? <==> IsTimeValue(nowMs + OffsetMs)
    ensures w.Some? ==> w.value == WallClockAt(nowMs + OffsetMs)
  {
    match TimeClip(nowMs + OffsetMs)
    case None => None
    case Some(t) => Some(WallClockAt(t))
  }

  /** `year-MM-DD`, the year unpadded. */
  function FormatDate(c: Civil): string
  {
    IntToString(c.year) + "-" + Pad2(c.month + 1) + "-" + Pad2(c.day)
  }

  /** `HH:MM`. */
  function FormatTime(h: nat, m: nat): string
  {
    Pad2(h) + ":" + Pad2(m)
  }

  /** `getTodayCambodia`. */
  function TodayCambodia(nowMs: int): (s: string)
    ensures IsTimeValue(nowMs + OffsetMs) ==> s == FormatDate(WallClockAt(nowMs + OffsetMs).date)
    ensures !IsTimeValue(nowMs + OffsetMs) ==> s == "NaN-NaN-NaN"
  {
    match CambodiaClock(nowMs)
    case None => "NaN-NaN-NaN"
    case Some(w) => FormatDate(w.date)
  }

  /** `getNowCambodia`: hour and minute, `None` for `NaN`. */
  function NowCambodia(nowMs: int): (r: Option<(nat, nat)>)
    ensures r.Some? <==> IsTimeValue(nowMs + OffsetMs)
    ensures r.Some? ==> r.value.0 < 24 && r.value.1 < 60
    ensures r.Some? ==> var w := WallClockAt(nowMs + OffsetMs); r.value == (w.hour, w.minute)
  {
    match CambodiaClock(nowMs)
    case None => None
    case Some(w) => Some((w.hour, w.minute))
  }

  /** The hour and minute read at UTC+7 are the minute of the day the
      clock shifted by seven hours stands at. */
  lemma NowCambodiaIsMinuteOfDay(nowMs: int)
    requires IsTimeValue(nowMs + OffsetMs)
    ensures NowCambodia(nowMs).Some?
    ensures NowCambodia(nowMs).value.0 * 60 + NowCambodia(nowMs).value.1 == ((nowMs + OffsetMs) / MinuteMs) % 1440
  {
    var w := WallClockAt(nowMs + OffsetMs);
    WallClockMinute(nowMs + OffsetMs);
    MinuteOfDay(DaysFromCivil(w.date), w.hour * 60 + w.minute);
  }

  lemma MinuteOfDay(d: int, x: int)
    requires 0 <= x < 1440
    ensures (d * 1440 + x) % 1440 == x
  {
  }

  /** The rounding `getNowCambodiaRounded` applies to an hour and minute:
      a minute of 0 stays, 1 to 30 becomes 30, and 31 to 59 moves to the
      next hour, which after 23:30 is hour 24. */
  function RoundUp(h: nat, m: nat): (r: (nat, nat))
    requires m < 60
    ensures r.1 == 0 || r.1 == 30
    ensures h * 60 + m <= r.0 * 60 + r.1 < h * 60 + m + 30
    ensures (r.0 * 60 + r.1) % 30 == 0
  {
    var rm := if m <= 30 then (if m <= 0 then 0 else 30) else 0;
    var rh := if rm == 0 && m > 30 then h + 1 else h;
    HalfHourMark(rh, rm);
    (rh, rm)
  }

  lemma HalfHourMark(h: nat, m: nat)
    requires m == 0 || m == 30
    ensures (h * 60 + m) % 30 == 0
  {
    assert h * 60 + m == 30 * (2 * h + m / 30);
  }

  /** The rounded time is the first half-hour mark at or after the current
      minute. */
  lemma RoundUpIsNextHalfHour(h: nat, m: nat)
    requires m < 60
    ensures RoundUp(h, m).0 * 60 + RoundUp(h, m).1 == ((h * 60 + m + 29) / 30) * 30
  {
    var r := RoundUp(h, m);
    var x := r.0 * 60 + r.1;
    var k := x / 30;
    assert x == k * 30;
    assert (h * 60 + m + 29) / 30 == k;
  }

  /** `getNowCambodiaRounded`: hour and minute padded to two digits, the
      hour reading `NaN` on an invalid date. */
  function RoundedNow(nowMs: int): (r: (string, string))
    ensures r.1 == "00" || r.1 == "30"
    ensures NowCambodia(nowMs).None? ==> r == ("NaN", "00")
    ensures NowCambodia(nowMs).Some? ==>
      var hm := NowCambodia(nowMs).value;
      && r == (Pad2(RoundUp(hm.0, hm.1).0), Pad2(RoundUp(hm.0, hm.1).1))
      && ParseNumber(r.0) == Some(RoundUp(hm.0, hm.1).0) && ParseNumber(r.1) == Some(RoundUp(hm.0, hm.1).1)
  {
    match NowCambodia(nowMs)
    case None => ("NaN", "00")
    case Some(hm) =>
      var r := RoundUp(hm.0, hm.1);
      HalfHourDigits();
      (Pad2(r.0), Pad2(r.1))
  }

  lemma HalfHourDigits()
    ensures Pad2(0) == "00" && Pad2(30) == "30"
  {
    assert NatToString(30) == NatToString(3) + [DigitChar(0)];
  }

  /** `getMinTime`: on today's date the current Cambodia time rounded up
      to a half hour, on any other date midnight. */
  function MinTime(selectedDate: string, nowMs: int): (s: string)
    ensures selectedDate != TodayCambodia(nowMs) ==> s == "00:00"
    ensures selectedDate == TodayCambodia(nowMs) && IsTimeValue(nowMs + OffsetMs) ==>
      var w := WallClockAt(nowMs + OffsetMs);
      s == FormatTime(RoundUp(w.hour, w.minute).0, RoundUp(w.hour, w.minute).1)
    ensures selectedDate == TodayCambodia(nowMs) && !IsTimeValue(nowMs + OffsetMs) ==> s == "NaN:00"
  {
    if selectedDate == TodayCambodia(nowMs) then
      var (h, m) := RoundedNow(nowMs);
      h + ":" + m
    else "00:00"
  }

  /** `getMaxTime`. */
  function MaxTime(): (s: string)
    ensures |s| == 5 && s[2] == ':'
  {
    "23:59"
  }

  /** `Date.UTC(year, month, day, hour, minute)` before `TimeClip`: years 0
      to 99 mean 1900 to 1999, a month outside 0 to 11 carries into the
      year, and days, hours and minutes beyond their ranges carry over. */
  function DateUtc(year: int, month: int, day: int, hour: int, minute: int): int
  {
    var y := if 0 <= year <= 99 then 1900 + year else year;
    var ym := y + month / 12;
    var mn := month % 12;
    (DayFromYear(ym) + MonthStart(mn, IsLeap(ym)) + day - 1) * DayMs + hour * HourMs + minute * MinuteMs
  }

  /** For a year past 99 and a month in range, `Date.UTC` is the day number
      of the date plus the time of day. */
  lemma DateUtcOfCivil(c: Civil, hour: int, minute: int)
    requires ValidCivil(c) && c.year >= 100
    ensures DateUtc(c.year, c.month, c.day, hour, minute) == DaysFromCivil(c) * DayMs + hour * HourMs + minute * MinuteMs
  {
  }

  /** The instant a slot's `YYYY-MM-DD` date and `HH:MM` time name at
      UTC+7, read the way `isSlotPastCambodia` does: split on `-` and `:`,
      every part through `Number`, surplus parts ignored. A missing part or
      one that is not a number makes the date invalid (`None`). */
  function SlotInstant(date: string, time: string): (r: Option<int>)
    ensures r.Some? ==> IsTimeValue(r.value)
    ensures r.Some? ==> |Split(date, '-')| >= 3 && |Split(time, ':')| >= 2
    ensures r.Some? ==> var dp, tp := Split(date, '-'), Split(time, ':');
      && ParseNumber(dp[0]).Some? && ParseNumber(dp[1]).Some? && ParseNumber(dp[2]).Some?
      && ParseNumber(tp[0]).Some? && ParseNumber(tp[1]).Some?
      && r.value == DateUtc(ParseNumber(dp[0]).value, ParseNumber(dp[1]).value as int - 1, ParseNumber(dp[2]).value,
                            ParseNumber(tp[0]).value as int - 7, ParseNumber(tp[1]).value)
  {
    var dp := Split(date, '-');
    var tp := Split(time, ':');
    if |dp| < 3 || |tp| < 2 then None
    else
      match (ParseNumber(dp[0]), ParseNumber(dp[1]), ParseNumber(dp[2]), ParseNumber(tp[0]), ParseNumber(tp[1]))
      case (Some(y), Some(mo), Some(d), Some(h), Some(mi)) => TimeClip(DateUtc(y, mo as int - 1, d, h as int - 7, mi))
      case _ => None
  }

  /** `isSlotPastCambodia`: the slot's instant is at or before now; an
      invalid date compares false. */
  function IsSlotPast(date: string, time: string, nowMs: int): (past: bool)
    ensures past <==> SlotInstant(date, time).Some? && SlotInstant(date, time).value <= nowMs
  {
    match SlotInstant(date, time)
    case None => false
    case Some(t) => t <= nowMs
  }

  lemma DigitsHaveNoSeparator(s: string, sep: char)
    requires AllDigits(s) && !IsDigit(sep)
    ensures sep !in s
  {
  }

  /** A date written as `FormatDate` writes it splits back into its year,
      month and day. */
  lemma SplitFormatDate(c: Civil)
    requires c.year >= 0
    ensures Split(FormatDate(c), '-') == [NatToString(c.year), Pad2(c.month + 1), Pad2(c.day)]
  {
    var a, b, d := NatToString(c.year), Pad2(c.month + 1), Pad2(c.day);
    assert AllDigits(a) && AllDigits(b) && AllDigits(d) by {
      NatToStringRoundTrip(c.year);
    }
    DigitsHaveNoSeparator(a, '-');
    DigitsHaveNoSeparator(b, '-');
    DigitsHaveNoSeparator(d, '-');
    assert FormatDate(c) == a + ['-'] + (b + ['-'] + d);
    SplitFirst(a, '-', b + ['-'] + d);
    SplitFirst(b, '-', d);
    SplitNoSeparator(d, '-');
  }

  lemma SplitFormatTime(h: nat, m: nat)
    ensures Split(FormatTime(h, m), ':') == [Pad2(h), Pad2(m)]
  {
    var a, b := Pad2(h), Pad2(m);
    DigitsHaveNoSeparator(a, ':');
    DigitsHaveNoSeparator(b, ':');
    assert FormatTime(h, m) == a + [':'] + b;
    SplitFirst(a, ':', b);
    SplitNoSeparator(b, ':');
  }

  /** A well-formed slot date and time name the instant of that wall-clock
      minute at UTC+7. */
  lemma SlotInstantOfFormatted(c: Civil, h: nat, m: nat)
    requires ValidCivil(c) && c.year >= 100
    ensures SlotInstant(FormatDate(c), FormatTime(h, m))
         == TimeClip(DaysFromCivil(c) * DayMs + h * HourMs + m * MinuteMs - OffsetMs)
  {
    var date, time := FormatDate(c), FormatTime(h, m);
    FormattedPartsParse(c, h, m);
    SlotInstantOfParts(date, time, c.year, c.month + 1, c.day, h, m);
    assert c.month + 1 - 1 == c.month;
    DateUtcOfCivil(c, h - 7, m);
  }

  /** Every part of a formatted date and time reads back as its number. */
  lemma FormattedPartsParse(c: Civil, h: nat, m: nat)
    requires ValidCivil(c) && c.year >= 100
    ensures var ds, ts := Split(FormatDate(c), '-'), Split(FormatTime(h, m), ':');
      && |ds| >= 3 && |ts| >= 2
      && ParseNumber(ds[0]) == Some(c.year) && ParseNumber(ds[1]) == Some(c.month + 1)
      && ParseNumber(ds[2]) == Some(c.day)
      && ParseNumber(ts[0]) == Some(h) && ParseNumber(ts[1]) == Some(m)
  {
    SplitFormatDate(c);
    SplitFormatTime(h, m);
    NatToStringRoundTrip(c.year);
    assert IntToString(c.year) == NatToString(c.year);
  }

  /** Once every part parses, the instant is the clipped UTC reading of
      those numbers with the hour moved back by seven. */
  lemma SlotInstantOfParts(date: string, time: string, y: nat, mo: nat, d: nat, h: nat, mi: nat)
    requires |Split(date, '-')| >= 3 && |Split(time, ':')| >= 2
    requires ParseNumber(Split(date, '-')[0]) == Some(y) && ParseNumber(Split(date, '-')[1]) == Some(mo)
    requires ParseNumber(Split(date, '-')[2]) == Some(d)
    requires ParseNumber(Split(time, ':')[0]) == Some(h) && ParseNumber(Split(time, ':')[1]) == Some(mi)
    ensures SlotInstant(date, time) == TimeClip(DateUtc(y, mo - 1, d, h - 7, mi))
  {
  }

  /** From 1970 on, today's Cambodia date lies in a year past 1970 and its
      day number is not negative. */
  lemma ClockSince1970(nowMs: int)
    requires 0 <= nowMs && IsTimeValue(nowMs + OffsetMs)
    ensures WallClockAt(nowMs + OffsetMs).date.year >= 1970
    ensures DaysFromCivil(WallClockAt(nowMs + OffsetMs).date) >= 0
  {
    var c := WallClockAt(nowMs + OffsetMs).date;
    if c.year < 1970 {
      DayFromYearMonotone(c.year, 1970);
    }
  }

  /** For a clock from 1970 on, a formatted slot on a date past 99 is past
      exactly when the minute it names is not after the minute of the
      Cambodia clock. */
  lemma PastIffMinuteNotAfter(c: Civil, h: nat, m: nat, nowMs: int)
    requires ValidCivil(c) && c.year >= 100
    requires IsTimeValue(DaysFromCivil(c) * DayMs + h * HourMs + m * MinuteMs - OffsetMs)
    ensures IsSlotPast(FormatDate(c), FormatTime(h, m), nowMs)
        <==> DaysFromCivil(c) * 1440 + h * 60 + m <= (nowMs + OffsetMs) / MinuteMs
  {
    SlotInstantOfFormatted(c, h, m);
    var slotMinute := DaysFromCivil(c) * 1440 + h * 60 + m;
    assert DaysFromCivil(c) * DayMs + h * HourMs + m * MinuteMs - OffsetMs == slotMinute * MinuteMs - OffsetMs;
  }

  /** A slot is past exactly when its Cambodia date is before today's, or
      it is today and its hour and minute are not after the current ones. */
  lemma SlotPastIffNotAfterNow(c: Civil, h: nat, m: nat, nowMs: int)
    requires ValidCivil(c) && c.year >= 100 && h < 24 && m < 60
    requires IsTimeValue(DaysFromCivil(c) * DayMs + h * HourMs + m * MinuteMs - OffsetMs)
    requires IsTimeValue(nowMs + OffsetMs)
    ensures var w := WallClockAt(nowMs + OffsetMs);
      IsSlotPast(FormatDate(c), FormatTime(h, m), nowMs)
      <==> (|| DaysFromCivil(c) < DaysFromCivil(w.date)
            || (c == w.date && h * 60 + m <= w.hour * 60 + w.minute))
  {
    var w := WallClockAt(nowMs + OffsetMs);
    WallClockMinute(nowMs + OffsetMs);
    SlotPastIffClockAfter(c, h, m, w.date, w.hour, w.minute, nowMs);
  }

  /** The same comparison for any reading `today`, `hour:minute` of the
      clock at `nowMs`. */
  lemma SlotPastIffClockAfter(c: Civil, h: nat, m: nat, today: Civil, hour: nat, minute: nat, nowMs: int)
    requires ValidCivil(c) && c.year >= 100 && h < 24 && m < 60
    requires IsTimeValue(DaysFromCivil(c) * DayMs + h * HourMs + m * MinuteMs - OffsetMs)
    requires ValidCivil(today) && hour < 24 && minute < 60
    requires (nowMs + OffsetMs) / MinuteMs == DaysFromCivil(today) * 1440 + hour * 60 + minute
    ensures IsSlotPast(FormatDate(c), FormatTime(h, m), nowMs)
      <==> (|| DaysFromCivil(c) < DaysFromCivil(today)
            || (c == today && h * 60 + m <= hour * 60 + minute))
  {
    PastIffMinuteNotAfter(c, h, m, nowMs);
    MinuteOrder(DaysFromCivil(c), DaysFromCivil(today), h * 60 + m, hour * 60 + minute);
    if DaysFromCivil(c) == DaysFromCivil(today) {
      DaysFromCivilInjective(c, today);
    }
  }

  /** Minutes counted as day times 1440 plus minute of the day order as
      day, then minute of the day. */
  lemma MinuteOrder(d1: int, d2: int, x: int, y: int)
    requires 0 <= x < 1440 && 0 <= y < 1440
    ensures d1 * 1440 + x <= d2 * 1440 + y <==> d1 < d2 || (d1 == d2 && x <= y)
  {
  }

  /** Midnight of today's Cambodia date has always passed. */
  lemma MidnightTodayIsPast(nowMs: int)
    requires 0 <= nowMs && IsTimeValue(nowMs + OffsetMs)
    ensures IsSlotPast(TodayCambodia(nowMs), "00:00", nowMs)
  {
    var w := WallClockAt(nowMs + OffsetMs);
    ClockSince1970(nowMs);
    assert FormatTime(0, 0) == "00:00" by {
      HalfHourDigits();
    }
    PastIffMinuteNotAfter(w.date, 0, 0, nowMs);
    WallClockMinute(nowMs + OffsetMs);
  }

  /** What `getMinTime` offers on today's date: the rounded current time. */
  lemma MinTimeToday(nowMs: int)
    requires IsTimeValue(nowMs + OffsetMs)
    ensures var w := WallClockAt(nowMs + OffsetMs);
      var r := RoundUp(w.hour, w.minute);
      MinTime(TodayCambodia(nowMs), nowMs) == FormatTime(r.0, r.1)
  {
  }

  /** On today's date the earliest time the picker offers is already past
      exactly when the clock stands on a full or half hour. */
  lemma MinTimeTodayPastIffOnHalfHour(nowMs: int)
    requires 0 <= nowMs && IsTimeValue(nowMs + OffsetMs + 30 * MinuteMs)
    ensures var today := TodayCambodia(nowMs);
      IsSlotPast(today, MinTime(today, nowMs), nowMs) <==> WallClockAt(nowMs + OffsetMs).minute % 30 == 0
  {
    var w := WallClockAt(nowMs + OffsetMs);
    TodaysReading(nowMs);
    RoundedPastIff(w.date, w.hour, w.minute, nowMs);
  }

  /** Everything `RoundedPastIff` needs about today's reading of the clock,
      and what `getMinTime` offers on today's date. */
  lemma TodaysReading(nowMs: int)
    requires 0 <= nowMs && IsTimeValue(nowMs + OffsetMs)
    ensures var w := WallClockAt(nowMs + OffsetMs);
      var r := RoundUp(w.hour, w.minute);
      && w.date.year >= 100 && DaysFromCivil(w.date) >= 0
      && (nowMs + OffsetMs) / MinuteMs == DaysFromCivil(w.date) * 1440 + w.hour * 60 + w.minute
      && TodayCambodia(nowMs) == FormatDate(w.date)
      && MinTime(TodayCambodia(nowMs), nowMs) == FormatTime(r.0, r.1)
  {
    ClockSince1970(nowMs);
    WallClockMinute(nowMs + OffsetMs);
    MinTimeToday(nowMs);
  }

  /** For a clock reading on date `c` at `hour:minute`, the slot at the
      rounded time of that date is past exactly when the reading is on a
      full or half hour. */
  lemma RoundedPastIff(c: Civil, hour: nat, minute: nat, nowMs: int)
    requires ValidCivil(c) && c.year >= 100 && DaysFromCivil(c) >= 0 && hour < 24 && minute < 60
    requires (nowMs + OffsetMs) / MinuteMs == DaysFromCivil(c) * 1440 + hour * 60 + minute
    requires IsTimeValue(nowMs + OffsetMs + 30 * MinuteMs)
    ensures var r := RoundUp(hour, minute);
      IsSlotPast(FormatDate(c), FormatTime(r.0, r.1), nowMs) <==> minute % 30 == 0
  {
    var r := RoundUp(hour, minute);
    InstantWithinHalfHour(DaysFromCivil(c), hour * 60 + minute, r.0, r.1, nowMs + OffsetMs);
    PastIffMinuteNotAfter(c, r.0, r.1, nowMs);
    RoundUpReachedIff(hour, minute);
  }

  /** The rounded time is not after the current one exactly on a full or
      half hour. */
  lemma RoundUpReachedIff(h: nat, m: nat)
    requires m < 60
    ensures RoundUp(h, m).0 * 60 + RoundUp(h, m).1 <= h * 60 + m <==> m % 30 == 0
  {
  }

  /** The instant of a time rounded up from the minute of `t` lies between
      the start of its day and half an hour after `t`. */
  lemma InstantWithinHalfHour(day: int, x: int, rh: int, rm: int, t: int)
    requires day >= 0 && 0 <= x <= rh * 60 + rm < x + 30
    requires t / MinuteMs == day * 1440 + x
    ensures -OffsetMs <= day * DayMs + rh * HourMs + rm * MinuteMs - OffsetMs <= t - OffsetMs + 30 * MinuteMs
  {
    var q := day * 1440 + rh * 60 + rm;
    assert day * DayMs + rh * HourMs + rm * MinuteMs == q * MinuteMs;
    assert q < t / MinuteMs + 30;
    assert q * MinuteMs <= (t / MinuteMs) * MinuteMs + 29 * MinuteMs;
  }

  /** After 23:30 the rounded time reads `24:00`, which sorts after the
      picker's maximum `23:59`, so no time of today is selectable. */
  lemma MinTimeLateEvening(nowMs: int)
    requires IsTimeValue(nowMs + OffsetMs)
    requires WallClockAt(nowMs + OffsetMs).hour == 23 && WallClockAt(nowMs + OffsetMs).minute > 30
    ensures MinTime(TodayCambodia(nowMs), nowMs) == "24:00"
    ensures !StrLe(MinTime(TodayCambodia(nowMs), nowMs), MaxTime())
  {
    var w := WallClockAt(nowMs + OffsetMs);
    MinTimeToday(nowMs);
    assert RoundUp(w.hour, w.minute) == (24, 0);
    MidnightDigits();
  }

  /** The rounded time past 23:30 as a string, and where it sorts. */
  lemma MidnightDigits()
    ensures FormatTime(24, 0) == "24:00"
    ensures !StrLe("24:00", "23:59")
  {
    HalfHourDigits();
    assert Pad2(24) == "24" by {
      assert NatToString(24) == NatToString(2) + [DigitChar(4)];
    }
  }

  /** Until 23:30, or on any other date, the earliest selectable time does
      not sort after the latest. */
  lemma MinTimeWithinDay(selectedDate: string, nowMs: int)
    requires IsTimeValue(nowMs + OffsetMs)
    requires WallClockAt(nowMs + OffsetMs).hour * 60 + WallClockAt(nowMs + OffsetMs).minute <= 23 * 60 + 30
    ensures StrLe(MinTime(selectedDate, nowMs), MaxTime())
  {
    var w := WallClockAt(nowMs + OffsetMs);
    if selectedDate == TodayCambodia(nowMs) {
      MinTimeToday(nowMs);
      RoundedWithinDay(w.hour, w.minute);
    } else {
      MidnightSortsFirst();
    }
  }

  /** Midnight, offered on any other date, sorts before `23:59`. */
  lemma MidnightSortsFirst()
    ensures StrLe("00:00", "23:59")
  {
    HalfHourDigits();
    Pad2Order(23, 23);
    Pad2Order(0, 59);
    assert Pad2(23) == "23" && Pad2(59) == "59" by {
      assert NatToString(23) == NatToString(2) + [DigitChar(3)];
      assert NatToString(59) == NatToString(5) + [DigitChar(9)];
    }
    TwoPartsOrder("00", "00", "23", "59");
  }

  /** A time up to 23:30 rounds to one that does not sort after `23:59`. */
  lemma RoundedWithinDay(h: nat, m: nat)
    requires m < 60 && h * 60 + m <= 23 * 60 + 30
    ensures StrLe(FormatTime(RoundUp(h, m).0, RoundUp(h, m).1), "23:59")
  {
    var r := RoundUp(h, m);
    Pad2Order(r.0, 23);
    Pad2Order(r.1, 59);
    assert Pad2(23) == "23" && Pad2(59) == "59" by {
      assert NatToString(23) == NatToString(2) + [DigitChar(3)];
      assert NatToString(59) == NatToString(5) + [DigitChar(9)];
    }
    TwoPartsOrder(Pad2(r.0), Pad2(r.1), "23", "59");
  }

  /** Two-digit padding keeps numeric order as string order. */
  lemma Pad2Order(a: nat, b: nat)
    requires a <= b < 100
    ensures StrLe(Pad2(a), Pad2(b))
  {
    var x, y := Pad2(a), Pad2(b);
    assert |x| == 2 && |y| == 2;
    assert a == DigitValue(x[0]) * 10 + DigitValue(x[1]) by {
      assert DigitsValue(x) == DigitsValue(x[..1]) * 10 + DigitValue(x[1]);
      assert DigitsValue(x[..1]) == DigitsValue(x[..0]) * 10 + DigitValue(x[0]);
    }
    assert b == DigitValue(y[0]) * 10 + DigitValue(y[1]) by {
      assert DigitsValue(y) == DigitsValue(y[..1]) * 10 + DigitValue(y[1]);
      assert DigitsValue(y[..1]) == DigitsValue(y[..0]) * 10 + DigitValue(y[0]);
    }
    assert x[1..][1..] == [];
  }

  lemma TwoPartsOrder(a: string, b: string, c: string, d: string)
    requires |a| == 2 && |c| == 2 && StrLe(a, c) && StrLe(b, d)
    ensures StrLe(a + ":" + b, c + ":" + d)
  {
    if a == c {
      var x, y := a + ":" + b, c + ":" + d;
      assert x[1..][1..][1..] == b && y[1..][1..][1..] == d;
    } else {
      assert (a + ":" + b)[..2] == a && (c + ":" + d)[..2] == c;
      PrefixOrder(a, c, ":" + b, ":" + d);
      assert a + ":" + b == a + (":" + b);
      assert c + ":" + d == c + (":" + d);
    }
  }

  /** Strictly ordered equal-length prefixes decide the order. */
  lemma {:induction false} PrefixOrder(a: string, c: string, u: string, v: string)
    requires |a| == |c| && StrLe(a, c) && a != c
    ensures StrLe(a + u, c + v)
    decreases |a|
  {
    if a[0] == c[0] {
      assert a[1..] != c[1..] by {
        assert a == [a[0]] + a[1..] && c == [c[0]] + c[1..];
      }
      PrefixOrder(a[1..], c[1..], u, v);
      assert (a + u)[1..] == a[1..] + u && (c + v)[1..] == c[1..] + v;
    }
  }
}

=== FILE: errors.dfy ===
/** Error codes the controllers raise (each an `AppError(message, status, code)`
    that the error handler turns into `{ status, code, message }`), and the
    Option/Result wrappers every operation of the model returns. */
module Errors {

  datatype Option<+T> = None | Some(value: T)

  /** A query-string or body field counts as supplied only when it is present
      and non-empty: JavaScript treats `""` as false. */
  predicate Given(o: Option<string>)
  {
    o.Some? && o.value != ""
  }

  datatype Error =
    // bookings
    | SlotNotFound
    | DuplicateBooking
    | SlotAlreadyApproved
    | CreateBookingFailed
    | BookingNotFound
    | Forbidden
    | BookingConfirmed
    | Unauthorized
    | SlotAlreadyConfirmed
    | UpdateBookingStatusFailed
    | GetAdminBookingsFailed
    | GetConfirmedBookingsFailed
    // slots
    | GetAdminSlotsFailed
    // users
    | UserNotFound
    | EmailOrPasswordOnly
    | PasswordRequired
    | InvalidPassword
    | EmailExists
    | NameExists
    | SamePassword
    | RequiredFields
    | UpdateProfileFailed
    | CreateUserFailed
    | UpdateUserFailed
    | GetUsersFailed
    // authentication middleware
    | NoToken
    | InvalidToken
    | NotAdmin
    | OnlyUsers

  /** The HTTP status each error is raised with. */
  function HttpStatus(e: Error): (code: int)
    ensures 400 <= code <= 500
  {
    match e
    case SlotNotFound => 404
    case DuplicateBooking => 400
    case SlotAlreadyApproved => 400
    case CreateBookingFailed => 500
    case BookingNotFound => 404
    case Forbidden => 403
    case BookingConfirmed => 400
    case Unauthorized => 401
    case SlotAlreadyConfirmed => 400
    case UpdateBookingStatusFailed => 500
    case GetAdminBookingsFailed => 500
    case GetConfirmedBookingsFailed => 500
    case GetAdminSlotsFailed => 500
    case UserNotFound => 404
    case EmailOrPasswordOnly => 400
    case PasswordRequired => 400
    case InvalidPassword => 401
    case EmailExists => 400
    case NameExists => 400
    case SamePassword => 400
    case RequiredFields => 400
    case UpdateProfileFailed => 500
    case CreateUserFailed => 500
    case UpdateUserFailed => 500
    case GetUsersFailed => 500
    case NoToken => 401
    case InvalidToken => 401
    case NotAdmin => 403
    case OnlyUsers => 403
  }

  /** The machine-readable code; the "only users" guard raises its error
      without one. */
  function Code(e: Error): Option<string>
  {
    match e
    case SlotNotFound => Some("SLOT_NOT_FOUND")
    case DuplicateBooking => Some("DUPLICATE_BOOKING")
    case SlotAlreadyApproved => Some("SLOT_ALREADY_APPROVED")
    case CreateBookingFailed => Some("CREATE_BOOKING_FAILED")
    case BookingNotFound => Some("BOOKING_NOT_FOUND")
    case Forbidden => Some("FORBIDDEN")
    case BookingConfirmed => Some("BOOKING_CONFIRMED")
    case Unauthorized => Some("UNAUTHORIZED")
    case SlotAlreadyConfirmed => Some("SLOT_ALREADY_CONFIRMED")
    case UpdateBookingStatusFailed => Some("UPDATE_BOOKING_STATUS_FAILED")
    case GetAdminBookingsFailed => Some("GET_ADMIN_BOOKINGS_FAILED")
    case GetConfirmedBookingsFailed => Some("GET_CONFIRMED_BOOKINGS_FAILED")
    case GetAdminSlotsFailed => Some("GET_ADMIN_SLOTS_FAILED")
    case UserNotFound => Some("USER_NOT_FOUND")
    case EmailOrPasswordOnly => Some("EMAIL_OR_PASSWORD_ONLY")
    case PasswordRequired => Some("PASSWORD_REQUIRED")
    case InvalidPassword => Some("INVALID_PASSWORD")
    case EmailExists => Some("EMAIL_EXISTS")
    case NameExists => Some("NAME_EXISTS")
    case SamePassword => Some("SAME_PASSWORD")
    case RequiredFields => Some("REQUIRED_FIELDS")
    case UpdateProfileFailed => Some("UPDATE_PROFILE_FAILED")
    case CreateUserFailed => Some("CREATE_USER_FAILED")
    case UpdateUserFailed => Some("UPDATE_USER_FAILED")
    case GetUsersFailed => Some("GET_USERS_FAILED")
    case NoToken => Some("NO_TOKEN")
    case InvalidToken => Some("INVALID_TOKEN")
    case NotAdmin => Some("NOT_ADMIN")
    case OnlyUsers => None
  }

  datatype Result<+T> = Ok(value: T) | Err(error: Error)
}

=== FILE: listing.dfy ===
/** What every listing endpoint does after filtering: sort by a fixed key
    (a numeric rank, then up to two string fields, then a numeric
    tie-breaker, all ascending), count, and cut out one page, either in
    memory with JavaScript's `slice` or in the database with `$skip` and
    `$limit`. */
module Listing {
  import opened Errors
  import opened Text

  /** One page of a listing: the count of all matching items, the page
      number and size asked for, and the items of the page. */
  datatype Page<T> = Page(total: nat, page: int, limit: int, items: seq<T>)

  /** The query defaults `page = 1` and `limit = 20`. */
  const DefaultPage := 1
  const DefaultLimit := 20

  function OrDefault(o: Option<int>, d: int): int
  {
    if o.Some? then o.value else d
  }

  datatype Key = Key(rank: int, first: string, second: string, tie: int)

  predicate StrLt(a: string, b: string)
  {
    StrLe(a, b) && a != b
  }

  /** Ascending lexicographic order on keys. */
  predicate KeyLe(a: Key, b: Key)
  {
    || a.rank < b.rank
    || (a.rank == b.rank && StrLt(a.first, b.first))
    || (a.rank == b.rank && a.first == b.first && StrLt(a.second, b.second))
    || (a.rank == b.rank && a.first == b.first && a.second == b.second && a.tie <= b.tie)
  }

  lemma KeyLeTotal(a: Key, b: Key)
    ensures KeyLe(a, b) || KeyLe(b, a)
  {
    StrLeTotal(a.first, b.first);
    StrLeTotal(a.second, b.second);
  }

  lemma KeyLeTransitive(a: Key, b: Key, c: Key)
    requires KeyLe(a, b) && KeyLe(b, c)
    ensures KeyLe(a, c)
  {
    if a.rank == b.rank == c.rank {
      if StrLe(a.first, b.first) && StrLe(b.first, c.first) {
        StrLeTransitive(a.first, b.first, c.first);
        if a.first == c.first {
          StrLeAntisymmetric(a.first, b.first);
        }
      }
      if a.first == b.first == c.first && StrLe(a.second, b.second) && StrLe(b.second, c.second) {
        StrLeTransitive(a.second, b.second, c.second);
        if a.second == c.second {
          StrLeAntisymmetric(a.second, b.second);
        }
      }
    }
  }

  predicate SortedBy<T>(s: seq<T>, key: T -> Key)
  {
    forall i, j :: 0 <= i < j < |s| ==> KeyLe(key(s[i]), key(s[j]))
  }

  /** Inserts `x` in front of the first element whose key is not below it,
      so that an element already present with an equal key stays behind. */
  function Insert<T>(x: T, s: seq<T>, key: T -> Key): (r: seq<T>)
    requires SortedBy(s, key)
    ensures SortedBy(r, key)
    ensures multiset(r) == multiset(s) + multiset{x}
    ensures forall y :: y in r ==> y == x || y in s
    decreases |s|
  {
    if |s| == 0 then [x]
    else if KeyLe(key(x), key(s[0])) then
      FrontSorted(x, s, key);
      [x] + s
    else
      KeyLeTotal(key(x), key(s[0]));
      SortedTail(s, key);
      var rest := Insert(x, s[1..], key);
      ConsSorted(s, x, rest, key);
      assert s == [s[0]] + s[1..];
      [s[0]] + rest
  }

  /** An element not above the first of a sorted sequence may go in front. */
  lemma FrontSorted<T>(x: T, s: seq<T>, key: T -> Key)
    requires |s| > 0 && SortedBy(s, key) && KeyLe(key(x), key(s[0]))
    ensures SortedBy([x] + s, key)
  {
    forall j | 0 <= j < |s| ensures KeyLe(key(x), key(s[j])) {
      if j > 0 { KeyLeTransitive(key(x), key(s[0]), key(s[j])); }
    }
    var t := [x] + s;
    forall i, j | 0 <= i < j < |t| ensures KeyLe(key(t[i]), key(t[j])) {
      assert t[j] == s[j - 1];
      if i > 0 { assert t[i] == s[i - 1]; }
    }
  }

  /** The first of a sorted sequence may go in front of a sorted sequence
      made of the rest and an element not below it. */
  lemma ConsSorted<T>(s: seq<T>, x: T, rest: seq<T>, key: T -> Key)
    requires |s| > 0 && SortedBy(s, key) && KeyLe(key(s[0]), key(x))
    requires SortedBy(rest, key) && forall y :: y in rest ==> y == x || y in s[1..]
    ensures SortedBy([s[0]] + rest, key)
  {
    forall y | y in rest ensures KeyLe(key(s[0]), key(y)) {
      if y != x {
        var j :| 0 <= j < |s[1..]| && s[1..][j] == y;
        assert s[j + 1] == y;
      }
    }
    var t := [s[0]] + rest;
    forall i, j | 0 <= i < j < |t| ensures KeyLe(key(t[i]), key(t[j])) {
      assert t[j] == rest[j - 1] && t[j] in rest;
      if i > 0 { assert t[i] == rest[i - 1]; }
    }
  }

  /** The stable sort `Array.prototype.sort` performs (and one of the orders
      MongoDB's `$sort` may return when keys tie). */
  function SortBy<T>(s: seq<T>, key: T -> Key): (r: seq<T>)
    ensures SortedBy(r, key)
    ensures multiset(r) == multiset(s)
    ensures |r| == |s|
    decreases |s|
  {
    if |s| == 0 then []
    else
      assert s == [s[0]] + s[1..];
      Insert(s[0], SortBy(s[1..], key), key)
  }

  lemma SortedTail<T>(s: seq<T>, key: T -> Key)
    requires |s| > 0 && SortedBy(s, key)
    ensures SortedBy(s[1..], key)
  {
    forall i, j | 0 <= i < j < |s| - 1 ensures KeyLe(key(s[1..][i]), key(s[1..][j])) {
      assert s[1..][i] == s[i + 1] && s[1..][j] == s[j + 1];
    }
  }

  /** An element whose key is not above the first one's goes in front. */
  lemma InsertFront<T>(x: T, s: seq<T>, key: T -> Key)
    requires SortedBy(s, key) && (|s| > 0 ==> KeyLe(key(x), key(s[0])))
    ensures Insert(x, s, key) == [x] + s
  {
  }

  /** An element whose key is below the new one's stays in front of it. */
  lemma InsertSkips<T>(x: T, s: seq<T>, key: T -> Key)
    requires |s| > 0 && SortedBy(s, key) && !KeyLe(key(x), key(s[0]))
    ensures SortedBy(s[1..], key)
    ensures Insert(x, s, key) == [s[0]] + Insert(x, s[1..], key)
  {
    SortedTail(s, key);
  }

  /** Inserting past a prefix of strictly smaller elements into an element
      that is not smaller lands exactly between them. */
  lemma {:induction false} InsertBetween<T>(x: T, a: seq<T>, b: seq<T>, key: T -> Key)
    requires SortedBy(a + b, key)
    requires forall i :: 0 <= i < |a| ==> !KeyLe(key(x), key(a[i]))
    requires |b| > 0 ==> KeyLe(key(x), key(b[0]))
    ensures Insert(x, a + b, key) == a + [x] + b
    decreases |a|
  {
    if |a| > 0 {
      var s := a + b;
      assert s[0] == a[0] && s[1..] == a[1..] + b;
      InsertSkips(x, s, key);
      InsertBetween(x, a[1..], b, key);
      ConsAround(a, x, b);
    } else {
      assert a + b == b && a + [x] + b == [x] + b;
      InsertFront(x, b, key);
    }
  }

  lemma ConsAround<T>(a: seq<T>, x: T, b: seq<T>)
    requires |a| > 0
    ensures [a[0]] + (a[1..] + [x] + b) == a + [x] + b
  {
    assert a == [a[0]] + a[1..];
  }

  function Min(a: int, b: int): int
  {
    if a <= b then a else b
  }

  function ClampIndex(i: int, len: nat): (r: nat)
    ensures r <= len
  {
    if i < 0 then (if len + i < 0 then 0 else len + i) else if i > len then len else i
  }

  /** `s.slice(start, end)`, negative indices counting from the end. */
  function JsSlice<T>(s: seq<T>, start: int, end: int): (r: seq<T>)
    ensures 0 <= start <= end ==> |r| == Min(end, |s|) - Min(start, |s|)
    ensures 0 <= start ==> forall i :: 0 <= i < |r| ==> start + i < |s| && r[i] == s[start + i]
    ensures end == 0 ==> r == []
  {
    var a := ClampIndex(start, |s|);
    var b := ClampIndex(end, |s|);
    if a <= b then s[a..b] else []
  }

  /** A `$skip` then `$limit` stage pair; MongoDB refuses a negative skip and
      a limit that is not positive, which fails the whole aggregation. */
  function SkipLimit<T>(s: seq<T>, skip: int, limit: int): (r: Option<seq<T>>)
    ensures r.Some? <==> skip >= 0 && limit > 0
    ensures r.Some? ==> |r.value| == if skip >= |s| then 0 else Min(limit, |s| - skip)
    ensures r.Some? ==> forall i :: 0 <= i < |r.value| ==> r.value[i] == s[skip + i]
  {
    if skip < 0 || limit <= 0 then None
    else if skip >= |s| then Some([])
    else Some(s[skip..Min(skip + limit, |s|)])
  }

  /** `(page - 1) * limit`, the offset every paginated endpoint computes. */
  function PageStart(page: int, limit: int): int
  {
    (page - 1) * limit
  }

  lemma PageStartNonNegative(page: int, limit: int)
    requires page >= 1 && limit >= 0
    ensures PageStart(page, limit) >= 0
  {
    var a: nat := page - 1;
    var b: nat := limit;
    assert a * b >= 0;
  }

  /** For a page number and limit of at least one, the in-memory slice and
      the database stages cut out the same page. */
  lemma SliceAgreesWithSkipLimit<T>(s: seq<T>, page: int, limit: int)
    requires page >= 1 && limit >= 1
    ensures SkipLimit(s, PageStart(page, limit), limit)
         == Some(JsSlice(s, PageStart(page, limit), PageStart(page, limit) + limit))
  {
    PageStartNonNegative(page, limit);
  }

  /** Pages of `limit` rows cover a list without gaps: position `i` is row
      `i % limit` of page `i / limit + 1`. */
  lemma PageOf(i: nat, limit: int)
    requires limit >= 1
    ensures i / limit + 1 >= 1
    ensures 0 <= i % limit < limit
    ensures PageStart(i / limit + 1, limit) + i % limit == i
  {
  }

  /** The database page that position `i` falls on holds the element at
      `i`. */
  lemma SkipLimitHoldsItsPage<T>(s: seq<T>, i: nat, limit: int)
    requires i < |s| && limit >= 1
    ensures var start := PageStart(i / limit + 1, limit);
            && SkipLimit(s, start, limit).Some?
            && i % limit < |SkipLimit(s, start, limit).value|
            && SkipLimit(s, start, limit).value[i % limit] == s[i]
  {
    PageOf(i, limit);
  }

  /** The in-memory page that position `i` falls on holds the element at
      `i`. */
  lemma JsSliceHoldsItsPage<T>(s: seq<T>, i: nat, limit: int)
    requires i < |s| && limit >= 1
    ensures var start := PageStart(i / limit + 1, limit);
            && i % limit < |JsSlice(s, start, start + limit)|
            && JsSlice(s, start, start + limit)[i % limit] == s[i]
  {
    PageOf(i, limit);
  }

  /** An element of a list is on some page of the database listing, of any
      positive size. */
  lemma SkipLimitPageOf<T>(s: seq<T>, x: T, limit: int) returns (page: int)
    requires x in s && limit >= 1
    ensures page >= 1 && PageStart(page, limit) >= 0
    ensures SkipLimit(s, PageStart(page, limit), limit).Some?
    ensures x in SkipLimit(s, PageStart(page, limit), limit).value
  {
    var i :| 0 <= i < |s| && s[i] == x;
    SkipLimitHoldsItsPage(s, i, limit);
    PageOf(i, limit);
    page := i / limit + 1;
    PageStartNonNegative(page, limit);
  }

  /** An element of a list is on some page of the in-memory listing, of any
      positive size. */
  lemma JsSlicePageOf<T>(s: seq<T>, x: T, limit: int) returns (page: int)
    requires x in s && limit >= 1
    ensures page >= 1
    ensures x in JsSlice(s, PageStart(page, limit), PageStart(page, limit) + limit)
  {
    page := SkipLimitPageOf(s, x, limit);
    SliceAgreesWithSkipLimit(s, page, limit);
  }

  lemma SortKeepsMembers<T>(s: seq<T>, key: T -> Key)
    ensures forall x :: x in SortBy(s, key) <==> x in s
  {
    var r := SortBy(s, key);
    forall x ensures x in r <==> x in s {
      assert x in r <==> x in multiset(r);
      assert x in s <==> x in multiset(s);
    }
  }

  lemma JsSliceIsSlice<T>(s: seq<T>, start: int, end: int)
    ensures exists a, b :: 0 <= a <= b <= |s| && JsSlice(s, start, end) == s[a..b]
  {
    var a := ClampIndex(start, |s|);
    var b := ClampIndex(end, |s|);
    if a > b {
      assert JsSlice(s, start, end) == s[a..a];
    } else {
      assert JsSlice(s, start, end) == s[a..b];
    }
  }

  /** A page cut out of a sorted list is sorted and holds only its
      elements. */
  lemma JsSliceSorted<T>(s: seq<T>, key: T -> Key, start: int, end: int)
    requires SortedBy(s, key)
    ensures SortedBy(JsSlice(s, start, end), key)
    ensures forall x :: x in JsSlice(s, start, end) ==> x in s
  {
    JsSliceIsSlice(s, start, end);
    var a, b :| 0 <= a <= b <= |s| && JsSlice(s, start, end) == s[a..b];
    var t := s[a..b];
    forall i, j | 0 <= i < j < |t| ensures KeyLe(key(t[i]), key(t[j])) {
      assert t[i] == s[a + i] && t[j] == s[a + j];
    }
    forall x | x in t ensures x in s {
      var i :| 0 <= i < |t| && t[i] == x;
      assert t[i] == s[a + i];
    }
  }

  lemma SkipLimitSorted<T>(s: seq<T>, key: T -> Key, skip: int, limit: int)
    requires SortedBy(s, key)
    requires SkipLimit(s, skip, limit).Some?
    ensures SortedBy(SkipLimit(s, skip, limit).value, key)
    ensures forall x :: x in SkipLimit(s, skip, limit).value ==> x in s
  {
    var t := SkipLimit(s, skip, limit).value;
    forall i, j | 0 <= i < j < |t| ensures KeyLe(key(t[i]), key(t[j])) {
      assert t[i] == s[skip + i] && t[j] == s[skip + j];
    }
    forall x | x in t ensures x in s {
      var i :| 0 <= i < |t| && t[i] == x;
      assert t[i] == s[skip + i];
    }
  }

  /** The page a `$sort`, `$skip` and `$limit` stage triple cuts out of the
      matching rows: rows `(page - 1) * limit` onwards of the sorted rows, at
      most `limit` of them; `None` when the database refuses the offset or
      the limit. */
  function DbPage<T>(rows: seq<T>, key: T -> Key, page: int, limit: int): (r: Option<seq<T>>)
    ensures r.Some? <==> PageStart(page, limit) >= 0 && limit > 0
    ensures r.Some? ==> SortedBy(r.value, key) && |r.value| <= limit
    ensures r.Some? ==> forall x :: x in r.value ==> x in rows
    ensures r.Some? ==> |r.value| == if PageStart(page, limit) >= |rows| then 0 else Min(limit, |rows| - PageStart(page, limit))
    ensures r.Some? ==> forall i :: 0 <= i < |r.value| ==> r.value[i] == SortBy(rows, key)[PageStart(page, limit) + i]
  {
    var sorted := SortBy(rows, key);
    var cut := SkipLimit(sorted, PageStart(page, limit), limit);
    if cut.Some? then
      SkipLimitSorted(sorted, key, PageStart(page, limit), limit);
      SortKeepsMembers(rows, key);
      cut
    else cut
  }

  /** Every row is on some page of the database listing, for any positive
      page size. */
  lemma DbPageOf<T>(rows: seq<T>, key: T -> Key, x: T, limit: int) returns (page: int)
    requires x in rows && limit >= 1
    ensures page >= 1 && DbPage(rows, key, page, limit).Some? && x in DbPage(rows, key, page, limit).value
  {
    SortKeepsMembers(rows, key);
    page := SkipLimitPageOf(SortBy(rows, key), x, limit);
  }

  /** The page `getUserBookings` slices out of the sorted items in memory,
      `slice((page - 1) * limit, (page - 1) * limit + limit)`. */
  function MemPage<T>(items: seq<T>, key: T -> Key, page: int, limit: int): (r: seq<T>)
    ensures SortedBy(r, key)
    ensures forall x :: x in r ==> x in items
    ensures page >= 1 && limit >= 0 ==> |r| <= limit
    ensures page >= 1 && limit >= 0 ==>
      |r| == if PageStart(page, limit) >= |items| then 0 else Min(limit, |items| - PageStart(page, limit))
    ensures PageStart(page, limit) >= 0 ==>
      forall i :: 0 <= i < |r| ==> PageStart(page, limit) + i < |items| && r[i] == SortBy(items, key)[PageStart(page, limit) + i]
  {
    var sorted := SortBy(items, key);
    var start := PageStart(page, limit);
    JsSliceSorted(sorted, key, start, start + limit);
    SortKeepsMembers(items, key);
    if page >= 1 && limit >= 0 then
      PageStartNonNegative(page, limit);
      JsSlice(sorted, start, start + limit)
    else JsSlice(sorted, start, start + limit)
  }

  /** Every item is on some page of the in-memory listing, for any positive
      page size. */
  lemma MemPageOf<T>(items: seq<T>, key: T -> Key, x: T, limit: int) returns (page: int)
    requires x in items && limit >= 1
    ensures page >= 1 && x in MemPage(items, key, page, limit)
  {
    SortKeepsMembers(items, key);
    page := JsSlicePageOf(SortBy(items, key), x, limit);
  }

  /** Keeps, in order, the images of the elements the partial map `f`
      accepts: a `filter` followed by a `map`, or a `map` that may drop an
      element followed by `filter(Boolean)`. */
  function FilterMap<A, B>(s: seq<A>, f: A -> Option<B>): (r: seq<B>)
    ensures |r| <= |s|
    ensures |s| == 1 ==> r == if f(s[0]).Some? then [f(s[0]).value] else []
    ensures forall y :: y in r ==> exists i :: 0 <= i < |s| && f(s[i]) == Some(y)
    ensures forall i :: 0 <= i < |s| && f(s[i]).Some? ==> f(s[i]).value in r
    decreases |s|
  {
    if |s| == 0 then []
    else
      var rest := FilterMap(s[1..], f);
      assert forall i :: 1 <= i < |s| ==> s[i] == s[1..][i - 1];
      assert forall y :: y in rest ==> exists i :: 0 <= i < |s| && f(s[i]) == Some(y) by {
        forall y | y in rest ensures exists i :: 0 <= i < |s| && f(s[i]) == Some(y) {
          var i :| 0 <= i < |s[1..]| && f(s[1..][i]) == Some(y);
          assert s[i + 1] == s[1..][i];
        }
      }
      match f(s[0])
      case None => rest
      case Some(y) => [y] + rest
  }

  /** Filtering distributes over concatenation: together with the one
      element case this fixes the result as the accepted images in their
      order, one for each accepted element. */
  lemma {:induction false} FilterMapAppend<A, B>(a: seq<A>, b: seq<A>, f: A -> Option<B>)
    ensures FilterMap(a + b, f) == FilterMap(a, f) + FilterMap(b, f)
    decreases |a|
  {
    if |a| == 0 {
      assert a + b == b;
    } else {
      assert (a + b)[0] == a[0] && (a + b)[1..] == a[1..] + b;
      FilterMapAppend(a[1..], b, f);
    }
  }

  /** Nothing accepted, nothing kept; everything accepted, one image per
      element. */
  lemma {:induction false} FilterMapCount<A, B>(s: seq<A>, f: A -> Option<B>)
    ensures (forall i :: 0 <= i < |s| ==> f(s[i]).None?) ==> FilterMap(s, f) == []
    ensures (forall i :: 0 <= i < |s| ==> f(s[i]).Some?) ==> |FilterMap(s, f)| == |s|
    decreases |s|
  {
    if |s| > 0 {
      FilterMapCount(s[1..], f);
      assert forall i :: 1 <= i < |s| ==> s[i] == s[1..][i - 1];
    }
  }
}

=== FILE: mongo_helpers.dfy ===
/** The aggregation-pipeline builders shared by the booking listings: the
    filter-and-sort pipeline built from optional query values, and the
    pagination stages appended to any pipeline. Stages are data here; what
    the database does with them is the business of the listings. */
module MongoHelpers {
  import opened Errors
  import opened Listing

  datatype Stage =
    | MatchUserId(userId: string)       // keep bookings whose joined user has this id
    | LookupSlot                        // join each booking with its slot
    | UnwindSlot                        // one row per booking and joined slot, dropping unjoined ones
    | MatchSlotDate(date: string)       // keep rows whose slot is on this date
    | MatchUserSearch(pattern: string)  // keep rows whose user's name or e-mail matches
    | MatchStatus(status: string)       // keep rows with this booking status
    | SortNewestFirst                   // order by creation time, newest first
    | Skip(count: int)                  // drop the first count rows
    | Limit(count: int)                 // keep at most count rows

  /** The status filter is skipped for an absent status and for "all". */
  predicate FiltersStatus(status: Option<string>)
  {
    Given(status) && status.value != "all"
  }

  /** The stage for an optional value: present only when the value is. */
  function OptionalStage(cond: bool, s: Stage): (r: seq<Stage>)
    ensures cond ==> r == [s]
    ensures !cond ==> r == []
  {
    if cond then [s] else []
  }

  function UserStage(userId: Option<string>): seq<Stage>
  {
    OptionalStage(Given(userId), MatchUserId(if userId.Some? then userId.value else ""))
  }

  function DateStage(date: Option<string>): seq<Stage>
  {
    OptionalStage(Given(date), MatchSlotDate(if date.Some? then date.value else ""))
  }

  function SearchStage(search: Option<string>): seq<Stage>
  {
    OptionalStage(Given(search), MatchUserSearch(if search.Some? then search.value else ""))
  }

  function StatusStage(status: Option<string>): seq<Stage>
  {
    OptionalStage(FiltersStatus(status), MatchStatus(if status.Some? then status.value else ""))
  }

  /** The fixed skeleton: the optional user match, the slot join, the
      optional matches, and the newest-first sort. */
  function Assemble(user: seq<Stage>, date: seq<Stage>, search: seq<Stage>, status: seq<Stage>): seq<Stage>
  {
    user + ([LookupSlot, UnwindSlot] + (date + (search + (status + [SortNewestFirst]))))
  }

  /** `buildBookingPipeline({ userId, date, search, status })`. */
  function BuildBookingPipeline(userId: Option<string>, date: Option<string>, search: Option<string>, status: Option<string>): (p: seq<Stage>)
    ensures 3 <= |p| <= 7
    ensures p[|p| - 1] == SortNewestFirst
    ensures (|p| > 0 && p[0].MatchUserId?) <==> Given(userId)
    ensures Given(userId) ==> p[0] == MatchUserId(userId.value)
  {
    Assemble(UserStage(userId), DateStage(date), SearchStage(search), StatusStage(status))
  }

  /** The filters a pipeline applies, read back from its stages: the
      inverse of the builder. */
  datatype Filters = Filters(userId: Option<string>, date: Option<string>, search: Option<string>, status: Option<string>)

  /** What one stage adds to the filters read so far. */
  function Apply(s: Stage, f: Filters): Filters
  {
    match s
    case MatchUserId(u) => f.(userId := Some(u))
    case MatchSlotDate(d) => f.(date := Some(d))
    case MatchUserSearch(q) => f.(search := Some(q))
    case MatchStatus(st) => f.(status := Some(st))
    case _ => f
  }

  function FiltersOf(p: seq<Stage>): Filters
    decreases |p|
  {
    if |p| == 0 then Filters(None, None, None, None) else Apply(p[0], FiltersOf(p[1..]))
  }

  lemma FiltersOfOptional(cond: bool, s: Stage, rest: seq<Stage>)
    ensures FiltersOf(OptionalStage(cond, s) + rest) == if cond then Apply(s, FiltersOf(rest)) else FiltersOf(rest)
  {
    if cond { assert (OptionalStage(cond, s) + rest)[1..] == rest; } else { assert OptionalStage(cond, s) + rest == rest; }
  }

  function StatusFilter(status: Option<string>): Option<string>
  {
    if FiltersStatus(status) then status else None
  }

  /** The query value as the pipeline sees it: an empty value counts as
      absent. */
  function Normal(o: Option<string>): Option<string>
  {
    if Given(o) then o else None
  }

  /** Reading the filters back yields exactly the given values, with an
      empty value dropped and a status of "all" dropped. */
  lemma BuildBookingPipelineRoundTrip(userId: Option<string>, date: Option<string>, search: Option<string>, status: Option<string>)
    ensures FiltersOf(BuildBookingPipeline(userId, date, search, status))
         == Filters(Normal(userId), Normal(date), Normal(search), StatusFilter(status))
  {
    var r3 := DateStage(date) + (SearchStage(search) + (StatusStage(status) + [SortNewestFirst]));
    var f3 := Filters(None, Normal(date), Normal(search), StatusFilter(status));
    MatchesReadBack(date, search, status);
    var mid := [LookupSlot, UnwindSlot] + r3;
    assert FiltersOf(mid) == f3 by {
      assert mid[1..] == [UnwindSlot] + r3;
      assert mid[1..][1..] == r3;
    }
    FiltersOfOptional(Given(userId), MatchUserId(if userId.Some? then userId.value else ""), mid);
  }

  lemma MatchesReadBack(date: Option<string>, search: Option<string>, status: Option<string>)
    ensures FiltersOf(DateStage(date) + (SearchStage(search) + (StatusStage(status) + [SortNewestFirst])))
         == Filters(None, Normal(date), Normal(search), StatusFilter(status))
  {
    var tail := [SortNewestFirst];
    assert FiltersOf(tail) == Filters(None, None, None, None) by {
      assert tail[1..] == [];
    }
    var d := StatusStage(status);
    FiltersOfOptional(FiltersStatus(status), MatchStatus(if status.Some? then status.value else ""), tail);
    var c := SearchStage(search);
    FiltersOfOptional(Given(search), MatchUserSearch(if search.Some? then search.value else ""), d + tail);
    FiltersOfOptional(Given(date), MatchSlotDate(if date.Some? then date.value else ""), c + (d + tail));
  }

  /** The lookup and unwind come before any match on the slot's date. */
  lemma DateMatchFollowsUnwind(userId: Option<string>, date: Option<string>, search: Option<string>, status: Option<string>, i: nat)
    requires i < |BuildBookingPipeline(userId, date, search, status)|
    requires BuildBookingPipeline(userId, date, search, status)[i].MatchSlotDate?
    ensures i >= 2
    ensures BuildBookingPipeline(userId, date, search, status)[i - 1] == UnwindSlot
    ensures BuildBookingPipeline(userId, date, search, status)[i - 2] == LookupSlot
  {
    var p := BuildBookingPipeline(userId, date, search, status);
    var a := UserStage(userId);
    var b := DateStage(date);
    var rest := SearchStage(search) + (StatusStage(status) + [SortNewestFirst]);
    assert p == a + ([LookupSlot, UnwindSlot] + (b + rest));
    TailHasNoDateMatch(search, status);
    JoinPrecedesOptionalMatches(a, b, rest);
    assert i == |a| + 2;
  }

  /** The stages after the optional date match never match on the date. */
  lemma TailHasNoDateMatch(search: Option<string>, status: Option<string>)
    ensures var rest := SearchStage(search) + (StatusStage(status) + [SortNewestFirst]);
      forall k :: 0 <= k < |rest| ==> !rest[k].MatchSlotDate?
  {
    var c, d := SearchStage(search), StatusStage(status);
    var rest := c + (d + [SortNewestFirst]);
    forall k | 0 <= k < |rest| ensures !rest[k].MatchSlotDate? {
      if k < |c| {
        assert rest[k] == c[k];
      } else if k < |c| + |d| {
        assert rest[k] == d[k - |c|];
      } else {
        assert rest[k] == SortNewestFirst;
      }
    }
  }

  /** In a skeleton whose leading and trailing stages never match on the
      date, only the stages right after the join can. */
  lemma JoinPrecedesOptionalMatches(a: seq<Stage>, b: seq<Stage>, rest: seq<Stage>)
    requires forall k :: 0 <= k < |a| ==> !a[k].MatchSlotDate?
    requires forall k :: 0 <= k < |rest| ==> !rest[k].MatchSlotDate?
    ensures var p := a + ([LookupSlot, UnwindSlot] + (b + rest));
      && p[|a|] == LookupSlot && p[|a| + 1] == UnwindSlot
      && (forall k :: 0 <= k < |a| + 2 ==> !p[k].MatchSlotDate?)
      && (forall k :: |a| + 2 + |b| <= k < |p| ==> !p[k].MatchSlotDate?)
  {
    var p := a + ([LookupSlot, UnwindSlot] + (b + rest));
    forall k | 0 <= k < |a| ensures p[k] == a[k] { }
    forall k | |a| + 2 + |b| <= k < |p| ensures p[k] == rest[k - |a| - 2 - |b|] { }
  }

  /** The slot lookup and unwind are always there, in that order, right
      after the optional user match. */
  lemma PipelineAlwaysJoinsSlot(userId: Option<string>, date: Option<string>, search: Option<string>, status: Option<string>)
    ensures var p := BuildBookingPipeline(userId, date, search, status);
      var k := if Given(userId) then 1 else 0;
      k + 1 < |p| && p[k] == LookupSlot && p[k + 1] == UnwindSlot
  {
  }

  /** A status stage is present exactly when a status other than "all" is
      given, and a date stage exactly when a date is given. */
  lemma OptionalStagesPresence(userId: Option<string>, date: Option<string>, search: Option<string>, status: Option<string>)
    ensures HasStatusStage(BuildBookingPipeline(userId, date, search, status)) <==> FiltersStatus(status)
    ensures HasDateStage(BuildBookingPipeline(userId, date, search, status)) <==> Given(date)
  {
    var p := BuildBookingPipeline(userId, date, search, status);
    BuildBookingPipelineRoundTrip(userId, date, search, status);
    ReadBackFindsStage(p);
  }

  predicate HasStatusStage(p: seq<Stage>)
  {
    exists i :: 0 <= i < |p| && p[i].MatchStatus?
  }

  predicate HasDateStage(p: seq<Stage>)
  {
    exists i :: 0 <= i < |p| && p[i].MatchSlotDate?
  }

  /** A field is read back exactly when a stage of its kind is present. */
  lemma {:induction false} ReadBackFindsStage(p: seq<Stage>)
    ensures FiltersOf(p).status.Some? <==> HasStatusStage(p)
    ensures FiltersOf(p).date.Some? <==> HasDateStage(p)
    decreases |p|
  {
    if |p| > 0 {
      ReadBackFindsStage(p[1..]);
      assert forall i :: 1 <= i < |p| ==> p[i] == p[1..][i - 1];
      if exists i :: 0 <= i < |p[1..]| && p[1..][i].MatchStatus? {
        var i :| 0 <= i < |p[1..]| && p[1..][i].MatchStatus?;
        assert p[i + 1].MatchStatus?;
      }
      if exists i :: 0 <= i < |p[1..]| && p[1..][i].MatchSlotDate? {
        var i :| 0 <= i < |p[1..]| && p[1..][i].MatchSlotDate?;
        assert p[i + 1].MatchSlotDate?;
      }
    }
  }

  /** `paginatePipeline(pipeline, page = 1, limit = 20)`. */
  function PaginatePipeline(p: seq<Stage>, page: Option<int>, limit: Option<int>): (r: seq<Stage>)
    ensures |r| == |p| + 2 && r[..|p|] == p
    ensures r[|p|] == Skip(PageStart(OrDefault(page, DefaultPage), OrDefault(limit, DefaultLimit)))
    ensures r[|p| + 1] == Limit(OrDefault(limit, DefaultLimit))
  {
    var pg := if page.Some? then page.value else 1;
    var l := if limit.Some? then limit.value else 20;
    p + [Skip((pg - 1) * l), Limit(l)]
  }

  /** With neither argument the page is the first twenty. */
  lemma PaginateDefaults(p: seq<Stage>)
    ensures PaginatePipeline(p, None, None) == p + [Skip(0), Limit(20)]
  {
  }

  /** The stages a pipeline ends with cut out the same page that the
      in-memory slice of the same page number and size cuts out, whenever the
      database accepts them. */
  function RunPaging<T>(rows: seq<T>, stages: seq<Stage>): (r: Option<seq<T>>)
    ensures |stages| == 0 ==> r == Some(rows)
    decreases |stages|
  {
    if |stages| == 0 then Some(rows)
    else match stages[0]
      case Skip(n) => if n < 0 then None else RunPaging(if n >= |rows| then [] else rows[n..], stages[1..])
      case Limit(n) => if n <= 0 then None else RunPaging(if n >= |rows| then rows else rows[..n], stages[1..])
      case _ => RunPaging(rows, stages[1..])
  }

  lemma PaginateMeansSkipLimit<T>(rows: seq<T>, page: Option<int>, limit: Option<int>)
    ensures RunPaging(rows, PaginatePipeline([], page, limit))
         == SkipLimit(rows, PageStart(OrDefault(page, DefaultPage), OrDefault(limit, DefaultLimit)), OrDefault(limit, DefaultLimit))
  {
    var stages := PaginatePipeline([], page, limit);
    var n := PageStart(OrDefault(page, DefaultPage), OrDefault(limit, DefaultLimit));
    var l := OrDefault(limit, DefaultLimit);
    assert stages == [Skip(n), Limit(l)];
    assert stages[1..] == [Limit(l)] && stages[1..][1..] == [];
    if n >= 0 && l > 0 {
      var after := if n >= |rows| then [] else rows[n..];
      assert RunPaging(rows, stages) == RunPaging(after, [Limit(l)]);
      assert RunPaging(after, [Limit(l)]) == Some(if l >= |after| then after else after[..l]);
      if n < |rows| {
        if l >= |after| {
          assert after == rows[n..Min(n + l, |rows|)];
        } else {
          assert after[..l] == rows[n..Min(n + l, |rows|)];
        }
      }
    }
  }
}

=== FILE: route_guard.dfy ===
/** The frontend's route middleware: read the role from the `token` cookie
    and send visitors without the right role from `/admin` and `/user`
    pages to the login page, and signed-in visitors from `/` to their own
    slot page. */
module RouteGuard {
  import opened Errors
  import opened Text
  import opened Auth

  datatype Decision = Next | Redirect(to: string)

  const LoginPage := "/auth/login"
  const AdminHome := "/admin/slots"
  const UserHome := "/user/slots"

  /** The role in a verified token; `None` without a token or when
      verification throws. */
  function CookieRole(cookie: Option<string>, verify: string -> Option<Claims>): (role: Option<string>)
    ensures role.Some? <==> Given(cookie) && verify(cookie.value).Some?
    ensures role.Some? ==> role.value == verify(cookie.value).value.role
  {
    if Given(cookie) then
      match verify(cookie.value)
      case None => None
      case Some(claims) => Some(claims.role)
    else None
  }

  /** The middleware's decision for a path and the role read from the
      cookie. */
  function Route(pathname: string, role: Option<string>): (d: Decision)
    ensures d.Redirect? ==> d.to in {LoginPage, AdminHome, UserHome}
    ensures d == Redirect(LoginPage) <==>
      ((StartsWith(pathname, "/admin") && role != Some("admin"))
       || (StartsWith(pathname, "/user") && role != Some("user")))
    ensures d == Redirect(AdminHome) <==> pathname == "/" && role == Some("admin")
    ensures d == Redirect(UserHome) <==> pathname == "/" && Given(role) && role != Some("admin")
  {
    if StartsWith(pathname, "/admin") && role != Some("admin") then Redirect(LoginPage)
    else if StartsWith(pathname, "/user") && role != Some("user") then Redirect(LoginPage)
    else if pathname == "/" && Given(role) then
      Redirect(if role.value == "admin" then AdminHome else UserHome)
    else Next
  }

  /** The cookie holds a token that verifies to claims with this role. */
  predicate TokenHasRole(cookie: Option<string>, verify: string -> Option<Claims>, role: string)
  {
    Given(cookie) && verify(cookie.value).Some? && verify(cookie.value).value.role == role
  }

  /** `middleware`: protected pages without the matching verified token go
      to the login page, a signed-in visitor at `/` goes to the slot page
      of their role, and every other request passes. */
  function Middleware(pathname: string, cookie: Option<string>, verify: string -> Option<Claims>): (d: Decision)
    ensures d == Redirect(LoginPage) <==>
      ((StartsWith(pathname, "/admin") && !TokenHasRole(cookie, verify, "admin"))
       || (StartsWith(pathname, "/user") && !TokenHasRole(cookie, verify, "user")))
    ensures d == Redirect(AdminHome) <==> pathname == "/" && TokenHasRole(cookie, verify, "admin")
    ensures d == Redirect(UserHome) <==>
      pathname == "/" && Given(cookie) && verify(cookie.value).Some?
      && verify(cookie.value).value.role != "" && verify(cookie.value).value.role != "admin"
    ensures d == Next <==>
      && !(StartsWith(pathname, "/admin") && !TokenHasRole(cookie, verify, "admin"))
      && !(StartsWith(pathname, "/user") && !TokenHasRole(cookie, verify, "user"))
      && !(pathname == "/" && Given(cookie) && verify(cookie.value).Some? && verify(cookie.value).value.role != "")
  {
    Route(pathname, CookieRole(cookie, verify))
  }

  /** A page under `/admin` is reached only with a verified admin token,
      and one under `/user` only with a verified user token. */
  lemma ProtectedPagesNeedRole(pathname: string, cookie: Option<string>, verify: string -> Option<Claims>)
    requires Middleware(pathname, cookie, verify) == Next
    ensures StartsWith(pathname, "/admin") ==> Given(cookie) && verify(cookie.value).Some? && verify(cookie.value).value.role == "admin"
    ensures StartsWith(pathname, "/user") ==> Given(cookie) && verify(cookie.value).Some? && verify(cookie.value).value.role == "user"
  {
  }

  /** Following a redirect from `/` leads to a page the same role is let
      into. */
  lemma HomeRedirectIsAdmitted(role: Option<string>)
    requires role == Some("admin") || role == Some("user")
    ensures Route("/", role).Redirect?
    ensures Route(Route("/", role).to, role) == Next
  {
    assert AdminHome[..5] != "/user" && UserHome[..6] != "/admin" by {
      assert AdminHome[1] != UserHome[1];
    }
  }

  /** Without a valid token every protected page sends to the login page,
      and the login page itself is let through. */
  lemma SignedOutSeesLogin(pathname: string)
    ensures StartsWith(pathname, "/admin") || StartsWith(pathname, "/user") ==> Route(pathname, None) == Redirect(LoginPage)
    ensures Route(LoginPage, None) == Next
  {
    assert LoginPage[..5] != "/user" && LoginPage[..6] != "/admin" by {
      assert LoginPage[1] == 'a' && LoginPage[2] == 'u';
    }
  }
}

=== FILE: slot_controller.dfy ===
/** The slot endpoints: the administrator's slot CRUD behind a role check,
    the administrator's dashboard listing with a derived status (expired,
    booked or available), and the two listings a user sees, both scoped to
    the viewer: the strictly available slots, and the available and booked
    slots. The clock and the two parses of a slot's date and time into an
    instant are parameters, integers on one time line with `now`: the
    dashboard reads them as Asia/Phnom_Penh wall-clock time
    (`zonedInstant`), the user views with the server's own zone
    (`localInstant`). */
module SlotController {
  import opened Errors
  import opened Text
  import opened Listing
  import opened BookingModel

  datatype SlotStatus = Available | Booked | Expired

  function SlotStatusName(s: SlotStatus): string
  {
    match s
    case Available => "available"
    case Booked => "booked"
    case Expired => "expired"
  }

  /** A slot is expired when its instant lies strictly before now. */
  predicate IsExpired(instant: (string, string) -> int, now: int, s: Slot)
  {
    instant(s.date, s.time) < now
  }

  /** Some booking on the slot is confirmed. */
  predicate AnyConfirmed(bs: seq<Booking>, slotId: SlotId)
  {
    exists i :: 0 <= i < |bs| && bs[i].slotId == slotId && bs[i].status == Confirmed
  }

  /** Some booking on the slot by a user other than the viewer is
      confirmed. */
  predicate OtherConfirmed(bs: seq<Booking>, slotId: SlotId, viewer: UserId)
  {
    exists i :: 0 <= i < |bs| && bs[i].slotId == slotId && bs[i].userId != viewer && bs[i].status == Confirmed
  }

  /** The looked-up bookings of a slot, in store order. */
  function BookingsOf(bs: seq<Booking>, slotId: SlotId): (r: seq<Booking>)
    ensures forall b :: b in r <==> b in bs && b.slotId == slotId
    ensures |r| <= |bs|
  {
    if |bs| == 0 then []
    else if bs[0].slotId == slotId then [bs[0]] + BookingsOf(bs[1..], slotId)
    else BookingsOf(bs[1..], slotId)
  }

  /** `$anyElementTrue` over the statuses of the looked-up bookings, mapped
      to "is confirmed". */
  function AnyElementConfirmed(looked: seq<Booking>): (r: bool)
    ensures r <==> exists i :: 0 <= i < |looked| && looked[i].status == Confirmed
  {
    if |looked| == 0 then false
    else looked[0].status == Confirmed || AnyElementConfirmed(looked[1..])
  }

  /** The flag the dashboard computes from the lookup is the store-wide fact
      "some booking on this slot is confirmed". */
  lemma BookedFlagMeansConfirmed(bs: seq<Booking>, slotId: SlotId)
    ensures AnyElementConfirmed(BookingsOf(bs, slotId)) <==> AnyConfirmed(bs, slotId)
  {
    var looked := BookingsOf(bs, slotId);
    if AnyConfirmed(bs, slotId) {
      var i :| 0 <= i < |bs| && bs[i].slotId == slotId && bs[i].status == Confirmed;
      assert bs[i] in looked;
      var j :| 0 <= j < |looked| && looked[j] == bs[i];
    }
    if AnyElementConfirmed(looked) {
      var j :| 0 <= j < |looked| && looked[j].status == Confirmed;
      assert looked[j] in bs;
      var i :| 0 <= i < |bs| && bs[i] == looked[j];
    }
  }

  // ---------------------------------------------------------------------
  // createSlot, updateSlot, deleteSlot

  /** `createSlot`: administrators only; the new slot is appended. */
  function CreateSlot(db: Db, role: string, added: Slot): (r: Result<Db>)
    ensures role != "admin" <==> r == Err(Unauthorized)
    ensures r.Ok? ==> |r.value.slots| == |db.slots| + 1 && r.value.slots[..|db.slots|] == db.slots && r.value.slots[|db.slots|] == added
    ensures r.Ok? ==> r.value.bookings == db.bookings && r.value.users == db.users
  {
    if role != "admin" then Err(Unauthorized)
    else Ok(db.(slots := db.slots + [added]))
  }

  /** `updateSlot`: administrators only; `findByIdAndUpdate` overwrites the
      supplied fields of the first slot with the id and answers the updated
      slot, or null when there is none. */
  function UpdateSlot(db: Db, role: string, id: SlotId, date: Option<string>, time: Option<string>): (r: Result<(Db, Option<Slot>)>)
    ensures role != "admin" <==> r == Err(Unauthorized)
    ensures r.Ok? ==> (r.value.1.Some? <==> SlotExists(db, id))
    ensures r.Ok? && r.value.1.None? ==> r.value.0 == db
    ensures r.Ok? && r.value.1.Some? ==>
      && r.value.1.value.id == id
      && r.value.1.value.date == (if date.Some? then date.value else db.slots[FindSlot(db.slots, id).value].date)
      && r.value.1.value.time == (if time.Some? then time.value else db.slots[FindSlot(db.slots, id).value].time)
    ensures r.Ok? ==> |r.value.0.slots| == |db.slots| && r.value.0.bookings == db.bookings && r.value.0.users == db.users
    ensures r.Ok? && r.value.1.Some? ==>
      forall i :: 0 <= i < |db.slots| && i != FindSlot(db.slots, id).value ==> r.value.0.slots[i] == db.slots[i]
    ensures r.Ok? && r.value.1.Some? ==> r.value.0.slots == db.slots[FindSlot(db.slots, id).value := r.value.1.value]
  {
    if role != "admin" then Err(Unauthorized)
    else match FindSlot(db.slots, id)
      case None => Ok((db, None))
      case Some(k) =>
        var prior := db.slots[k];
        var updated := Slot(id, if date.Some? then date.value else prior.date, if time.Some? then time.value else prior.time);
        Ok((db.(slots := db.slots[k := updated]), Some(updated)))
  }

  /** `deleteSlot`: administrators only; removes the first slot with the id,
      if any, and leaves the bookings that point at it in place. */
  function DeleteSlot(db: Db, role: string, id: SlotId): (r: Result<Db>)
    ensures role != "admin" <==> r == Err(Unauthorized)
    ensures r.Ok? ==> r.value.bookings == db.bookings && r.value.users == db.users
    ensures r.Ok? && !SlotExists(db, id) ==> r.value == db
    ensures r.Ok? && SlotExists(db, id) ==> |r.value.slots| == |db.slots| - 1
    ensures r.Ok? ==> forall s :: s in r.value.slots ==> s in db.slots
    ensures r.Ok? ==> forall s :: s in db.slots && s.id != id ==> s in r.value.slots
    ensures r.Ok? && SlotExists(db, id) ==> r.value.slots == RemoveAt(db.slots, FindSlot(db.slots, id).value)
  {
    if role != "admin" then Err(Unauthorized)
    else match FindSlot(db.slots, id)
      case None => Ok(db)
      case Some(k) =>
        var rest := RemoveAt(db.slots, k);
        assert forall s :: s in rest ==> s in db.slots by {
          forall s | s in rest ensures s in db.slots {
            var i :| 0 <= i < |rest| && rest[i] == s;
            if i < k { assert rest[i] == db.slots[i]; } else { assert rest[i] == db.slots[i + 1]; }
          }
        }
        assert forall s :: s in db.slots && s.id != id ==> s in rest by {
          forall s | s in db.slots && s.id != id ensures s in rest {
            var i :| 0 <= i < |db.slots| && db.slots[i] == s;
            if i < k { assert rest[i] == s; } else { assert i != k; assert rest[i - 1] == s; }
          }
        }
        Ok(db.(slots := rest))
  }

  /** The lookup finds a given position once it carries the id and no
      earlier one does. */
  lemma FindSlotAt(slots: seq<Slot>, id: SlotId, k: nat)
    requires k < |slots| && slots[k].id == id
    requires forall i :: 0 <= i < k ==> slots[i].id != id
    ensures FindSlot(slots, id) == Some(k)
  {
  }

  /** A slot created under a fresh id is found by that id, at the end of
      the store, and every slot found before is still found where it was. */
  lemma CreatedSlotIsFound(db: Db, added: Slot, other: SlotId)
    requires !SlotExists(db, added.id)
    ensures CreateSlot(db, "admin", added).Ok?
    ensures FindSlot(CreateSlot(db, "admin", added).value.slots, added.id) == Some(|db.slots|)
    ensures FindSlot(db.slots, other).Some? ==>
      FindSlot(CreateSlot(db, "admin", added).value.slots, other) == FindSlot(db.slots, other)
  {
    var after := CreateSlot(db, "admin", added).value.slots;
    assert after == db.slots + [added];
    forall i | 0 <= i < |db.slots| ensures after[i].id != added.id {
      assert after[i] == db.slots[i];
    }
    FindSlotAt(after, added.id, |db.slots|);
    if FindSlot(db.slots, other).Some? {
      var k := FindSlot(db.slots, other).value;
      forall i | 0 <= i < k ensures after[i].id != other {
        assert after[i] == db.slots[i];
      }
      assert after[k] == db.slots[k];
      FindSlotAt(after, other, k);
    }
  }

  /** Reading a slot back after a successful update gives the answered
      slot, at the same position, with every supplied field written. */
  lemma UpdatedSlotReadsBack(db: Db, id: SlotId, date: Option<string>, time: Option<string>)
    requires SlotExists(db, id)
    ensures var r := UpdateSlot(db, "admin", id, date, time);
      && r.Ok? && r.value.1.Some?
      && FindSlot(r.value.0.slots, id) == FindSlot(db.slots, id)
      && r.value.0.slots[FindSlot(db.slots, id).value] == r.value.1.value
      && (date.Some? ==> r.value.1.value.date == date.value)
      && (time.Some? ==> r.value.1.value.time == time.value)
  {
    var r := UpdateSlot(db, "admin", id, date, time);
    var k := FindSlot(db.slots, id).value;
    var after := r.value.0.slots;
    forall i | 0 <= i < k ensures after[i].id != id {
      assert after[i] == db.slots[i];
    }
    FindSlotAt(after, id, k);
  }

  /** With distinct slot ids, a deleted slot can no longer be found. */
  lemma DeletedSlotIsGone(db: Db, id: SlotId)
    requires forall a, b :: 0 <= a < b < |db.slots| ==> db.slots[a].id != db.slots[b].id
    ensures DeleteSlot(db, "admin", id).Ok?
    ensures !SlotExists(DeleteSlot(db, "admin", id).value, id)
  {
    var after := DeleteSlot(db, "admin", id).value;
    if SlotExists(db, id) {
      var k := FindSlot(db.slots, id).value;
      forall i | 0 <= i < |after.slots| ensures after.slots[i].id != id {
        if i < k {
          assert after.slots[i] == db.slots[i];
        } else {
          assert after.slots[i] == db.slots[i + 1];
        }
      }
    }
  }

  /** Deleting a slot cannot break a booking invariant: the bookings are
      untouched. */
  lemma DeleteSlotKeepsBookingsValid(db: Db, role: string, id: SlotId)
    requires ValidBookings(db.bookings)
    ensures DeleteSlot(db, role, id).Ok? ==> ValidBookings(DeleteSlot(db, role, id).value.bookings)
  {
  }

  // ---------------------------------------------------------------------
  // getSlotsForAdminUX

  /** The status the dashboard derives: expired wins over booked, which wins
      over available. */
  function AdminSlotStatus(bs: seq<Booking>, zonedInstant: (string, string) -> int, now: int, s: Slot): (st: SlotStatus)
    ensures st == Expired <==> IsExpired(zonedInstant, now, s)
    ensures st == Booked <==> !IsExpired(zonedInstant, now, s) && AnyConfirmed(bs, s.id)
    ensures st == Available <==> !IsExpired(zonedInstant, now, s) && !AnyConfirmed(bs, s.id)
  {
    BookedFlagMeansConfirmed(bs, s.id);
    var booked := AnyElementConfirmed(BookingsOf(bs, s.id));
    if zonedInstant(s.date, s.time) < now then Expired
    else if booked then Booked
    else Available
  }

  /** The `$switch` on the status; its default of 99 is never taken. */
  function SlotPriority(st: SlotStatus): (p: int)
    ensures 1 <= p <= 3
    ensures st == Available <==> p == 1
    ensures st == Expired <==> p == 3
  {
    match st
    case Available => 1
    case Booked => 2
    case Expired => 3
  }

  datatype AdminSlotRow = AdminSlotRow(id: SlotId, date: string, time: string, bookings: seq<Booking>, status: SlotStatus)

  /** The row of one slot, or nothing when one of the filters drops it: the
      date, the search on the time, and the requested status. */
  function AdminSlotRowOf(bs: seq<Booking>, zonedInstant: (string, string) -> int, now: int,
                          date: Option<string>, search: Option<string>, status: Option<string>, s: Slot): (r: Option<AdminSlotRow>)
    ensures r.Some? <==>
      && (Given(date) ==> s.date == date.value)
      && (Given(search) ==> ContainsIgnoringCase(s.time, search.value))
      && (Given(status) ==> SlotStatusName(AdminSlotStatus(bs, zonedInstant, now, s)) == status.value)
    ensures r.Some? ==> r.value.id == s.id && r.value.date == s.date && r.value.time == s.time
    ensures r.Some? ==> r.value.status == AdminSlotStatus(bs, zonedInstant, now, s)
    ensures r.Some? ==> forall b :: b in r.value.bookings <==> b in bs && b.slotId == s.id
  {
    if Given(date) && s.date != date.value then None
    else if Given(search) && !ContainsIgnoringCase(s.time, search.value) then None
    else
      var st := AdminSlotStatus(bs, zonedInstant, now, s);
      if Given(status) && SlotStatusName(st) != status.value then None
      else Some(AdminSlotRow(s.id, s.date, s.time, BookingsOf(bs, s.id), st))
  }

  function AdminSlotKey(row: AdminSlotRow): Key
  {
    Key(SlotPriority(row.status), row.date, row.time, 0)
  }

  /** `getSlotsForAdminUX`: administrators only; the matching rows sorted by
      status priority, date and time, counted before the `$skip` of
      `(page - 1) * limit` and the `$limit`. */
  function GetSlotsForAdmin(db: Db, role: string, zonedInstant: (string, string) -> int, now: int,
                            page: Option<int>, limit: Option<int>,
                            date: Option<string>, search: Option<string>, status: Option<string>): (r: Result<Page<AdminSlotRow>>)
    ensures role != "admin" ==> r == Err(Unauthorized)
    ensures role == "admin" ==>
      (r.Err? <==> PageStart(OrDefault(page, DefaultPage), OrDefault(limit, DefaultLimit)) < 0 || OrDefault(limit, DefaultLimit) <= 0)
    ensures r.Err? && role == "admin" ==> r.error == GetAdminSlotsFailed
    ensures r.Ok? ==> r.value.total == |FilterMap(db.slots, s => AdminSlotRowOf(db.bookings, zonedInstant, now, date, search, status, s))|
    ensures r.Ok? ==> |r.value.items| <= r.value.limit && |r.value.items| <= r.value.total
    ensures r.Ok? ==> SortedBy(r.value.items, AdminSlotKey)
    ensures r.Ok? ==> forall row :: row in r.value.items ==>
      exists i :: 0 <= i < |db.slots| && AdminSlotRowOf(db.bookings, zonedInstant, now, date, search, status, db.slots[i]) == Some(row)
    ensures r.Ok? ==> r.value.page == OrDefault(page, DefaultPage) && r.value.limit == OrDefault(limit, DefaultLimit)
    ensures r.Ok? ==>
      Some(r.value.items) == DbPage(FilterMap(db.slots, s => AdminSlotRowOf(db.bookings, zonedInstant, now, date, search, status, s)),
                                    AdminSlotKey, r.value.page, r.value.limit)
  {
    if role != "admin" then Err(Unauthorized)
    else
      var p := OrDefault(page, DefaultPage);
      var l := OrDefault(limit, DefaultLimit);
      var rows := FilterMap(db.slots, s => AdminSlotRowOf(db.bookings, zonedInstant, now, date, search, status, s));
      match DbPage(rows, AdminSlotKey, p, l)
      case None => Err(GetAdminSlotsFailed)
      case Some(items) => Ok(Page(|rows|, p, l, items))
  }

  /** Every slot whose dashboard row passes the filters is on some page of
      the dashboard, for any positive page size. */
  lemma AdminSlotIsListed(db: Db, zonedInstant: (string, string) -> int, now: int, limit: int,
                          date: Option<string>, search: Option<string>, status: Option<string>, k: nat)
    requires limit >= 1 && k < |db.slots|
    requires AdminSlotRowOf(db.bookings, zonedInstant, now, date, search, status, db.slots[k]).Some?
    ensures exists p :: (p >= 1 && GetSlotsForAdmin(db, "admin", zonedInstant, now, Some(p), Some(limit), date, search, status).Ok?
      && AdminSlotRowOf(db.bookings, zonedInstant, now, date, search, status, db.slots[k]).value
           in GetSlotsForAdmin(db, "admin", zonedInstant, now, Some(p), Some(limit), date, search, status).value.items)
  {
    var f := s => AdminSlotRowOf(db.bookings, zonedInstant, now, date, search, status, s);
    var rows := FilterMap(db.slots, f);
    assert f(db.slots[k]).Some?;
    var p := DbPageOf(rows, AdminSlotKey, f(db.slots[k]).value, limit);
    var r := GetSlotsForAdmin(db, "admin", zonedInstant, now, Some(p), Some(limit), date, search, status);
    assert r.Ok? && r.value.page == p && r.value.limit == limit;
  }

  /** On a dashboard page, available rows come before booked ones, booked
      before expired, and within one status the dates ascend. */
  lemma AdminPageOrder(items: seq<AdminSlotRow>, i: nat, j: nat)
    requires SortedBy(items, AdminSlotKey)
    requires i < j < |items|
    ensures SlotPriority(items[i].status) <= SlotPriority(items[j].status)
    ensures items[i].status == items[j].status ==> StrLe(items[i].date, items[j].date)
  {
    assert KeyLe(AdminSlotKey(items[i]), AdminSlotKey(items[j]));
    StrLeRefl(items[i].date);
  }

  // ---------------------------------------------------------------------
  // The two user views

  datatype UserSlotRow = UserSlotRow(id: SlotId, date: string, time: string, status: SlotStatus, canBook: bool)

  datatype SlotList = SlotList(total: nat, slots: seq<UserSlotRow>)

  /** The optional date filter. */
  predicate OnDate(s: Slot, date: Option<string>)
  {
    Given(date) ==> s.date == date.value
  }

  /** The row shows this slot's id, date and time. */
  predicate ShownAs(s: Slot, row: UserSlotRow)
  {
    s.id == row.id && s.date == row.date && s.time == row.time
  }

  /** The viewer has no booking on the slot, nobody holds it confirmed, and it
      has not expired. */
  predicate FreeFor(bs: seq<Booking>, viewer: UserId, localInstant: (string, string) -> int, now: int, s: Slot)
  {
    !HasBookingFor(bs, viewer, s.id) && !AnyConfirmed(bs, s.id) && !IsExpired(localInstant, now, s)
  }

  /** The row of one slot in `getAvailableSlotsForUser`, or nothing when it
      is dropped. */
  function AvailableRowOf(bs: seq<Booking>, viewer: UserId, localInstant: (string, string) -> int, now: int,
                          date: Option<string>, s: Slot): (r: Option<UserSlotRow>)
    ensures r.Some? <==> OnDate(s, date) && FreeFor(bs, viewer, localInstant, now, s)
    ensures r.Some? ==> r.value == UserSlotRow(s.id, s.date, s.time, Available, true)
  {
    if Given(date) && s.date != date.value then None
    else
      var looked := BookingsOf(bs, s.id);
      if exists i :: 0 <= i < |looked| && looked[i].userId == viewer then
        assert HasBookingFor(bs, viewer, s.id) by {
          var i :| 0 <= i < |looked| && looked[i].userId == viewer;
          assert looked[i] in bs;
        }
        None
      else if exists i :: 0 <= i < |looked| && looked[i].status == Confirmed then
        assert AnyConfirmed(bs, s.id) by {
          var i :| 0 <= i < |looked| && looked[i].status == Confirmed;
          assert looked[i] in bs;
        }
        None
      else if localInstant(s.date, s.time) < now then None
      else
        Some(UserSlotRow(s.id, s.date, s.time, Available, true))
  }

  /** `getAvailableSlotsForUser`: the slots of the date, if one is given,
      that the viewer has not booked, that nobody holds confirmed and that
      have not expired, in store order, each offered as bookable. */
  function GetAvailableSlotsForUser(db: Db, viewer: UserId, localInstant: (string, string) -> int, now: int,
                                    date: Option<string>): (r: SlotList)
    ensures r.total == |r.slots| <= |db.slots|
    ensures forall row :: row in r.slots ==> row.status == Available && row.canBook
    ensures forall row :: row in r.slots ==>
      exists i :: 0 <= i < |db.slots| && ShownAs(db.slots[i], row) && OnDate(db.slots[i], date)
                  && FreeFor(db.bookings, viewer, localInstant, now, db.slots[i])
    ensures forall i :: 0 <= i < |db.slots| && OnDate(db.slots[i], date) && FreeFor(db.bookings, viewer, localInstant, now, db.slots[i]) ==>
      UserSlotRow(db.slots[i].id, db.slots[i].date, db.slots[i].time, Available, true) in r.slots
    ensures r.slots == FilterMap(db.slots, s => AvailableRowOf(db.bookings, viewer, localInstant, now, date, s))
  {
    var f := s => AvailableRowOf(db.bookings, viewer, localInstant, now, date, s);
    var rows := FilterMap(db.slots, f);
    assert forall row :: row in rows ==> exists i :: 0 <= i < |db.slots| && f(db.slots[i]) == Some(row);
    SlotList(|rows|, rows)
  }

  /** The viewer's own booking is found among the looked-up bookings
      exactly when the store holds one. */
  lemma LookedUpOwnBooking(bs: seq<Booking>, viewer: UserId, slotId: SlotId)
    ensures (exists i :: 0 <= i < |BookingsOf(bs, slotId)| && BookingsOf(bs, slotId)[i].userId == viewer)
        <==> HasBookingFor(bs, viewer, slotId)
  {
    var looked := BookingsOf(bs, slotId);
    if exists i :: 0 <= i < |looked| && looked[i].userId == viewer {
      var i :| 0 <= i < |looked| && looked[i].userId == viewer;
      assert looked[i] in bs;
      var k :| 0 <= k < |bs| && bs[k] == looked[i];
    }
    if HasBookingFor(bs, viewer, slotId) {
      var i :| 0 <= i < |bs| && bs[i].userId == viewer && bs[i].slotId == slotId;
      assert bs[i] in looked;
      var j :| 0 <= j < |looked| && looked[j] == bs[i];
      assert 0 <= j < |looked| && looked[j].userId == viewer;
      assert exists i :: 0 <= i < |BookingsOf(bs, slotId)| && BookingsOf(bs, slotId)[i].userId == viewer;
    }
  }

  /** Another user's confirmed booking is found among the looked-up
      bookings exactly when the store holds one. */
  lemma LookedUpOthersConfirmed(bs: seq<Booking>, viewer: UserId, slotId: SlotId)
    ensures (exists i :: 0 <= i < |BookingsOf(bs, slotId)| && BookingsOf(bs, slotId)[i].userId != viewer
                        && BookingsOf(bs, slotId)[i].status == Confirmed)
        <==> OtherConfirmed(bs, slotId, viewer)
  {
    var looked := BookingsOf(bs, slotId);
    if exists i :: 0 <= i < |looked| && looked[i].userId != viewer && looked[i].status == Confirmed {
      var i :| 0 <= i < |looked| && looked[i].userId != viewer && looked[i].status == Confirmed;
      assert looked[i] in bs;
      var k :| 0 <= k < |bs| && bs[k] == looked[i];
    }
    if OtherConfirmed(bs, slotId, viewer) {
      var i :| 0 <= i < |bs| && bs[i].slotId == slotId && bs[i].userId != viewer && bs[i].status == Confirmed;
      assert bs[i] in looked;
      var j :| 0 <= j < |looked| && looked[j] == bs[i];
      assert 0 <= j < |looked| && looked[j].userId != viewer && looked[j].status == Confirmed;
      assert exists i :: 0 <= i < |BookingsOf(bs, slotId)| && BookingsOf(bs, slotId)[i].userId != viewer
                        && BookingsOf(bs, slotId)[i].status == Confirmed;
    }
  }

  /** The row of one slot in `getAvailableAndBookedSlotsForUser`, before the
      status filter. */
  function ViewerRowOf(bs: seq<Booking>, viewer: UserId, localInstant: (string, string) -> int, now: int,
                       date: Option<string>, search: Option<string>, s: Slot): (r: Option<UserSlotRow>)
    ensures r.Some? <==>
      && (Given(date) ==> s.date == date.value)
      && (Given(search) ==> ContainsIgnoringCase(s.time, search.value))
      && !HasBookingFor(bs, viewer, s.id)
      && !IsExpired(localInstant, now, s)
    ensures r.Some? ==> r.value.id == s.id && r.value.date == s.date && r.value.time == s.time
    ensures r.Some? ==> (r.value.status == Booked <==> OtherConfirmed(bs, s.id, viewer))
    ensures r.Some? ==> r.value.status != Expired && (r.value.canBook <==> r.value.status == Available)
  {
    if Given(date) && s.date != date.value then None
    else if Given(search) && !ContainsIgnoringCase(s.time, search.value) then None
    else
      var looked := BookingsOf(bs, s.id);
      LookedUpOwnBooking(bs, viewer, s.id);
      if exists i :: 0 <= i < |looked| && looked[i].userId == viewer then None
      else
        var othersConfirmed := exists i :: 0 <= i < |looked| && looked[i].userId != viewer && looked[i].status == Confirmed;
        LookedUpOthersConfirmed(bs, viewer, s.id);
        if localInstant(s.date, s.time) < now then None
        else Some(UserSlotRow(s.id, s.date, s.time, if othersConfirmed then Booked else Available, !othersConfirmed))
  }

  /** The requested status, compared with the row's status name. */
  function UserViewRowOf(bs: seq<Booking>, viewer: UserId, localInstant: (string, string) -> int, now: int,
                         date: Option<string>, search: Option<string>, status: Option<string>, s: Slot): (r: Option<UserSlotRow>)
    ensures r.Some? <==> (
      && ViewerRowOf(bs, viewer, localInstant, now, date, search, s).Some?
      && (Given(status) ==> SlotStatusName(ViewerRowOf(bs, viewer, localInstant, now, date, search, s).value.status) == status.value))
    ensures r.Some? ==> r == ViewerRowOf(bs, viewer, localInstant, now, date, search, s)
  {
    match ViewerRowOf(bs, viewer, localInstant, now, date, search, s)
    case None => None
    case Some(row) => if Given(status) && SlotStatusName(row.status) != status.value then None else Some(row)
  }

  /** The comparator: available before booked, then date, then time. */
  function UserSlotKey(row: UserSlotRow): Key
  {
    Key(if row.status == Available then 0 else 1, row.date, row.time, 0)
  }

  /** The rows of `getAvailableAndBookedSlotsForUser` in store order, before
      the sort. */
  function UserViewRows(db: Db, viewer: UserId, localInstant: (string, string) -> int, now: int,
                        date: Option<string>, search: Option<string>, status: Option<string>): (rows: seq<UserSlotRow>)
    ensures |rows| <= |db.slots|
    ensures forall row :: row in rows ==>
      exists i :: 0 <= i < |db.slots| && UserViewRowOf(db.bookings, viewer, localInstant, now, date, search, status, db.slots[i]) == Some(row)
    ensures forall i :: 0 <= i < |db.slots| && UserViewRowOf(db.bookings, viewer, localInstant, now, date, search, status, db.slots[i]).Some? ==>
      UserViewRowOf(db.bookings, viewer, localInstant, now, date, search, status, db.slots[i]).value in rows
    ensures forall row :: row in rows ==> row.status != Expired && (row.canBook <==> row.status == Available)
    ensures forall row :: row in rows ==> Given(status) ==> SlotStatusName(row.status) == status.value
    ensures rows == FilterMap(db.slots, s => UserViewRowOf(db.bookings, viewer, localInstant, now, date, search, status, s))
  {
    var f := s => UserViewRowOf(db.bookings, viewer, localInstant, now, date, search, status, s);
    var rows := FilterMap(db.slots, f);
    assert forall row :: row in rows ==> exists i :: 0 <= i < |db.slots| && f(db.slots[i]) == Some(row);
    assert forall i :: 0 <= i < |db.slots| && f(db.slots[i]).Some? ==> f(db.slots[i]).value in rows;
    rows
  }

  /** `getAvailableAndBookedSlotsForUser`: the slots of the date and time
      search the viewer has not booked and that have not expired, marked
      booked when another user holds them confirmed, filtered by the
      requested status and sorted with the stable comparator. */
  function GetAvailableAndBookedSlotsForUser(db: Db, viewer: UserId, localInstant: (string, string) -> int, now: int,
                                             date: Option<string>, search: Option<string>, status: Option<string>): (r: SlotList)
    ensures r.total == |r.slots| <= |db.slots|
    ensures SortedBy(r.slots, UserSlotKey)
    ensures forall row :: row in r.slots <==> row in UserViewRows(db, viewer, localInstant, now, date, search, status)
    ensures forall row :: row in r.slots ==> row.status != Expired && (row.canBook <==> row.status == Available)
    ensures forall row :: row in r.slots ==> Given(status) ==> SlotStatusName(row.status) == status.value
    ensures multiset(r.slots) == multiset(UserViewRows(db, viewer, localInstant, now, date, search, status))
  {
    var rows := UserViewRows(db, viewer, localInstant, now, date, search, status);
    SortKeepsMembers(rows, UserSlotKey);
    var sorted := SortBy(rows, UserSlotKey);
    SlotList(|sorted|, sorted)
  }

  // ---------------------------------------------------------------------
  // Properties across the views

  /** Expiry is strict: a slot whose instant is exactly now is neither shown
      as expired to the administrator nor hidden from the viewer for
      expiry. */
  lemma ExpiryIsStrict(bs: seq<Booking>, viewer: UserId, zonedInstant: (string, string) -> int,
                       localInstant: (string, string) -> int, now: int, s: Slot)
    requires zonedInstant(s.date, s.time) == now && localInstant(s.date, s.time) == now
    ensures AdminSlotStatus(bs, zonedInstant, now, s) != Expired
    ensures !HasBookingFor(bs, viewer, s.id) && !AnyConfirmed(bs, s.id) ==>
      AvailableRowOf(bs, viewer, localInstant, now, None, s).Some?
    ensures !HasBookingFor(bs, viewer, s.id) ==> ViewerRowOf(bs, viewer, localInstant, now, None, None, s).Some?
  {
  }

  /** For a slot the viewer has not booked, the user view's status is the
      dashboard's status when the two parses of the slot's date and time
      agree (a server running at UTC+7): with no booking of the viewer on
      the slot, a confirmed booking there is necessarily another user's. */
  lemma ViewerAgreesWithDashboard(bs: seq<Booking>, viewer: UserId, zonedInstant: (string, string) -> int,
                                  localInstant: (string, string) -> int, now: int, s: Slot)
    requires ViewerRowOf(bs, viewer, localInstant, now, None, None, s).Some?
    requires zonedInstant(s.date, s.time) == localInstant(s.date, s.time)
    ensures ViewerRowOf(bs, viewer, localInstant, now, None, None, s).value.status
         == AdminSlotStatus(bs, zonedInstant, now, s)
  {
    if AnyConfirmed(bs, s.id) {
      var i :| 0 <= i < |bs| && bs[i].slotId == s.id && bs[i].status == Confirmed;
      assert bs[i].userId != viewer;
    }
  }

  /** When the server's zone is behind UTC+7 the local parse of a slot's
      date and time is a later instant than the Phnom Penh parse, and
      between the two the dashboard already shows the slot as expired while
      the viewer is still offered it. */
  lemma ViewsDisagreeBetweenParses(bs: seq<Booking>, viewer: UserId, zonedInstant: (string, string) -> int,
                                   localInstant: (string, string) -> int, now: int, s: Slot)
    requires zonedInstant(s.date, s.time) < now <= localInstant(s.date, s.time)
    requires !HasBookingFor(bs, viewer, s.id)
    ensures AdminSlotStatus(bs, zonedInstant, now, s) == Expired
    ensures ViewerRowOf(bs, viewer, localInstant, now, None, None, s).Some?
    ensures ViewerRowOf(bs, viewer, localInstant, now, None, None, s).value.status != Expired
  {
  }

  /** Every slot of the strictly-available view also appears, as available
      and bookable, in the available-and-booked view of the same date. */
  lemma AvailableViewInsideFullView(db: Db, viewer: UserId, localInstant: (string, string) -> int, now: int,
                                    date: Option<string>, row: UserSlotRow)
    requires row in GetAvailableSlotsForUser(db, viewer, localInstant, now, date).slots
    ensures row in GetAvailableAndBookedSlotsForUser(db, viewer, localInstant, now, date, None, None).slots
  {
    var i :| 0 <= i < |db.slots| && ShownAs(db.slots[i], row) && FreeFor(db.bookings, viewer, localInstant, now, db.slots[i]);
    var s := db.slots[i];
    assert Given(date) ==> s.date == date.value by {
      var g := s' => AvailableRowOf(db.bookings, viewer, localInstant, now, date, s');
      var j :| 0 <= j < |db.slots| && g(db.slots[j]) == Some(row);
      assert AvailableRowOf(db.bookings, viewer, localInstant, now, date, db.slots[j]) == Some(row);
    }
    assert !OtherConfirmed(db.bookings, s.id, viewer);
    var v := ViewerRowOf(db.bookings, viewer, localInstant, now, date, None, s);
    assert v == Some(row);
    assert UserViewRowOf(db.bookings, viewer, localInstant, now, date, None, None, s) == Some(row);
  }
}

=== FILE: text.dfy ===
/** String helpers the controllers and the frontend lean on: decimal
    formatting and `Number(...)` parsing of digit strings, `split`,
    `startsWith`, `padStart(2, "0")`, a case-insensitive substring search
    (the `$regex` filters with option "i", read as plain substrings) and the
    code-point order strings are sorted by. */
module Text {
  import opened Errors

  predicate IsDigit(c: char)
  {
    '0' <= c <= '9'
  }

  predicate AllDigits(s: string)
  {
    forall i :: 0 <= i < |s| ==> IsDigit(s[i])
  }

  function DigitChar(d: nat): (c: char)
    requires d < 10
    ensures IsDigit(c) && c as int - '0' as int == d
  {
    ('0' as int + d) as char
  }

  function DigitValue(c: char): (d: nat)
    requires IsDigit(c)
    ensures d < 10 && DigitChar(d) == c
  {
    (c as int - '0' as int) as nat
  }

  /** `String(n)` for a non-negative integer: no leading zeros. */
  function NatToString(n: nat): (s: string)
    ensures |s| >= 1 && AllDigits(s)
    ensures |s| > 1 ==> s[0] != '0'
    ensures n < 10 <==> |s| == 1
    decreases n
  {
    if n < 10 then [DigitChar(n)] else NatToString(n / 10) + [DigitChar(n % 10)]
  }

  /** `String(n)` for any integer. */
  function IntToString(n: int): string
  {
    if n < 0 then "-" + NatToString(-n) else NatToString(n)
  }

  /** The value `Number(s)` gives a string of decimal digits (the empty string
      reads as 0). */
  function DigitsValue(s: string): nat
    requires AllDigits(s)
    decreases |s|
  {
    if |s| == 0 then 0 else DigitsValue(s[..|s| - 1]) * 10 + DigitValue(s[|s| - 1])
  }

  /** `Number(s)` restricted to plain digit strings; anything else is NaN,
      here `None`. */
  function ParseNumber(s: string): (r: Option<nat>)
    ensures r.Some? <==> AllDigits(s)
  {
    if AllDigits(s) then Some(DigitsValue(s)) else None
  }

  lemma {:induction false} NatToStringRoundTrip(n: nat)
    ensures ParseNumber(NatToString(n)) == Some(n)
    decreases n
  {
    var s := NatToString(n);
    if n >= 10 {
      NatToStringRoundTrip(n / 10);
      assert s[..|s| - 1] == NatToString(n / 10);
      assert DigitValue(s[|s| - 1]) == n % 10;
    } else {
      assert s == [DigitChar(n)];
      assert s[..|s| - 1] == [];
      assert DigitsValue(s) == DigitsValue([]) * 10 + DigitValue(s[0]);
    }
  }

  /** Leading zeros do not change the value `Number` reads. */
  lemma {:induction false} LeadingZero(s: string)
    requires AllDigits(s)
    ensures AllDigits("0" + s) && DigitsValue("0" + s) == DigitsValue(s)
    decreases |s|
  {
    var t := "0" + s;
    if |s| > 0 {
      assert t[..|t| - 1] == "0" + s[..|s| - 1];
      LeadingZero(s[..|s| - 1]);
    }
  }

  /** `String(n).padStart(2, "0")`. */
  function Pad2(n: nat): (s: string)
    ensures n < 100 ==> |s| == 2
    ensures ParseNumber(s) == Some(n)
  {
    NatToStringRoundTrip(n);
    if n < 10 then (LeadingZero(NatToString(n)); "0" + NatToString(n)) else NatToString(n)
  }

  predicate StartsWith(s: string, prefix: string)
  {
    |prefix| <= |s| && s[..|prefix|] == prefix
  }

  /** `s.split(sep)` for a one-character separator. */
  function Split(s: string, sep: char): (parts: seq<string>)
    ensures |parts| >= 1
    decreases |s|
  {
    if |s| == 0 then [""]
    else if s[0] == sep then [""] + Split(s[1..], sep)
    else
      var rest := Split(s[1..], sep);
      [[s[0]] + rest[0]] + rest[1..]
  }

  lemma {:induction false} SplitNoSeparator(a: string, sep: char)
    requires sep !in a
    ensures Split(a, sep) == [a]
    decreases |a|
  {
    if |a| > 0 {
      SplitNoSeparator(a[1..], sep);
      assert [a[0]] + a[1..] == a;
    }
  }

  lemma {:induction false} SplitFirst(a: string, sep: char, rest: string)
    requires sep !in a
    ensures Split(a + [sep] + rest, sep) == [a] + Split(rest, sep)
    decreases |a|
  {
    var s := a + [sep] + rest;
    if |a| == 0 {
      assert s[1..] == rest;
    } else {
      assert s[1..] == a[1..] + [sep] + rest;
      SplitFirst(a[1..], sep, rest);
      assert [a[0]] + a[1..] == a;
    }
  }

  function LowerChar(c: char): char
  {
    if 'A' <= c <= 'Z' then (c as int + 32) as char else c
  }

  function Lower(s: string): (r: string)
    ensures |r| == |s|
    ensures forall i :: 0 <= i < |s| ==> r[i] == LowerChar(s[i])
  {
    seq(|s|, i requires 0 <= i < |s| => LowerChar(s[i]))
  }

  predicate OccursAt(s: string, needle: string, i: int)
  {
    0 <= i <= |s| - |needle| && s[i..i + |needle|] == needle
  }

  /** `s` contains `needle` at some position. */
  predicate Contains(s: string, needle: string)
  {
    exists i :: 0 <= i <= |s| && OccursAt(s, needle, i)
  }

  /** A `$regex` match with option "i", reading the pattern as a literal. */
  predicate ContainsIgnoringCase(s: string, needle: string)
  {
    Contains(Lower(s), Lower(needle))
  }

  /** Lexicographic order by code point: how MongoDB sorts strings and how
      `localeCompare` orders the digit-and-punctuation dates and times. */
  predicate StrLe(a: string, b: string)
    decreases |a|
  {
    |a| == 0 || (|b| > 0 && (a[0] < b[0] || (a[0] == b[0] && StrLe(a[1..], b[1..]))))
  }

  lemma {:induction false} StrLeRefl(a: string)
    ensures StrLe(a, a)
    decreases |a|
  {
    if |a| > 0 {
      StrLeRefl(a[1..]);
    }
  }

  lemma {:induction false} StrLeTotal(a: string, b: string)
    ensures StrLe(a, b) || StrLe(b, a)
    decreases |a|
  {
    if |a| > 0 && |b| > 0 && a[0] == b[0] {
      StrLeTotal(a[1..], b[1..]);
    }
  }

  lemma {:induction false} StrLeTransitive(a: string, b: string, c: string)
    requires StrLe(a, b) && StrLe(b, c)
    ensures StrLe(a, c)
    decreases |a|
  {
    if |a| > 0 && a[0] == b[0] && b[0] == c[0] {
      StrLeTransitive(a[1..], b[1..], c[1..]);
    }
  }

  lemma {:induction false} StrLeAntisymmetric(a: string, b: string)
    requires StrLe(a, b) && StrLe(b, a)
    ensures a == b
    decreases |a|
  {
    if |a| > 0 {
      StrLeAntisymmetric(a[1..], b[1..]);
      assert a == [a[0]] + a[1..] && b == [b[0]] + b[1..];
    }
  }
}

=== FILE: user_controller.dfy ===
/** The account endpoints: a user's own profile update, and the
    administrator's create, update, delete and list of users. Names and
    e-mail addresses are unique across accounts; the explicit checks raise
    NAME_EXISTS / EMAIL_EXISTS, and a write that would still break a unique
    index fails as the endpoint's storage failure. Password hashing is a
    parameter: `matches(plain, stored)` is the hash comparison and the new
    hash is supplied by the caller. */
module UserController {
  import opened Errors
  import opened Text
  import opened Listing
  import opened BookingModel

  /** A user as the endpoints answer it: everything but the password. */
  datatype Profile = Profile(id: UserId, name: string, email: string, role: string)

  function ProfileOf(u: User): (p: Profile)
    ensures p.id == u.id && p.name == u.name && p.email == u.email && p.role == u.role
  {
    Profile(u.id, u.name, u.email, u.role)
  }

  /** `User.findOne({ name })` finds something. */
  predicate NameTaken(users: seq<User>, name: string)
  {
    exists i :: 0 <= i < |users| && users[i].name == name
  }

  predicate EmailTaken(users: seq<User>, email: string)
  {
    exists i :: 0 <= i < |users| && users[i].email == email
  }

  predicate UserIdTaken(users: seq<User>, id: UserId)
  {
    exists i :: 0 <= i < |users| && users[i].id == id
  }

  /** The unique indexes on name and on e-mail. */
  predicate UniqueNames(users: seq<User>)
  {
    forall i, j :: 0 <= i < j < |users| ==> users[i].name != users[j].name
  }

  predicate UniqueEmails(users: seq<User>)
  {
    forall i, j :: 0 <= i < j < |users| ==> users[i].email != users[j].email
  }

  predicate ValidUsers(users: seq<User>)
  {
    UniqueNames(users) && UniqueEmails(users)
  }

  /** Some account other than the one at `k` holds the name. */
  predicate NameHeldByOther(users: seq<User>, k: nat, name: string)
  {
    exists i :: 0 <= i < |users| && i != k && users[i].name == name
  }

  predicate EmailHeldByOther(users: seq<User>, k: nat, email: string)
  {
    exists i :: 0 <= i < |users| && i != k && users[i].email == email
  }

  /** `findByIdAndUpdate` on the account at `k`: the unique indexes refuse a
      name or e-mail another account already holds, which surfaces as the
      endpoint's `failure`. */
  function WriteUser(db: Db, k: nat, updated: User, failure: Error): (r: Result<Db>)
    requires k < |db.users|
    ensures r.Err? <==> NameHeldByOther(db.users, k, updated.name) || EmailHeldByOther(db.users, k, updated.email)
    ensures r.Err? ==> r.error == failure
    ensures r.Ok? ==> r.value == db.(users := db.users[k := updated])
    ensures r.Ok? && ValidUsers(db.users) ==> ValidUsers(r.value.users)
  {
    if NameHeldByOther(db.users, k, updated.name) || EmailHeldByOther(db.users, k, updated.email) then Err(failure)
    else
      var users := db.users[k := updated];
      assert ValidUsers(db.users) ==> ValidUsers(users) by {
        if ValidUsers(db.users) {
          forall i, j | 0 <= i < j < |users| ensures users[i].name != users[j].name && users[i].email != users[j].email {
            if i == k { assert users[j] == db.users[j]; }
            else if j == k { assert users[i] == db.users[i]; }
          }
        }
      }
      Ok(db.(users := users))
  }

  // ---------------------------------------------------------------------
  // updateProfile

  /** The checks `updateProfile` makes before it writes: never an e-mail and
      a new password together; a changed e-mail needs the right current
      password and must be free; a new password needs the right current
      password and must differ from the stored one. */
  predicate ProfileChecksPass(users: seq<User>, prior: User, email: Option<string>, currentPassword: Option<string>,
                              newPassword: Option<string>, matches: (string, string) -> bool)
  {
    && !(Given(email) && Given(newPassword))
    && (Given(email) && email.value != prior.email ==>
          Given(currentPassword) && matches(currentPassword.value, prior.password) && !EmailTaken(users, email.value))
    && (Given(newPassword) ==>
          Given(currentPassword) && matches(currentPassword.value, prior.password) && !matches(newPassword.value, prior.password))
  }

  /** `updateProfile`: the caller changes their name, and either their
      e-mail or their password, proving the current password for either. */
  function UpdateProfile(db: Db, caller: UserId, name: Option<string>, email: Option<string>,
                         currentPassword: Option<string>, newPassword: Option<string>,
                         matches: (string, string) -> bool, newHash: string): (r: Result<(Db, Profile)>)
    ensures FindUser(db.users, caller).None? <==> r == Err(UserNotFound)
    ensures FindUser(db.users, caller).Some? && Given(email) && Given(newPassword) ==> r == Err(EmailOrPasswordOnly)
    ensures r.Ok? ==> var k := FindUser(db.users, caller).value;
      var prior := db.users[k];
      && |r.value.0.users| == |db.users|
      && r.value.0.users == db.users[k := r.value.0.users[k]]
      && r.value.0.bookings == db.bookings && r.value.0.slots == db.slots
      && r.value.1 == ProfileOf(r.value.0.users[k])
      && r.value.0.users[k].id == prior.id && r.value.0.users[k].role == prior.role
      && r.value.0.users[k].name == (if Given(name) then name.value else prior.name)
      && r.value.0.users[k].email == (if Given(email) then email.value else prior.email)
      && r.value.0.users[k].password == (if Given(newPassword) then newHash else prior.password)
    ensures r.Ok? && Given(email) && email.value != db.users[FindUser(db.users, caller).value].email ==>
      Given(currentPassword) && matches(currentPassword.value, db.users[FindUser(db.users, caller).value].password)
      && !EmailTaken(db.users, email.value)
    ensures r.Ok? && Given(newPassword) ==>
      var prior := db.users[FindUser(db.users, caller).value];
      Given(currentPassword) && matches(currentPassword.value, prior.password) && !matches(newPassword.value, prior.password)
    ensures r.Ok? && ValidUsers(db.users) ==> ValidUsers(r.value.0.users)
    ensures FindUser(db.users, caller).Some? && !(Given(email) && Given(newPassword)) ==>
      var prior := db.users[FindUser(db.users, caller).value];
      var emailChange := Given(email) && email.value != prior.email;
      && (r == Err(PasswordRequired) <==> (emailChange || Given(newPassword)) && !Given(currentPassword))
      && (r == Err(InvalidPassword) <==>
            (emailChange || Given(newPassword)) && Given(currentPassword) && !matches(currentPassword.value, prior.password))
      && (r == Err(EmailExists) <==>
            emailChange && Given(currentPassword) && matches(currentPassword.value, prior.password) && EmailTaken(db.users, email.value))
      && (r == Err(SamePassword) <==>
            Given(newPassword) && Given(currentPassword) && matches(currentPassword.value, prior.password)
            && matches(newPassword.value, prior.password))
    ensures r.Ok? ==> ProfileChecksPass(db.users, db.users[FindUser(db.users, caller).value], email, currentPassword, newPassword, matches)
    ensures ValidUsers(db.users) && FindUser(db.users, caller).Some? ==>
      var k := FindUser(db.users, caller).value;
      (r.Ok? <==> ProfileChecksPass(db.users, db.users[k], email, currentPassword, newPassword, matches)
                  && !(Given(name) && NameHeldByOther(db.users, k, name.value)))
  {
    match FindUser(db.users, caller)
    case None => Err(UserNotFound)
    case Some(k) =>
      var user := db.users[k];
      var newName := if Given(name) then name.value else user.name;
      if Given(email) && Given(newPassword) then Err(EmailOrPasswordOnly)
      else if Given(email) && email.value != user.email && !Given(currentPassword) then Err(PasswordRequired)
      else if Given(email) && email.value != user.email && !matches(currentPassword.value, user.password) then Err(InvalidPassword)
      else if Given(email) && email.value != user.email && EmailTaken(db.users, email.value) then Err(EmailExists)
      else if Given(newPassword) && !Given(currentPassword) then Err(PasswordRequired)
      else if Given(newPassword) && !matches(currentPassword.value, user.password) then Err(InvalidPassword)
      else if Given(newPassword) && matches(newPassword.value, user.password) then Err(SamePassword)
      else
        var newEmail := if Given(email) then email.value else user.email;
        var newPassword' := if Given(newPassword) then newHash else user.password;
        var updated := User(user.id, newName, newEmail, newPassword', user.role);
        assert ValidUsers(db.users) ==> !EmailHeldByOther(db.users, k, newEmail) by {
          if ValidUsers(db.users) && newEmail == user.email {
            assert !EmailHeldByOther(db.users, k, user.email);
          }
        }
        assert ValidUsers(db.users) && !Given(name) ==> !NameHeldByOther(db.users, k, newName);
        match WriteUser(db, k, updated, UpdateProfileFailed)
        case Err(e) => Err(e)
        case Ok(db') => Ok((db', ProfileOf(updated)))
  }

  /** The profile endpoint does not check the new name itself: with unique
      names and e-mails stored, its storage failure is exactly a name that
      another account already holds. */
  lemma ProfileFailsOnlyOnTakenName(db: Db, caller: UserId, name: Option<string>, email: Option<string>,
                                    currentPassword: Option<string>, newPassword: Option<string>,
                                    matches: (string, string) -> bool, newHash: string)
    requires ValidUsers(db.users)
    requires FindUser(db.users, caller).Some?
    ensures var r := UpdateProfile(db, caller, name, email, currentPassword, newPassword, matches, newHash);
      r == Err(UpdateProfileFailed) ==> Given(name) && NameHeldByOther(db.users, FindUser(db.users, caller).value, name.value)
    ensures !Given(email) && !Given(newPassword) && Given(name) && NameHeldByOther(db.users, FindUser(db.users, caller).value, name.value) ==>
      UpdateProfile(db, caller, name, email, currentPassword, newPassword, matches, newHash) == Err(UpdateProfileFailed)
  {
    var k := FindUser(db.users, caller).value;
    var user := db.users[k];
    if !Given(name) {
      assert !NameHeldByOther(db.users, k, user.name);
    }
    if !(Given(email) && email.value != user.email) {
      assert !EmailHeldByOther(db.users, k, user.email);
    }
  }

  // ---------------------------------------------------------------------
  // createUser

  /** `createUser`: name, e-mail and password are required; the name is
      checked before the e-mail; the role defaults to "user". */
  function CreateUser(db: Db, name: Option<string>, email: Option<string>, password: Option<string>,
                      role: Option<string>, freshId: UserId): (r: Result<(Db, Profile)>)
    requires !UserIdTaken(db.users, freshId)
    ensures !Given(name) || !Given(email) || !Given(password) <==> r == Err(RequiredFields)
    ensures Given(name) && Given(email) && Given(password) && NameTaken(db.users, name.value) ==> r == Err(NameExists)
    ensures r == Err(EmailExists) <==>
      Given(name) && Given(email) && Given(password) && !NameTaken(db.users, name.value) && EmailTaken(db.users, email.value)
    ensures r.Ok? <==> (
      && Given(name) && Given(email) && Given(password)
      && !NameTaken(db.users, name.value) && !EmailTaken(db.users, email.value))
    ensures r.Ok? ==> r.value.0.users == db.users + [User(freshId, name.value, email.value, password.value, r.value.1.role)]
    ensures r.Ok? ==> r.value.1.role == (if Given(role) then role.value else "user")
    ensures r.Ok? ==> r.value.0.bookings == db.bookings && r.value.0.slots == db.slots
  {
    if !Given(name) || !Given(email) || !Given(password) then Err(RequiredFields)
    else if NameTaken(db.users, name.value) then Err(NameExists)
    else if EmailTaken(db.users, email.value) then Err(EmailExists)
    else
      var user := User(freshId, name.value, email.value, password.value, if Given(role) then role.value else "user");
      Ok((db.(users := db.users + [user]), ProfileOf(user)))
  }

  /** Creating an account keeps names and e-mails unique. */
  lemma CreateKeepsUsersValid(db: Db, name: Option<string>, email: Option<string>, password: Option<string>,
                              role: Option<string>, freshId: UserId)
    requires !UserIdTaken(db.users, freshId)
    requires ValidUsers(db.users)
    ensures CreateUser(db, name, email, password, role, freshId).Ok? ==>
      ValidUsers(CreateUser(db, name, email, password, role, freshId).value.0.users)
  {
    var r := CreateUser(db, name, email, password, role, freshId);
    if r.Ok? {
      var users := r.value.0.users;
      forall i, j | 0 <= i < j < |users| ensures users[i].name != users[j].name && users[i].email != users[j].email {
        if j == |db.users| {
          assert users[i] == db.users[i];
        } else {
          assert users[i] == db.users[i] && users[j] == db.users[j];
        }
      }
    }
  }

  // ---------------------------------------------------------------------
  // updateUser

  /** The field the count query filters on, `"user._id"`: a stored booking
      keeps its user under `userId` and has no `user` field at all. */
  function UserPathOf(b: Booking): Option<UserId>
  {
    None
  }

  /** `Booking.countDocuments({ "user._id": id, status: "confirmed" })`. */
  function CountByUserPath(bs: seq<Booking>, id: UserId): (n: nat)
    ensures n == 0
    decreases |bs|
  {
    if |bs| == 0 then 0
    else (if bs[0].status == Confirmed && UserPathOf(bs[0]) == Some(id) then 1 else 0) + CountByUserPath(bs[1..], id)
  }

  /** `updateUser` refuses a new name that some account already holds. */
  predicate NameConflict(users: seq<User>, prior: User, name: Option<string>)
  {
    Given(name) && name.value != prior.name && NameTaken(users, name.value)
  }

  predicate EmailConflict(users: seq<User>, prior: User, email: Option<string>)
  {
    Given(email) && email.value != prior.email && EmailTaken(users, email.value)
  }

  /** `updateUser`: only a name or e-mail that differs from the current one
      is checked for uniqueness; a supplied password is replaced by its hash;
      the answer carries the booking count of the query on `"user._id"`. */
  function UpdateUser(db: Db, id: UserId, name: Option<string>, email: Option<string>, password: Option<string>,
                      newHash: string): (r: Result<(Db, Profile, nat)>)
    ensures FindUser(db.users, id).None? <==> r == Err(UserNotFound)
    ensures r == Err(NameExists) <==>
      FindUser(db.users, id).Some? && NameConflict(db.users, db.users[FindUser(db.users, id).value], name)
    ensures r == Err(EmailExists) <==>
      && FindUser(db.users, id).Some?
      && !NameConflict(db.users, db.users[FindUser(db.users, id).value], name)
      && EmailConflict(db.users, db.users[FindUser(db.users, id).value], email)
    ensures r.Err? ==> r.error in {UserNotFound, NameExists, EmailExists, UpdateUserFailed}
    ensures (&& ValidUsers(db.users) && FindUser(db.users, id).Some?
             && !NameConflict(db.users, db.users[FindUser(db.users, id).value], name)
             && !EmailConflict(db.users, db.users[FindUser(db.users, id).value], email)) ==> r.Ok?
    ensures r.Ok? ==> var k := FindUser(db.users, id).value;
      var prior := db.users[k];
      && |r.value.0.users| == |db.users|
      && r.value.0.users == db.users[k := r.value.0.users[k]]
      && r.value.0.bookings == db.bookings && r.value.0.slots == db.slots
      && r.value.1 == ProfileOf(r.value.0.users[k])
      && r.value.0.users[k].id == prior.id && r.value.0.users[k].role == prior.role
      && r.value.0.users[k].name == (if Given(name) then name.value else prior.name)
      && r.value.0.users[k].email == (if Given(email) then email.value else prior.email)
      && r.value.0.users[k].password == (if Given(password) then newHash else prior.password)
    ensures r.Ok? ==> r.value.2 == 0
  {
    match FindUser(db.users, id)
    case None => Err(UserNotFound)
    case Some(k) =>
      var user := db.users[k];
      if NameConflict(db.users, user, name) then Err(NameExists)
      else if EmailConflict(db.users, user, email) then Err(EmailExists)
      else
        var updated := User(user.id,
                            if Given(name) then name.value else user.name,
                            if Given(email) then email.value else user.email,
                            if Given(password) then newHash else user.password,
                            user.role);
        assert ValidUsers(db.users) ==> !NameHeldByOther(db.users, k, user.name) && !EmailHeldByOther(db.users, k, user.email);
        match WriteUser(db, k, updated, UpdateUserFailed)
        case Err(e) => Err(e)
        case Ok(db') => Ok((db', ProfileOf(updated), CountByUserPath(db.bookings, user.id)))
  }

  /** With unique names and e-mails stored, the explicit checks catch every
      conflict: the update never reaches the index failure, and it keeps the
      accounts unique. */
  lemma UpdateUserChecksSuffice(db: Db, id: UserId, name: Option<string>, email: Option<string>, password: Option<string>, newHash: string)
    requires ValidUsers(db.users)
    ensures UpdateUser(db, id, name, email, password, newHash) != Err(UpdateUserFailed)
    ensures UpdateUser(db, id, name, email, password, newHash).Ok? ==>
      ValidUsers(UpdateUser(db, id, name, email, password, newHash).value.0.users)
  {
    if FindUser(db.users, id).Some? {
      var k := FindUser(db.users, id).value;
      var user := db.users[k];
      assert !NameHeldByOther(db.users, k, user.name);
      assert !EmailHeldByOther(db.users, k, user.email);
    }
  }

  /** The count the administrator's user listing reports: the user's
      confirmed bookings. */
  function ConfirmedCountOf(bs: seq<Booking>, id: UserId): nat
    decreases |bs|
  {
    if |bs| == 0 then 0
    else ConfirmedCountOf(bs[..|bs| - 1], id) + (if bs[|bs| - 1].userId == id && bs[|bs| - 1].status == Confirmed then 1 else 0)
  }

  /** The confirmed bookings of one user, as positions in the store. */
  function ConfirmedPositions(bs: seq<Booking>, id: UserId): set<nat>
  {
    set i: nat | i < |bs| && bs[i].userId == id && bs[i].status == Confirmed
  }

  /** The count is the number of the user's confirmed bookings in the
      store. */
  lemma {:induction false} ConfirmedCountIsSize(bs: seq<Booking>, id: UserId)
    ensures ConfirmedCountOf(bs, id) == |ConfirmedPositions(bs, id)|
    decreases |bs|
  {
    if |bs| > 0 {
      var init := bs[..|bs| - 1];
      ConfirmedCountIsSize(init, id);
      var last := |bs| - 1;
      assert forall i: nat :: i < |init| ==> init[i] == bs[i];
      if bs[last].userId == id && bs[last].status == Confirmed {
        assert ConfirmedPositions(bs, id) == ConfirmedPositions(init, id) + {last};
      } else {
        assert ConfirmedPositions(bs, id) == ConfirmedPositions(init, id);
      }
    }
  }

  /** The update's booking count disagrees with the listing's whenever the
      user holds a confirmed booking. */
  lemma UpdateUserCountIgnoresBookings(db: Db, id: UserId, name: Option<string>, email: Option<string>, password: Option<string>, newHash: string, i: nat)
    requires i < |db.bookings| && db.bookings[i].userId == id && db.bookings[i].status == Confirmed
    requires UpdateUser(db, id, name, email, password, newHash).Ok?
    ensures ConfirmedCountOf(db.bookings, id) >= 1
    ensures UpdateUser(db, id, name, email, password, newHash).value.2 == 0
  {
    ConfirmedCountIsSize(db.bookings, id);
    assert i in ConfirmedPositions(db.bookings, id);
  }

  // ---------------------------------------------------------------------
  // deleteUser

  function BookingsNotOf(bs: seq<Booking>, id: UserId): (r: seq<Booking>)
    ensures forall b :: b in r <==> b in bs && b.userId != id
    ensures |r| <= |bs|
    decreases |bs|
  {
    if |bs| == 0 then []
    else if bs[0].userId == id then BookingsNotOf(bs[1..], id)
    else [bs[0]] + BookingsNotOf(bs[1..], id)
  }

  /** Two bookings may sit together in a valid store. */
  predicate Compatible(a: Booking, b: Booking)
  {
    && a.id != b.id
    && a.orderId != b.orderId
    && !(a.slotId == b.slotId && a.userId == b.userId)
    && !(a.slotId == b.slotId && a.status == Confirmed && b.status == Confirmed)
  }

  lemma ValidHeadCompatible(bs: seq<Booking>)
    requires |bs| > 0 && ValidBookings(bs)
    ensures ValidBookings(bs[1..])
    ensures forall j :: 1 <= j < |bs| ==> Compatible(bs[0], bs[j])
  {
    var t := bs[1..];
    forall i, j | 0 <= i < j < |t| ensures Compatible(t[i], t[j]) {
      assert t[i] == bs[i + 1] && t[j] == bs[j + 1];
    }
  }

  lemma ValidCons(x: Booking, t: seq<Booking>)
    requires ValidBookings(t)
    requires forall b :: b in t ==> Compatible(x, b)
    ensures ValidBookings([x] + t)
  {
    var s := [x] + t;
    forall i, j | 0 <= i < j < |s| ensures Compatible(s[i], s[j]) {
      assert s[j] == t[j - 1];
      if i > 0 { assert s[i] == t[i - 1]; } else { assert s[j] in t; }
    }
  }

  /** Dropping every booking of one user keeps the booking invariants. */
  lemma {:induction false} DropUserKeepsValid(bs: seq<Booking>, id: UserId)
    requires ValidBookings(bs)
    ensures ValidBookings(BookingsNotOf(bs, id))
    decreases |bs|
  {
    if |bs| > 0 {
      ValidHeadCompatible(bs);
      DropUserKeepsValid(bs[1..], id);
      if bs[0].userId != id {
        var rest := BookingsNotOf(bs[1..], id);
        forall b | b in rest ensures Compatible(bs[0], b) {
          var j :| 0 <= j < |bs[1..]| && bs[1..][j] == b;
          assert bs[j + 1] == b;
        }
        ValidCons(bs[0], rest);
      }
    }
  }

  /** `deleteUser`: the account goes, and so does every booking it held. */
  function DeleteUser(db: Db, id: UserId): (r: Result<Db>)
    ensures FindUser(db.users, id).None? <==> r == Err(UserNotFound)
    ensures r.Ok? ==> |r.value.users| == |db.users| - 1
    ensures r.Ok? ==> r.value.users == RemoveAt(db.users, FindUser(db.users, id).value)
    ensures r.Ok? ==> forall b :: b in r.value.bookings <==> b in db.bookings && b.userId != id
    ensures r.Ok? ==> r.value.slots == db.slots
    ensures r.Ok? && ValidBookings(db.bookings) ==> ValidBookings(r.value.bookings)
    ensures r.Ok? && ValidUsers(db.users) ==> ValidUsers(r.value.users)
  {
    match FindUser(db.users, id)
    case None => Err(UserNotFound)
    case Some(k) =>
      var users := RemoveAt(db.users, k);
      assert ValidUsers(db.users) ==> ValidUsers(users) by {
        if ValidUsers(db.users) {
          forall i, j | 0 <= i < j < |users| ensures users[i].name != users[j].name && users[i].email != users[j].email {
            var i' := if i < k then i else i + 1;
            var j' := if j < k then j else j + 1;
            assert users[i] == db.users[i'] && users[j] == db.users[j'];
          }
        }
      }
      assert ValidBookings(db.bookings) ==> ValidBookings(BookingsNotOf(db.bookings, id)) by {
        if ValidBookings(db.bookings) { DropUserKeepsValid(db.bookings, id); }
      }
      Ok(Db(db.slots, BookingsNotOf(db.bookings, id), users))
  }

  // ---------------------------------------------------------------------
  // getUsers

  datatype UserRow = UserRow(id: UserId, name: string, email: string, role: string, bookingCount: nat)

  /** The listing's query: accounts of role "user", and when a search is
      given, those whose name or e-mail contains it. */
  predicate Listed(u: User, search: Option<string>)
  {
    u.role == "user" && (Given(search) ==> ContainsIgnoringCase(u.name, search.value) || ContainsIgnoringCase(u.email, search.value))
  }

  function ListedUsers(users: seq<User>, search: Option<string>): (r: seq<User>)
    ensures forall u :: u in r <==> u in users && Listed(u, search)
    ensures |r| <= |users|
    decreases |users|
  {
    if |users| == 0 then []
    else if Listed(users[0], search) then [users[0]] + ListedUsers(users[1..], search)
    else ListedUsers(users[1..], search)
  }

  function NameKey(u: User): Key
  {
    Key(0, u.name, "", 0)
  }

  /** An account as the listing shows it: everything but the password, and
      its confirmed-booking count. */
  function RowOf(bs: seq<Booking>, u: User): (row: UserRow)
    ensures row.id == u.id && row.name == u.name && row.email == u.email && row.role == u.role
    ensures row.bookingCount == |ConfirmedPositions(bs, u.id)|
  {
    ConfirmedCountIsSize(bs, u.id);
    UserRow(u.id, u.name, u.email, u.role, ConfirmedCountOf(bs, u.id))
  }

  function RowsOf(bs: seq<Booking>, us: seq<User>): (r: seq<UserRow>)
    ensures |r| == |us|
    ensures forall i :: 0 <= i < |us| ==> r[i] == RowOf(bs, us[i])
  {
    seq(|us|, i requires 0 <= i < |us| => RowOf(bs, us[i]))
  }

  /** `getUsers`: the listed accounts by name, a page of them with
      `(page - 1) * limit` skipped, each with its confirmed-booking count; the
      total counts every listed account. */
  function GetUsers(db: Db, page: Option<int>, limit: Option<int>, search: Option<string>): (r: Result<Page<UserRow>>)
    ensures r.Err? <==> PageStart(OrDefault(page, DefaultPage), OrDefault(limit, DefaultLimit)) < 0 || OrDefault(limit, DefaultLimit) <= 0
    ensures r.Err? ==> r.error == GetUsersFailed
    ensures r.Ok? ==> r.value.total == |ListedUsers(db.users, search)|
    ensures r.Ok? ==> |r.value.items| <= r.value.limit
    ensures r.Ok? ==> forall row :: row in r.value.items ==>
      row.role == "user" && row.bookingCount == ConfirmedCountOf(db.bookings, row.id)
    ensures r.Ok? ==> forall i, j :: 0 <= i < j < |r.value.items| ==> StrLe(r.value.items[i].name, r.value.items[j].name)
    ensures r.Ok? ==> r.value.page == OrDefault(page, DefaultPage) && r.value.limit == OrDefault(limit, DefaultLimit)
    ensures r.Ok? ==>
      && DbPage(ListedUsers(db.users, search), NameKey, r.value.page, r.value.limit).Some?
      && r.value.items == RowsOf(db.bookings, DbPage(ListedUsers(db.users, search), NameKey, r.value.page, r.value.limit).value)
  {
    var p := OrDefault(page, DefaultPage);
    var l := OrDefault(limit, DefaultLimit);
    var listed := ListedUsers(db.users, search);
    match DbPage(listed, NameKey, p, l)
    case None => Err(GetUsersFailed)
    case Some(us) =>
      var rows := RowsOf(db.bookings, us);
      assert forall u :: u in us ==> u.role == "user";
      PageRows(db.bookings, us);
      Ok(Page(|listed|, p, l, rows))
  }

  /** The rows of a page sorted by name are in name order and show each
      account's role and its confirmed-booking count. */
  lemma PageRows(bs: seq<Booking>, us: seq<User>)
    requires SortedBy(us, NameKey)
    requires forall u :: u in us ==> u.role == "user"
    ensures forall i, j :: 0 <= i < j < |RowsOf(bs, us)| ==> StrLe(RowsOf(bs, us)[i].name, RowsOf(bs, us)[j].name)
    ensures forall row :: row in RowsOf(bs, us) ==> row.role == "user" && row.bookingCount == ConfirmedCountOf(bs, row.id)
  {
    var rows := RowsOf(bs, us);
    forall i, j | 0 <= i < j < |rows| ensures StrLe(rows[i].name, rows[j].name) {
      assert KeyLe(NameKey(us[i]), NameKey(us[j]));
      StrLeRefl(us[i].name);
    }
    forall row | row in rows ensures row.role == "user" && row.bookingCount == ConfirmedCountOf(bs, row.id) {
      var i :| 0 <= i < |rows| && rows[i] == row;
      assert us[i] in us;
    }
  }

  /** Every account of role "user" that matches the search is on some page
      of the listing, for any positive page size. */
  lemma ListedUserIsOnAPage(db: Db, limit: int, search: Option<string>, k: nat)
    requires limit >= 1 && k < |db.users| && Listed(db.users[k], search)
    ensures exists p :: (p >= 1 && GetUsers(db, Some(p), Some(limit), search).Ok?
      && RowOf(db.bookings, db.users[k]) in GetUsers(db, Some(p), Some(limit), search).value.items)
  {
    var listed := ListedUsers(db.users, search);
    var p := DbPageOf(listed, NameKey, db.users[k], limit);
    var us := DbPage(listed, NameKey, p, limit).value;
    var r := GetUsers(db, Some(p), Some(limit), search);
    assert r.Ok? && r.value.page == p && r.value.limit == limit;
    var j :| 0 <= j < |us| && us[j] == db.users[k];
    assert r.value.items[j] == RowOf(db.bookings, db.users[k]);
  }
}
